=== FILE: README.md ===
# LAN file share: a Dafny model of the transfer engine

This project models the logic underneath a desktop LAN file-sharing
application: the server that hands out shared files over HTTP, the
multi-threaded downloader that fetches them in byte ranges, the verifier and
resume store behind it, LAN discovery, access control, the download client
and the settings window's validation. Sockets, threads and widgets are left
out. Each piece is a pure function over immutable data. The clock, file
contents, hash functions, probe results and network answers are parameters.

The modules follow the source files:

| module | file | what it holds |
|---|---|---|
| `Text` | (shared) | Python's `str`/`int` behaviour the rest needs: `int()` parsing, `str()` of numbers, `split`, `replace`, `strip`, `lower`, `os.path.splitext`/`basename` |
| `Config` | config.py | buffer bands, file-size admission, the byte branch of size formatting, the configuration merge |
| `Verification` | file_verification.py | checksums (hashes as parameters), the resume store as a map, chunk and download verification, merge |
| `Transfer` | fast_transfer.py | chunk planning, the worker pool as a sequential fold, error/cancel precedence, merge order, resume hooks, the speed window, the thread policies |
| `Server` | main.py | routing, `Range` parsing, the 206/400/404/416 answers, the streamed body, HEAD, the preview content types |
| `EndToEnd` | fast_transfer.py + main.py | the downloader talking to the handler |
| `Discovery` | discovery.py | the server registry: beacons, probes, subnet and ARP candidates, staleness cleanup |
| `Security` | security.py | IP lists, the sliding-window rate limiter, tokens, request validation, safe content types, password hashing |
| `Client` | client.py | listing combination, duplicate-name resolution, the status map, progress, the listing cache, search |
| `Settings` | settings_ui.py | validation, the unit conversions of display and save, reset values, cancel |

Behaviour of the code worth knowing:

- A worker whose request fails logs the error and stops, but the other workers keep taking chunks. The pool does not stop on the first error (fast_transfer.py:192-194).
- The worker's read loop never looks at the cancel flag. Cancellation is only seen when a worker takes its next chunk (fast_transfer.py:147, 170-185).
- HEAD on `/` sends a `Content-Length`, but GET on `/` does not (main.py:47-52 against main.py:96-102).
- `can_resume` measures `<target>.partial` (fast_transfer.py:225). The downloader only ever writes `<target>.part<N>` files (fast_transfer.py:155), so no download is ever resumable (`Transfer.DownloadLeavesNothingToResume`).
- The resume id hashes `url_path_size`. That string is ambiguous when an underscore can move between the URL and the path (`Transfer.JobKeyAmbiguous`).
- `bytes=-N` is read as the first N+1 bytes, not as the last N bytes that section 2.1 of RFC 7233 defines (`Server.SuffixRangeReadAsPrefix`).
- The chunking loop of `download` moves its offset by `thread_chunk_size`. For a non-empty file, a configured size of zero or less makes the loop run forever (fast_transfer.py:55-71). `Transfer.PlanChunks` and `Transfer.Download` therefore need a positive size unless the file is empty.
- On Windows, `os.path.join` drops the save directory when the file name is rooted (`\x`, `/x`) or names another drive (`D:x`) (client.py:136, 142). The name comes from the server's listing, so such a name places the file outside the chosen folder. `Client.PathJoin` treats every name as relative (see "Left out"); it does follow `ntpath` for a bare-drive directory such as `C:`, which gets no separator (`C:x`).

## Model

| member | source | states |
|---|---|---|
| Text.ParseNatToString | main.py:119-121 | a number written in decimal (as the downloader writes range bounds) reads back through `int()` as that number |
| Text.ParseInt | main.py:119-121 | `int()` of a string: the empty string is refused, and a negative result needs a minus sign (partners: `Text.ParseNatToString`, `Text.ParseIntWithoutMinus`) |
| Text.Lower | main.py:196 | `lower()`: the same length, each character mapped through the ASCII case table |
| Text.ParseIntWithoutMinus | main.py:119-121 | a range bound without a minus sign never parses to a negative number |
| Text.JoinSplit | main.py:120 | `split` loses nothing: joining the pieces with the separator gives the input back |
| Text.SplitJoin | main.py:120 | pieces that do not contain the separator come back unchanged from a join followed by a split |
| Text.RemoveAllAbsent | main.py:120 | stripping `bytes=` leaves a string alone when it never contains the pattern's first character |
| Text.Strip | client.py:90-92 | the stripped text starts and ends with non-space, and text without white space is unchanged |
| Text.StripRemovesOnlySpace | client.py:90-92 | the input is the stripped text with nothing but white space on either side |
| Text.SplitExt | client.py:140 | stem and extension rejoin to the name, and the extension is empty or a dot followed by no dot or separator |
| Text.SplitExtAtLastDot | client.py:140 | an extension is split off exactly when the last path component has a non-dot character before one of its dots, and it then starts at the last dot |
| Text.BaseName | main.py:110 | the base name holds no path separator, is a suffix of the path, and is either the whole path or preceded by a separator |
| Config.ChunkSize | config.py:44-63 | the buffer is always positive; each of the four buffer sizes is chosen exactly on its size band (below 10 MiB, below 100 MiB, below 1 GiB, above) |
| Config.ChunkSizeMonotone | config.py:56-63 | a larger transfer never gets a smaller buffer |
| Config.ValidateFileSize | config.py:84-102 | sizes up to exactly 10240 MiB are accepted and larger ones rejected with the limit message; an accepted size carries a warning exactly when it exceeds 1024 MiB |
| Config.FormatSmallSize | config.py:75-76 | a size below 1024 is rendered ending in " B" |
| Config.FormatSmallSizeReadsBack | config.py:75-76 | the rendering without " B" reads back as the size |
| Config.LoadConfig | config.py:123-145 | the file's entries override those keys, every other key keeps its value, and a missing or unreadable file changes nothing |
| Verification.Checksum | file_verification.py:16-47 | an unknown algorithm is refused exactly; a missing file is a read failure; otherwise the digest is the chosen hash of the whole content |
| Verification.VerifyFile | file_verification.py:50-67 | valid exactly when a digest was computed and equals the expected one ignoring case; errors come back as a failure |
| Verification.ReadByteRange | file_verification.py:90-102 | the loop reads exactly the bytes of `[start, end)` clipped at end of file, and nothing when the range is empty or starts past the end |
| Verification.PartialChecksum | file_verification.py:70-106 | hashes `[start, end)`; a missing file or a negative start is a read failure; an unknown algorithm falls back to sha1 |
| Verification.UnknownAlgorithmHandling | file_verification.py:28-35 | for an unknown algorithm the whole-file checksum refuses while the partial one silently uses sha1 |
| Verification.LoadResume | file_verification.py:134-154 | a record is found exactly when one is stored and readable, and it is the stored one |
| Verification.SaveResume | file_verification.py:118-132 | after saving, the id loads as the saved record and every other id loads as before |
| Verification.DeleteResume | file_verification.py:156-169 | after deleting, the id loads as nothing and every other id loads as before |
| Verification.CanResume | file_verification.py:185-210 | resumable exactly when a record's total and downloaded count match the target and the partial file, with the partial size strictly between 0 and the total; the answer is that size, else `(false, 0)` |
| Verification.NoPartialFileNoResume | file_verification.py:171-183 | without a partial file nothing is resumable, whatever the store holds |
| Verification.VerifyChunk | file_verification.py:216-246 | missing, then size, then the optional md5, in that order; valid exactly when present, of the right size and matching; a digest is reported only for an md5 mismatch |
| Verification.MergeFiles | file_verification.py:262-273 | the output is the in-order concatenation of the chunks; on the first missing chunk it holds exactly the chunks before it |
| Verification.FailureMessagesDistinct | file_verification.py:262-288 | the missing-chunk, size-mismatch and checksum-mismatch failures never share a message |
| Verification.MergeAndVerify | file_verification.py:249-288 | merged exactly when every chunk is present, the length is the expected total and the optional sha256 matches; each failure reason names the first check that failed; only the output file changes |
| Verification.VerifyDownload | file_verification.py:315-348 | missing exactly when absent, wrong size exactly when present with another length, verified exactly when present, of the right size and matching the optional checksum |
| Transfer.NumChunksBound | fast_transfer.py:62-71 | range `k` exists exactly when it starts inside the file |
| Transfer.PlanChunks | fast_transfer.py:54-71 | the chunking loop produces the closed-form plan, and nothing for an empty file whatever the range size |
| Transfer.PlanStep | fast_transfer.py:62-71 | one turn of the loop builds range `k` and moves to the next range's start, or to the end of the file after the last |
| Transfer.ChunkFacts | fast_transfer.py:62-71 | range `k` starts at `k * C`, has between 1 and `C` bytes, is full size exactly when it is not the last, and the last one ends at the last byte |
| Transfer.PlanPartition | fast_transfer.py:62-71 | the ranges partition `[0, size)`: ids count from 0, consecutive ranges are adjacent, all but the last are full, the first starts at 0 and the last ends at the last byte; an empty file has none |
| Transfer.PlanPrefixCovers | fast_transfer.py:62-71 | the first `j` ranges read back from the file and joined are the file's first `min(j * C, size)` bytes |
| Transfer.PlanCoversContent | fast_transfer.py:62-71 | joining all planned ranges of a file gives the whole file back |
| Transfer.ReceiveChunk | fast_transfer.py:166-176 | the read loop keeps a prefix of what the server sent, never more than the range's size |
| Transfer.ChunkRequestHeaders | fast_transfer.py:157-161 | the request carries the range header first and a bearer header exactly when a token is configured |
| Transfer.PartPathIndex | fast_transfer.py:155 | a part path is recognised as one, its number reads back, and it is never the target itself |
| Transfer.PartialMarkerIsNotAPart | fast_transfer.py:225 | the `.partial` path the resume check measures is never a part file |
| Transfer.InsertById | fast_transfer.py:105 | inserting into an id-sorted list keeps it sorted and adds exactly the one part |
| Transfer.SortById | fast_transfer.py:105 | the sorted parts are ordered by id and are a permutation of the input |
| Transfer.SortKeepsOrdered | fast_transfer.py:105 | parts already in increasing id order are left as they are |
| Transfer.SortedUnique | fast_transfer.py:105 | two id-sorted permutations of the same parts, where an id names one part, are equal |
| Transfer.SortIsCanonical | fast_transfer.py:105 | the merge order does not depend on the order in which workers finished |
| Transfer.WorkerCount | fast_transfer.py:82 | never more workers than chunks, and at least one when there are threads and chunks |
| Transfer.WorkStep | fast_transfer.py:149-194 | a received body adds its part and keeps the worker alive; a failed fetch logs its reason; files other than this target's parts are untouched |
| Transfer.Work | fast_transfer.py:145-194 | errors, parts and byte counts only grow; every logged error is the reason of some failed fetch; no error is logged when every fetch succeeds; files other than this target's parts are untouched |
| Transfer.WorkCompletes | fast_transfer.py:145-194 | with every fetch succeeding, each remaining chunk `k` becomes part `k` holding what the server sent for it |
| Transfer.WorkCompletesParts | fast_transfer.py:145-194 | with every fetch succeeding, the parts recorded are the planned ones in queue order |
| Transfer.WorkWritesParts | fast_transfer.py:145-194 | with every fetch succeeding, every remaining chunk's part file holds its received bytes |
| Transfer.WorkKeepsOtherFiles | fast_transfer.py:145-194 | with every fetch succeeding, no file other than the remaining parts changes |
| Transfer.CompleteRun | fast_transfer.py:145-194 | a run in which every range is answered in full produces one part file per range holding exactly that range |
| Transfer.JobKeyAmbiguous | fast_transfer.py:196-200 | two different downloads can share a resume id |
| Transfer.ThreadCount | fast_transfer.py:28 | a positive hint is used as given; a missing or zero hint falls back to the configured count, 4 by default |
| Transfer.NewDownloader | fast_transfer.py:24-40 | the thread count, the id derived from url, path and size, and a fresh state with no bytes, errors or cancellation |
| Transfer.Cancel | fast_transfer.py:202-232 | raises the flag; with resume enabled, the store then loads the downloader's byte count under its id and no other id changes |
| Transfer.CanResumeDownload | fast_transfer.py:218-227 | with resume disabled the answer is `(false, 0)`; a positive answer names the `.partial` file's size |
| Transfer.MergeStage | fast_transfer.py:102-143 | succeeds exactly when the sorted parts merge and verify; the target then holds their concatenation and the resume record is dropped; the final re-check never fails; only the target and its parts change |
| Transfer.CleanUp | fast_transfer.py:119-140 | after a good merge every part is deleted, the target is kept, the resume record is dropped and the report is success |
| Transfer.CancelIfAsked | fast_transfer.py:229-232 | a cancel request raises the flag and saves the resume record; without one the store is unchanged |
| Transfer.Finish | fast_transfer.py:95-143 | the first logged error wins, then cancellation (reported as "Download cancelled"), then the merge; after an error or a cancel nothing is merged and the files stay as the workers left them; success implies no error and no cancel, and a target of the right size and checksum with its resume record gone |
| Transfer.Download | fast_transfer.py:42-143 | the whole download: a success leaves a verified file of the announced size and no resume record; a failure carries the first error; a cancel without errors reports "Download cancelled" and saves the record; after an error or a cancel the target file is exactly as it was before the call |
| Transfer.PlannedPartsReadBack | fast_transfer.py:105-106 | the part files of a complete run, read back in merge order, are the fetched ranges in plan order |
| Transfer.PlannedPoolMerges | fast_transfer.py:105-114 | part files holding the planned slices merge in id order into the file's bytes, which pass the size and checksum checks |
| Transfer.FinishMerges | fast_transfer.py:95-117 | with no error and no cancel, parts that merge make the download succeed with their concatenation |
| Transfer.DownloadDeliversContent | fast_transfer.py:42-143 | when the server answers every range with the file's bytes for it and a worker runs, the download succeeds and leaves exactly the file's content at the target |
| Transfer.NoWorkersSizeMismatch | fast_transfer.py:82-114 | with no worker thread, a non-empty file is never fetched and the merge reports the size mismatch |
| Transfer.DownloadLeavesNothingToResume | fast_transfer.py:218-227 | after any download the resume check answers `(false, 0)`, because the engine never writes the `.partial` file it measures |
| Transfer.Received | fast_transfer.py:170-176 | a part holds a prefix of the body, at most the range's size, and all of it when the body is short |
| Transfer.Push | fast_transfer.py:312-318 | the window size is kept, the length grows by one until the window is full, and the newest sample is last |
| Transfer.PushAllRecent | fast_transfer.py:312-318 | from any window holding the recent past, the monitor keeps exactly the most recent `window_size` samples of everything seen |
| Transfer.WindowKeepsRecent | fast_transfer.py:299-318 | a fresh monitor fed a history keeps its most recent `window_size` samples, in order |
| Transfer.CurrentSpeed | fast_transfer.py:327-332 | the current speed is one of the samples, and 0 when there are none |
| Transfer.CurrentIsLastAdded | fast_transfer.py:312-332 | with a window of at least one, the current speed is the sample just added |
| Transfer.AverageWithin | fast_transfer.py:320-325 | the average lies between any lower and upper bound of the samples |
| Transfer.AddSample | fast_transfer.py:304-318 | a sample in MiB/s (0 for a non-positive elapsed time) is appended and, when the window was full, the oldest one dropped; with a window of one or more it becomes the current speed (partner: `Transfer.WindowKeepsRecent`) |
| Transfer.AverageSpeed | fast_transfer.py:320-325 | 0 with no samples; otherwise the value whose product with the sample count is their sum, i.e. the mean (partner: `Transfer.AverageWithin`) |
| Transfer.MultithreadByDefault | fast_transfer.py:341-355 | with the shipped configuration a file is split exactly when it has 10 MiB or more |
| Transfer.MultithreadGate | fast_transfer.py:351-355 | the option switched off disables splitting; switched on, splitting starts exactly at the configured minimum |
| Transfer.ShouldUseMultithread | fast_transfer.py:341-355 | the option switched off refuses every size; a split file is never below the configured minimum (partners: `Transfer.MultithreadGate`, `Transfer.MultithreadByDefault`, `Transfer.MultithreadMonotone`) |
| Transfer.MultithreadMonotone | fast_transfer.py:351-355 | if a file is split, so is every larger one |
| Transfer.OptimalThreads | fast_transfer.py:357-379 | a zero range size fails exactly; otherwise exactly min(2, maximum) below 50 MiB, min(4, maximum) below 500 MiB and the configured maximum from there on, so never above that maximum and at least 1 when it is |
| Transfer.OptimalThreadsMonotone | fast_transfer.py:357-379 | a larger file never gets fewer threads |
| Transfer.OptimalThreadsByDefault | fast_transfer.py:357-379 | with the shipped configuration: 2 threads below 50 MiB, 4 from there on |
| Server.DownloadPathRoutes | main.py:35-43 | `/download/<id>` is routed back to that id |
| Server.ParseRange | main.py:119-121 | a parsed range never starts below 0, and ends at a non-negative bound or at the last byte |
| Server.RangeHeaderParses | main.py:119-121 | the header a downloader sends for `[start, end]` reads back as exactly that range |
| Server.SuffixRangeReadAsPrefix | main.py:119-121 | `bytes=-N` reads as bytes 0 to N |
| Server.OpenEndedRange | main.py:121 | `bytes=N-` runs to the last byte |
| Server.NonNumericRange | main.py:118-157 | a non-numeric bound is malformed |
| Server.Delivered | main.py:140-154 | the client receives a prefix of the data, all of it when every write succeeds |
| Server.WriteBody | main.py:140-154 | the copy loop sends exactly what a client accepting the given writes receives, a prefix of the data |
| Server.ServeRange | main.py:116-157 | malformed exactly when answered 400; unsatisfiable exactly when answered 416; otherwise 206 with the range's headers and a prefix of exactly the range's bytes |
| Server.ServeDownload | main.py:104-182 | 404 exactly for an unknown id or a vanished file; without a Range header 200 with the download headers and a prefix of the file; with one, the ranged answer |
| Server.EmptyFileHasNoRange | main.py:124-126 | a ranged request for an empty file is answered 400 or 416, never 206 |
| Server.RangeRequestServed | main.py:119-154 | a request for `[start, end]` inside the file is answered 206 with exactly those bytes |
| Server.PreviewFollowsTable | main.py:196-205 | the content-type branches are the extension table read top to bottom |
| Server.PreviewContentType | main.py:196-205 | one of the four preview types or `application/octet-stream`; `.txt`, `.html` and `.json` in any case are `text/plain` (partners: `Server.PreviewFollowsTable`, `Server.PreviewIgnoresCase`) |
| Server.PreviewIgnoresCase | main.py:196-205 | a path and its lower-cased form get the same preview type |
| Server.Get | main.py:35-43 | unknown paths are delegated exactly; `/` gets the listing; `/download/<id>` gets the download answer |
| Server.Head | main.py:45-94 | headers only, never a body; unknown paths are delegated exactly |
| Server.HeadMatchesGetDownload | main.py:53-69 | HEAD on a download has the status and headers of a GET without Range, or the same error |
| Server.HeadMatchesGetPreview | main.py:70-92 | HEAD and GET on a preview choose the same type, and HEAD's length is GET's body length |
| Server.ListingLengthAnnounced | main.py:47-52 | the listing's HEAD announces the length of the page GET sends |
| EndToEnd.FetchFrom | fast_transfer.py:163-165 | a worker's request yields a body exactly when the handler answers with one |
| EndToEnd.PlannedRangesServed | main.py:119-154 | every planned range of a shared file is served with its bytes |
| EndToEnd.DownloadFromServer | fast_transfer.py:42-143 | downloading a shared file from the handler, with a worker, no cancel and a matching checksum, leaves the server's bytes at the target |
| Discovery.NewDiscovery | discovery.py:18-25 | starts with no servers, no callbacks and not running |
| Discovery.ServerKeyInjective | discovery.py:128 | for addresses without a colon, equal keys mean the same address and port |
| Discovery.Notify | discovery.py:37-43 | every registered callback receives the registry, in order, and nothing else changes |
| Discovery.AddCallback | discovery.py:27-35 | the callback is registered, and called at once exactly when the registry already holds a server |
| Discovery.StartDiscovery | discovery.py:45-62 | afterwards the service runs; a running service is left as it is, otherwise three threads start |
| Discovery.StartIdempotent | discovery.py:45-62 | starting twice starts the threads once |
| Discovery.StopDiscovery | discovery.py:64-71 | stops the service and keeps the registry |
| Discovery.ProcessBeacon | discovery.py:119-141 | a beacon that is not another instance's announcement (unparsable, wrong type, port missing, zero or ours) changes nothing; otherwise only the sender's key is set, with its url and time, and each callback, in order, receives the updated registry |
| Discovery.OwnBeaconIgnored | discovery.py:124-126 | our own beacon echoed back is ignored |
| Discovery.CheckServer | discovery.py:208-230 | an open port registers the server with timestamp 0 and each callback, in order, receives the updated registry; a closed one changes nothing |
| Discovery.CheckAll | discovery.py:162-166 | while running, every answering host is registered; keys not probed keep their entries, and every new key was probed |
| Discovery.HostsFromMembers | discovery.py:183-189 | the scanned addresses are exactly `base.j` for `i <= j <= 254`, less the local one |
| Discovery.SubnetCandidates | discovery.py:176-189 | nothing for a loopback or unknown address, at most 254 candidates never including the local address, and a failure exactly when the address lacks three parts |
| Discovery.NetworkRange | discovery.py:243-252 | a range exactly for a routable address with three parts, ending in `.0/24` |
| Discovery.CandidatesInRange | discovery.py:248-249 | the advertised range and the scanned addresses share their first three parts |
| Discovery.Dedup | discovery.py:288 | no repeats, and the same members as the input |
| Discovery.ActiveHosts | discovery.py:273-292 | exactly the ARP addresses that are neither loopback nor link-local, without repeats; nothing when `arp` fails |
| Discovery.ScanTargets | discovery.py:151-174 | the ARP hosts when there are any; otherwise exactly the subnet candidates, or nothing when the local address cannot be split into a subnet |
| Discovery.QuickScan | discovery.py:143-174 | while running, every answering target is registered; every new key comes from a probed target; a stopped service changes nothing |
| Discovery.Cleanup | discovery.py:254-268 | removes exactly the entries older than 300 seconds, keeps the others unchanged, and only when something was removed does each callback, in order, receive the cleaned registry |
| Discovery.CleanupIdempotent | discovery.py:254-268 | cleaning up twice at the same moment is cleaning up once |
| Discovery.CleanupMonotone | discovery.py:254-268 | a later cleanup keeps no more servers than an earlier one |
| Discovery.AnnouncementLifetime | discovery.py:129-135 | an announcement survives a cleanup exactly when the cleanup comes at most 300 seconds later |
| Security.NewAccessControl | security.py:19-27 | empty lists and tokens, no token requirement, 60 requests a minute |
| Security.AllowIp | security.py:29-31 | adds the address to the allowlist only |
| Security.BlockIp | security.py:33-35 | adds the address to the blocklist only |
| Security.BlockWins | security.py:37-43 | a blocked address is refused even when allowlisted, in either order; with no allowlist and no block everyone is admitted |
| Security.IsIpAllowed | security.py:37-43 | an address is admitted exactly when it is not blocked and the allowlist is empty or holds it (partners: `Security.BlockWins`, `Security.AllowlistExcludes`) |
| Security.AllowlistExcludes | security.py:41-42 | allowing one address shuts out every address not on the allowlist |
| Security.CheckRateLimit | security.py:69-85 | forgets requests older than a minute, accepts exactly when fewer than the maximum remain, records only an accepted request, and leaves other addresses alone |
| Security.RateLimitKeepsBound | security.py:78-85 | no address ever holds more than the maximum timestamps, and those are all from the last minute |
| Security.BurstRefused | security.py:78-85 | the request after the maximum within a minute is refused and records nothing |
| Security.GenerateToken | security.py:45-54 | the new token expires after the given hours with no uses; nothing else changes |
| Security.ValidateToken | security.py:56-67 | valid exactly for a known unexpired token, whose use count then rises; an expired token is deleted |
| Security.TokenLifetime | security.py:45-67 | a token validates from creation until its expiry, inclusive |
| Security.CleanupExpiredTokens | security.py:87-99 | drops exactly the expired tokens, keeps the rest unchanged, and the count returned plus those kept is the count before |
| Security.CleanupAgreesWithValidate | security.py:93 | a token survives cleanup exactly when it would still validate |
| Security.QueryToken | security.py:141-144 | the token is the value of the first `token=` pair with a non-empty value, and there is none exactly when no pair is of that form |
| Security.TokenFromRequest | security.py:132-146 | a Bearer header wins with the text after `Bearer `; otherwise the token is the query token of the text after the first `?`; without either there is none |
| Security.QueryTokenFound | security.py:140-144 | a single `token=` query parameter is found when no Bearer header is sent |
| Security.VerdictCode | security.py:114-127 | a request is admitted exactly when the status is 200 |
| Security.ValidateRequest | security.py:109-130 | 403 exactly for a refused address, then 429 exactly when the rate limit refuses, then, when a token is required, admitted exactly for a non-empty token that is known and not expired; the rate window is updated once the address passes, and the token's use count or expiry removal is recorded exactly when a non-empty token was checked |
| Security.RefusedTokenUsesSlot | security.py:118-128 | a request refused for its token still uses up a slot of the rate window |
| Security.EmptyBearerRefused | security.py:137-138 | an empty Bearer token is refused and does not fall back to the query |
| Security.SafeContentType | security.py:320-341 | the type is one from the table or `application/octet-stream`, never `text/html` |
| Security.SafeTypeOfName | security.py:322 | any casing of a table extension gets that extension's type |
| Security.UnknownTypeIsBinary | security.py:322-341 | an extension outside the table, in any casing, gets `application/octet-stream` |
| Security.NoExtensionIsBinary | security.py:320-341 | a name without a dot gets `application/octet-stream` |
| Security.HtmlServedAsText | security.py:329 | HTML is served as plain text whatever its case |
| Security.Hex | security.py:509 | two lower-case hex digits per byte, high nibble first |
| Security.HexInjective | security.py:509 | different bytes give different hex strings |
| Security.HashPassword | security.py:503-509 | the stored hash begins with the salt and then holds two hex digits per key byte |
| Security.PasswordRoundTrip | security.py:503-516 | a hash made with a 32-character salt verifies its password and no password with a different derived key |
| Security.VerifyPassword | security.py:511-516 | a stored hash of 32 characters or more verifies a password exactly when it equals the hash of that password under its first 32 characters as salt (partner: `Security.PasswordRoundTrip`) |
| Client.CombineListing | client.py:88-95 | one entry per link, in order, each field from its own list at the same position, stripped, or the placeholder when the list is short |
| Client.ListingIgnoresExtraMatches | client.py:88-95 | matches beyond the last link are ignored, and a nameless link gets `file_0` |
| Client.CandidatesDistinct | client.py:136-143 | different attempts name different paths |
| Client.ResolveSavePath | client.py:136-143 | the path chosen names no existing file, every earlier candidate does, and the search ends within as many attempts as there are files |
| Client.PathJoin | client.py:136-142 | the directory is a prefix and the name a suffix of the result, with at most one `\` between them; a bare drive such as `C:` is joined with no separator (partner: `Client.PathJoinInjective`) |
| Client.PathJoinInjective | client.py:136-142 | two names joined to the same directory give the same path only when they are the same name, so each duplicate candidate is a distinct path |
| Client.Begin | client.py:116-122 | the entry is (re)created as downloading at 0% and the start is announced |
| Client.Finish | client.py:168-173 | the entry is completed at 100% with its path; other entries are untouched; exactly one event is appended, `completed` at 100 with the text naming the file and the saved path |
| Client.Fail | client.py:175-185 | the entry is failed with the message; other entries are untouched |
| Client.Cancel | client.py:204-208 | only an existing entry's status changes, and only then is the cancellation announced |
| Client.CancelIsOnlyALabel | client.py:204-208 | the transfer thread is not told: a cancelled download that finishes reads completed |
| Client.ClearFinished | client.py:210-218 | exactly the completed, failed and cancelled entries go, the rest are unchanged, and the count returned plus those kept is the count before |
| Client.ProgressEvents | client.py:147-165 | one progress event per read when the length is positive, none otherwise |
| Client.ProgressClimbsToHundred | client.py:158-165 | progress never goes backwards, and reaches 100% on the last read when the body has the announced length |
| Client.RunDownload | client.py:113-185 | the entry ends completed exactly when the body arrived, which is then written in full at a fresh path; a read that fails midway leaves the bytes received so far at that path; any other failure leaves the disk unchanged; the entry's error text follows the kind of failure |
| Client.BrowseServer | client.py:228-257 | a fresh cache entry is served unless forced; otherwise the server's answer replaces it; on failure the stale entry is served if there is one, else the error is raised |
| Client.CacheServesRepeats | client.py:233-250 | within a minute of a fetch, browsing again returns the same files whatever the server says now |
| Client.FilterByName | client.py:265-269 | exactly the entries whose name contains the term ignoring case, never more than the input |
| Client.FilterKeepsOrder | client.py:265-269 | filtering keeps the listing's order: it distributes over concatenation, and a single file stays exactly when it matches |
| Client.SearchStable | client.py:265-269 | searching a result again changes nothing, and the empty term keeps every file in order |
| Client.SearchFiles | client.py:259-274 | browses with the cache rules; the result is exactly the browsed listing filtered by the term, and a browse failure comes back with the search prefix |
| Settings.KeyInjective | settings_ui.py:338-359 | different fields are saved under different keys |
| Settings.TruncDiv | settings_ui.py:136-137 | `int(a / d)` truncates toward zero |
| Settings.Display | settings_ui.py:87-251 | every entry shows its configured value in its display unit and every check box its flag, default on |
| Settings.Read | settings_ui.py:272-322 | an entry reads as a number exactly when `int()` accepts its text |
| Settings.FirstGarbled | settings_ui.py:272-322 | the first entry of a group that is not a number, or none when all are |
| Settings.FileSizesProblem | settings_ui.py:272-281 | the file sizes pass exactly when all three are positive numbers and the warning threshold is at most the maximum |
| Settings.RangeProblem | settings_ui.py:283-323 | an entry passes exactly when it is a number within its bounds |
| Settings.ChunkSizesProblem | settings_ui.py:313-319 | the chunk sizes pass exactly when all four are positive numbers |
| Settings.Then | settings_ui.py:272-325 | the checks run in order and the first problem stops them |
| Settings.ChecksAcceptIff | settings_ui.py:272-325 | the chain of checks passes exactly on readings that are all in bounds |
| Settings.ValidateAcceptsIff | settings_ui.py:268-329 | validation passes exactly when every entry is a whole number within its bounds and the warning threshold does not exceed the maximum |
| Settings.Save | settings_ui.py:331-367 | nothing is written when validation fails; otherwise every field is stored under its key, MB and KB entries converted to bytes, and every other key keeps its value |
| Settings.SaveStoresNumber | settings_ui.py:338-359 | a valid form stores each entry's number times its unit |
| Settings.ShownReadsBack | settings_ui.py:136-145 | a value holding a whole number of display units shows as that quotient and reads back as it |
| Settings.DisplaySaveRoundTrip | settings_ui.py:87-359 | a value holding a whole number of its display unit comes back unchanged from opening the window and saving |
| Settings.DisplaySaveKeepsConfig | settings_ui.py:87-359 | such a configuration is left as it was by opening and saving, apart from the keys the window adds |
| Settings.DisplaySaveKeepsFlag | settings_ui.py:106-353 | a check box shows the stored Boolean and saves it back |
| Settings.Cancel | settings_ui.py:370-374 | the snapshot's keys get their old values back and keys added since are kept |
| Settings.CancelRestoresIff | settings_ui.py:370-374 | cancel gives back the snapshot exactly when no key was added since it was taken |
| Settings.ResetText | settings_ui.py:376-431 | each reset text reads as its reset number |
| Settings.ResetForm | settings_ui.py:376-431 | every entry holds its reset text and every box is ticked |
| Settings.Reset | settings_ui.py:376-431 | a confirmed reset fills the form with the reset values; a declined one changes nothing |
| Settings.ResetNumberIsDefault | settings_ui.py:376-431 | each reset number, in its unit, is the default the window displays |
| Settings.ResetTextReadsAsDefault | settings_ui.py:376-431 | each reset text reads as the window's default in display units |
| Settings.ResetNumberWithin | settings_ui.py:376-431 | every reset value lies within its entry's bounds |
| Settings.ResetFormValid | settings_ui.py:376-431 | the reset values pass every check |
| Settings.ResetSavesDefaults | settings_ui.py:376-431 | saving right after a reset stores the window's defaults in bytes |
| Settings.ResetSavesFlags | settings_ui.py:376-431 | saving right after a reset turns every option on |
| Settings.DefaultsMatchConfig | config.py:8-42 | the window's defaults for the chunk sizes, timeouts, size limits, download slots and refresh interval are the configuration module's own |

## Left out

- Sockets, HTTP servers, `urllib`, socket tuning and the UDP broadcast and listen loops are I/O. The bytes a request receives, the result of a port probe, the `arp -a` output and the beacon arriving are parameters.
- Threads, locks and sleeps are left out. The worker pool is a sequential fold over the queue in id order. Parts are sorted by id before merging (`Transfer.SortIsCanonical`), so the completion order does not matter to the result.
- Tkinter widgets and message boxes are left out. The answer to the reset confirmation is a parameter. Writing `config.json` is left out; the configuration is a map.
- Floating-point behaviour is left out: Mbps speeds, `estimate_transfer_time`, `format_time`, the KB/MB/GB branches of `format_file_size` and the speed callbacks. Speeds are `real`.
- Real hash functions (sha256, md5, sha1, pbkdf2) and the random salt and token are parameters. Only the hex encoding is concrete.
- JSON parsing, the HTML listing pages and the regular expressions in the client are left out. A beacon arrives already parsed (or unparsable), and the listing page and its match lists are given.
- `parse_qs` is modelled without percent-decoding and without `+` as space.
- `serve_direct_file` is modelled only for its content-type choice and its 404. The 500 answer for an unreadable file is left out.
- `is_safe_file_path` and the secure download handlers of security.py depend on the filesystem layout (normpath, isfile) and are left out. `generate_session_id` is random and left out.
- setup.py (packaging) and test_remote_server.py (live tests against a fixed host) are not part of this model.
- `int()` accepts ASCII digits and white space only. Python also accepts other Unicode digits and spaces, which are left out.
- The `int()` error message puts the text between single quotes. Python uses the text's `repr`, which differs from that only for text with quotes, backslashes or non-printable characters.
- Text.Lower: lowers ASCII letters only. Python's `str.lower()` also lowers other letters; the Kelvin sign U+212A, for example, becomes `k`.
- Text.Strip: strips ASCII white space only. Python's `str.strip()` also removes other Unicode white space.
- Client.FilterByName: matches names ignoring ASCII case only, because `Text.Lower` is ASCII. A search for a non-ASCII term can miss names the source finds.
- Client.SearchFiles: filters with `Client.FilterByName`, so the same ASCII-only case rule applies.
- Client.CombineListing: strips names and fields with `Text.Strip`, so only ASCII white space is removed.
- Client.PathJoin: treats every file name as relative. A rooted name or one with a drive letter, which `os.path.join` lets replace the directory, is not modelled. A bare-drive directory such as `C:` is modelled: it is joined with no separator, as `ntpath` does.
- Client.ResolveSavePath: compares paths exactly. On Windows `os.path.exists` ignores case, so the source also skips a candidate that differs from an existing file only in case.
- Client.RunDownload: the file always lands inside the save directory, because `Client.PathJoin` treats names as relative. The source can write outside it for a rooted or drive-qualified name.
- Discovery.ProcessBeacon: the announced port is an integer or absent. The source accepts any truthy JSON value there (a string `"8000"`, `true`, `1.5`, a list) and registers it under `ip:<str(port)>` with that value as its port (discovery.py:124-134). The model cannot represent such a beacon, so it promises nothing about it.
- Client.ProgressEvents: reports the exact floor of 100 · downloaded / total. Python computes `downloaded / total * 100` in floating point, which can come out one lower: for 237568 of 819200 bytes, 0.29 * 100 is 28.999999999999996, so the source reports 28 where the model reports 29.
- Text.BaseName: a drive prefix with no separator after it (`C:name`) stays in the base name. `ntpath.basename` drops it.
- Transfer.Download: excludes a non-empty file with a non-positive `thread_chunk_size`, on which the source never returns.
- I/O errors other than a missing part file are left out of the merge. A failed read or write during the merge is answered `Merge failed: …` by `merge_chunks` (file_verification.py:287-288) and `Error merging chunks: …` by `_merge_chunks` (fast_transfer.py:142-143). The filesystem map never fails a read or write.
- A failed write or delete of a resume record is printed and ignored by the source (file_verification.py:129-131, 166-169). The model's resume store never fails.
- `os.makedirs` failing in the client is not modelled separately from a failed transfer.
- A client entry removed by `clear_completed_downloads` while its thread still runs would raise `KeyError` in the thread. This interleaving is not modelled.
- Settings.DisplaySaveRoundTrip: holds only for stored values that are a whole, non-negative number of their display unit. Other values are truncated by `int(value / unit)`, which `Settings.TruncDiv` states.
- Settings.Cancel: restores the snapshot's keys but keeps keys added since the window opened, as `dict.update` does. `Settings.CancelRestoresIff` says when the result is exactly the snapshot.
- Settings.ResetText: the reset texts are stated as the decimal rendering of the reset numbers, which are the literals the window inserts.
- Transfer.WorkerCount: states the bounds (at most the chunk count, at least one when there are threads and chunks) rather than the exact `min`.

=== FILE: client.dfy ===
/** The download client (client.py): reading a server's listing, choosing
    where a download is saved, the per-download status table, and the
    browser's cache and search.

    HTTP, threads and regular expressions are not modelled: the listing
    arrives as the lists the four patterns found, a response as its
    outcome, the clock as a parameter. Callbacks are summarised by the
    events they would receive. */
module Client {
  import opened Text

  // ---------------------------------------------------------------------------
  // The listing

  datatype FileEntry = FileEntry(id: string, name: string, size: string, modified: string)

  /** The combination step of `_parse_file_list_from_html`: one entry per
      download link, in order, each field taken from the same position of
      its own match list, stripped, or defaulted when that list is short. */
  function CombineListing(ids: seq<string>, names: seq<string>, sizes: seq<string>, modified: seq<string>): (r: seq<FileEntry>)
    ensures |r| == |ids|
    ensures forall i :: 0 <= i < |r| ==> r[i].id == ids[i]
    ensures forall i :: 0 <= i < |r| ==>
      && r[i].name == (if i < |names| then Strip(names[i]) else "file_" + NatToString(i))
      && r[i].size == (if i < |sizes| then Strip(sizes[i]) else "Unknown")
      && r[i].modified == (if i < |modified| then Strip(modified[i]) else "Unknown")
  {
    seq(|ids|, i requires 0 <= i < |ids| =>
      FileEntry(ids[i],
                if i < |names| then Strip(names[i]) else "file_" + NatToString(i),
                if i < |sizes| then Strip(sizes[i]) else "Unknown",
                if i < |modified| then Strip(modified[i]) else "Unknown"))
  }

  /** Matches beyond the last link are ignored, and a page with one link
      and no name gets the placeholder `file_0`. */
  lemma ListingIgnoresExtraMatches(ids: seq<string>, names: seq<string>, extra: seq<string>, sizes: seq<string>, modified: seq<string>)
    requires |names| >= |ids|
    ensures CombineListing(ids, names + extra, sizes, modified) == CombineListing(ids, names, sizes, modified)
    ensures CombineListing(["x"], [], [], [])[0].name == "file_0"
  {
    var a, b := CombineListing(ids, names + extra, sizes, modified), CombineListing(ids, names, sizes, modified);
    assert forall i :: 0 <= i < |ids| ==> (names + extra)[i] == names[i];
    assert forall i :: 0 <= i < |ids| ==> a[i] == b[i];
    assert NatToString(0) == "0";
  }

  // ---------------------------------------------------------------------------
  // Where a download is saved

  /** A bare drive such as `C:`: `ntpath` splits it off as the drive with an
      empty path, so a relative name joins it without a separator. */
  predicate BareDrive(directory: string)
  {
    |directory| == 2 && directory[1] == ':'
  }

  /** `os.path.join(directory, name)` (Windows `ntpath`), taking the name as
      relative: a separator goes between the two unless the directory is
      empty, already ends in one, or is a bare drive. A rooted or
      drive-qualified name, for which the real join drops the directory, is
      appended like any other. */
  function PathJoin(directory: string, name: string): (r: string)
    ensures |directory| <= |r| && r[..|directory|] == directory
    ensures |name| <= |r| && r[|r| - |name|..] == name
    ensures |r| == |directory| + |name| || (|r| == |directory| + |name| + 1 && r[|directory|] == '\\')
    ensures BareDrive(directory) ==> r == directory + name
  {
    if directory == "" || BareDrive(directory) then directory + name
    else if IsPathSep(directory[|directory| - 1]) then directory + name
    else directory + "\\" + name
  }

  lemma PathJoinInjective(directory: string, a: string, b: string)
    requires PathJoin(directory, a) == PathJoin(directory, b)
    ensures a == b
  {
    var p := PathJoin(directory, a);
    var n := |p| - |a|;
    assert p[n..] == a;
    assert PathJoin(directory, b)[n..] == b;
  }

  /** The name tried on attempt `k`: the file name itself, then
      `base_k.ext` for k = 1, 2, ... */
  function CandidateName(name: string, k: nat): string
  {
    if k == 0 then name
    else var parts := SplitExt(name); parts.0 + "_" + NatToString(k) + parts.1
  }

  lemma CandidateNamesDistinct(name: string, j: nat, k: nat)
    requires 1 <= j && 1 <= k && CandidateName(name, j) == CandidateName(name, k)
    ensures j == k
  {
    var parts := SplitExt(name);
    var a, b := CandidateName(name, j), CandidateName(name, k);
    var sj, sk := NatToString(j), NatToString(k);
    assert |sj| == |sk| by { assert |a| == |b|; }
    assert a[|parts.0| + 1..|parts.0| + 1 + |sj|] == sj;
    assert b[|parts.0| + 1..|parts.0| + 1 + |sk|] == sk;
    NatToStringInjective(j, k);
  }

  function Candidate(directory: string, name: string, k: nat): string
  {
    PathJoin(directory, CandidateName(name, k))
  }

  /** Different attempts name different paths. */
  lemma CandidatesDistinct(directory: string, name: string, j: nat, k: nat)
    requires j != k
    ensures Candidate(directory, name, j) != Candidate(directory, name, k)
  {
    if Candidate(directory, name, j) == Candidate(directory, name, k) {
      PathJoinInjective(directory, CandidateName(name, j), CandidateName(name, k));
      if j >= 1 && k >= 1 {
        CandidateNamesDistinct(name, j, k);
      } else {
        assert false;
      }
    }
  }

  /** The duplicate-name loop of `_download_file_thread`: the first candidate
      that names no existing file. */
  method ResolveSavePath(directory: string, name: string, existing: set<string>) returns (path: string, attempt: nat)
    ensures path == Candidate(directory, name, attempt) && path !in existing
    ensures forall j :: 0 <= j < attempt ==> Candidate(directory, name, j) in existing
    ensures attempt <= |existing|
  {
    attempt := 0;
    path := Candidate(directory, name, 0);
    ghost var seen: set<string> := {};
    while path in existing
      invariant path == Candidate(directory, name, attempt)
      invariant forall j :: 0 <= j < attempt ==> Candidate(directory, name, j) in existing
      invariant seen <= existing && |seen| == attempt
      invariant forall p :: p in seen ==> exists j :: 0 <= j < attempt && p == Candidate(directory, name, j)
      decreases |existing| - |seen|
    {
      UnseenCandidate(directory, name, seen, attempt);
      seen := seen + {path};
      SubsetSize(seen, existing);
      assert forall j :: 0 <= j < attempt + 1 ==> Candidate(directory, name, j) in existing by {
        forall j | 0 <= j < attempt + 1
          ensures Candidate(directory, name, j) in existing
        {
          if j == attempt {
            assert Candidate(directory, name, j) == path;
          }
        }
      }
      attempt := attempt + 1;
      path := Candidate(directory, name, attempt);
    }
    SubsetSize(seen, existing);
  }

  /** Each attempt names a path no earlier attempt named, so the paths tried
      so far grow by one per attempt. */
  lemma UnseenCandidate(directory: string, name: string, seen: set<string>, attempt: nat)
    requires forall p :: p in seen ==> exists j :: 0 <= j < attempt && p == Candidate(directory, name, j)
    ensures Candidate(directory, name, attempt) !in seen
    ensures forall p :: p in seen + {Candidate(directory, name, attempt)} ==>
      exists j :: 0 <= j < attempt + 1 && p == Candidate(directory, name, j)
  {
    var path := Candidate(directory, name, attempt);
    if path in seen {
      var j :| 0 <= j < attempt && path == Candidate(directory, name, j);
      CandidatesDistinct(directory, name, j, attempt);
    }
  }

  lemma SubsetSize(a: set<string>, b: set<string>)
    requires a <= b
    ensures |a| <= |b|
  {
    assert b == a + (b - a);
  }

  // ---------------------------------------------------------------------------
  // The status table

  datatype Status = Downloading | Completed | Failed | Cancelled

  datatype DownloadState = DownloadState(status: Status, progress: int, fileName: string,
                                         savePath: Option<string>, error: Option<string>)

  /** What every registered callback is called with. */
  datatype Event = Event(downloadId: string, kind: string, progress: int, message: string)

  datatype ClientState = ClientState(active: map<string, DownloadState>, events: seq<Event>)

  /** `download_file`'s id. */
  function DownloadId(serverUrl: string, fileId: string): string
  {
    serverUrl + "_" + fileId
  }

  /** The first step of `_download_file_thread`: the entry is (re)created as
      downloading at 0%. */
  function Begin(c: ClientState, id: string, fileName: string): (r: ClientState)
    ensures r.active == c.active[id := DownloadState(Downloading, 0, fileName, None, None)]
    ensures r.events == c.events + [Event(id, "started", 0, "Starting download: " + fileName)]
  {
    ClientState(c.active[id := DownloadState(Downloading, 0, fileName, None, None)],
                c.events + [Event(id, "started", 0, "Starting download: " + fileName)])
  }

  /** The end of a successful transfer: completed at 100% with the path. */
  function Finish(c: ClientState, id: string, savePath: string): (r: ClientState)
    requires id in c.active
    ensures id in r.active && r.active[id].status == Completed && r.active[id].progress == 100
    ensures r.active[id].savePath == Some(savePath) && r.active[id].fileName == c.active[id].fileName
    ensures r.events == c.events + [Event(id, "completed", 100, "Download complete: " + c.active[id].fileName + "\nSaved to: " + savePath)]
    ensures forall other :: other != id ==>
      (other in r.active <==> other in c.active) && (other in c.active ==> r.active[other] == c.active[other])
  {
    var e := c.active[id];
    ClientState(c.active[id := e.(status := Completed, progress := 100, savePath := Some(savePath))],
                c.events + [Event(id, "completed", 100, "Download complete: " + e.fileName + "\nSaved to: " + savePath)])
  }

  /** The exception handlers: failed, with the message kept. */
  function Fail(c: ClientState, id: string, message: string): (r: ClientState)
    requires id in c.active
    ensures id in r.active && r.active[id].status == Failed && r.active[id].error == Some(message)
    ensures r.events == c.events + [Event(id, "failed", 0, message)]
    ensures forall other :: other != id ==>
      (other in r.active <==> other in c.active) && (other in c.active ==> r.active[other] == c.active[other])
  {
    var e := c.active[id];
    ClientState(c.active[id := e.(status := Failed, error := Some(message))], c.events + [Event(id, "failed", 0, message)])
  }

  /** `cancel_download`: only an existing entry's status changes. */
  function Cancel(c: ClientState, id: string): (r: ClientState)
    ensures id !in c.active ==> r == c
    ensures id in c.active ==> r.active == c.active[id := c.active[id].(status := Cancelled)]
    ensures id in c.active ==> r.events == c.events + [Event(id, "cancelled", 0, "Download cancelled")]
  {
    if id in c.active then
      ClientState(c.active[id := c.active[id].(status := Cancelled)], c.events + [Event(id, "cancelled", 0, "Download cancelled")])
    else c
  }

  /** Cancelling only relabels the entry: the transfer thread is not told,
      and when it finishes the entry reads completed again. */
  lemma CancelIsOnlyALabel(c: ClientState, id: string, savePath: string)
    requires id in c.active
    ensures Finish(Cancel(c, id), id, savePath).active[id].status == Completed
  {
  }

  predicate Finished(s: DownloadState)
  {
    s.status == Completed || s.status == Failed || s.status == Cancelled
  }

  function FinishedIds(c: ClientState): set<string>
  {
    set id | id in c.active && Finished(c.active[id])
  }

  /** `clear_completed_downloads`: exactly the completed, failed and cancelled
      entries go; the count of them is returned. */
  function ClearFinished(c: ClientState): (r: (ClientState, nat))
    ensures r.0.active.Keys == c.active.Keys - FinishedIds(c)
    ensures forall id :: id in r.0.active ==> r.0.active[id] == c.active[id] && r.0.active[id].status == Downloading
    ensures r.1 + |r.0.active| == |c.active|
    ensures r.0.events == c.events
  {
    var done := FinishedIds(c);
    var kept := map id | id in c.active && !Finished(c.active[id]) :: c.active[id];
    assert kept.Keys + done == c.active.Keys;
    assert kept.Keys * done == {};
    (c.(active := kept), |done|)
  }

  // ---------------------------------------------------------------------------
  // Progress

  const ReadSize: nat := 8192

  /** How many reads of up to 8192 bytes a body takes. */
  function ReadCount(length: nat): nat
  {
    (length + ReadSize - 1) / ReadSize
  }

  /** The bytes received after read `k`. */
  function ReceivedAfter(length: nat, k: nat): (r: nat)
    ensures r <= length
  {
    if (k + 1) * ReadSize < length then (k + 1) * ReadSize else length
  }

  /** The percentage a progress event reports, `int(downloaded / total * 100)`,
      taken here as the exact floor of `downloaded * 100 / total`; Python's
      floating-point computation can land one below it. */
  function Percent(downloaded: nat, total: nat): int
    requires total > 0
  {
    downloaded * 100 / total
  }

  /** The progress events of the read loop: one per read when the length is
      known (positive), none otherwise. */
  function ProgressEvents(id: string, total: int, length: nat): (r: seq<Event>)
    ensures total <= 0 ==> r == []
    ensures total > 0 ==> |r| == ReadCount(length)
    ensures forall i :: 0 <= i < |r| ==> r[i].kind == "progress" && r[i].downloadId == id
  {
    if total <= 0 then []
    else
      seq(ReadCount(length), k requires 0 <= k < ReadCount(length) =>
        var p := Percent(ReceivedAfter(length, k), total);
        Event(id, "progress", p, "Downloading: " + IntToString(p) + "%"))
  }

  lemma {:induction false} MulStep(d: nat, x: nat, y: nat)
    requires x < y
    ensures d * x + d <= d * y
    decreases y - x
  {
    if y > x + 1 {
      MulStep(d, x, y - 1);
    }
    assert d * y == d * (y - 1) + d;
  }

  lemma DivMonotone(a: nat, b: nat, d: nat)
    requires a <= b && d > 0
    ensures a / d <= b / d
  {
    var qa, qb := a / d, b / d;
    if qa > qb {
      assert d * qa <= a;
      assert b < d * qb + d;
      MulStep(d, qb, qa);
      assert false;
    }
  }

  lemma ReceivedMonotone(length: nat, i: nat, j: nat)
    requires i <= j
    ensures ReceivedAfter(length, i) <= ReceivedAfter(length, j)
  {
    if i < j {
      MulStep(ReadSize, i + 1, j + 1);
    }
  }

  /** The last read completes the body. */
  lemma LastReadCompletes(length: nat)
    requires length > 0
    ensures ReadCount(length) >= 1 && ReceivedAfter(length, ReadCount(length) - 1) == length
  {
    var n := ReadCount(length);
    assert n * ReadSize >= length;
  }

  lemma HundredPercent(length: nat)
    requires length > 0
    ensures Percent(length, length) == 100
  {
    var x := length * 100;
    assert x == length * 100 + 0;
  }

  /** Progress never goes backwards, and when the announced length is the
      body's length the last read reports 100%. */
  lemma ProgressClimbsToHundred(id: string, total: int, length: nat)
    requires total > 0
    ensures var r := ProgressEvents(id, total, length);
      && (forall i, j :: 0 <= i < j < |r| ==> r[i].progress <= r[j].progress)
      && (total == length ==> |r| > 0 && r[|r| - 1].progress == 100)
  {
    var r := ProgressEvents(id, total, length);
    forall i, j | 0 <= i < j < |r|
      ensures r[i].progress <= r[j].progress
    {
      ReceivedMonotone(length, i, j);
      DivMonotone(ReceivedAfter(length, i) * 100, ReceivedAfter(length, j) * 100, total);
    }
    if total == length {
      LastReadCompletes(length);
      HundredPercent(length);
    }
  }

  // ---------------------------------------------------------------------------
  // One download

  /** What the server's answer amounts to: an HTTP error status, another
      failure before the file is opened, a body with the Content-Length it
      announced (0 when absent), or a body whose reading fails after
      `received` bytes. */
  datatype Answer =
    | HttpError(code: int, reason: string)
    | OtherError(message: string)
    | Body(contentLength: int, body: seq<byte>)
    | Broken(contentLength: int, received: seq<byte>, message: string)

  /** `_download_file_thread`, run to the end: the entry starts, the save
      path is chosen among the files that exist, and the answer is either
      written there in full or recorded as the failure; a read that fails
      midway leaves the bytes received so far in the file. */
  method RunDownload(c: ClientState, fs: FileSystem, serverUrl: string, fileId: string, fileName: string,
                     directory: string, answer: Answer) returns (r: ClientState, disk: FileSystem, savePath: string)
    ensures var id := DownloadId(serverUrl, fileId);
      && id in r.active
      && (r.active[id].status == Completed <==> answer.Body?)
      && (answer.Body? ==>
            savePath !in fs && disk == fs[savePath := answer.body]
            && r.active[id].progress == 100 && r.active[id].savePath == Some(savePath))
      && (answer.HttpError? ==>
            disk == fs && r.active[id].status == Failed
            && r.active[id].error == Some("HTTP Error " + IntToString(answer.code) + ": " + answer.reason))
      && (answer.OtherError? ==>
            disk == fs && r.active[id].status == Failed
            && r.active[id].error == Some("Download failed: " + answer.message))
      && (answer.Broken? ==>
            savePath !in fs && disk == fs[savePath := answer.received] && r.active[id].status == Failed
            && r.active[id].error == Some("Download failed: " + answer.message))
    ensures forall other :: other != DownloadId(serverUrl, fileId) ==>
      (other in r.active <==> other in c.active) && (other in c.active ==> r.active[other] == c.active[other])
  {
    var id := DownloadId(serverUrl, fileId);
    r := Begin(c, id, fileName);
    var attempt;
    savePath, attempt := ResolveSavePath(directory, fileName, fs.Keys);
    disk := fs;
    match answer {
      case HttpError(code, reason) =>
        r := Fail(r, id, "HTTP Error " + IntToString(code) + ": " + reason);
      case OtherError(message) =>
        r := Fail(r, id, "Download failed: " + message);
      case Body(total, body) =>
        disk := fs[savePath := body];
        var events := ProgressEvents(id, total, |body|);
        var progress := if |events| > 0 then events[|events| - 1].progress else 0;
        r := ClientState(r.active[id := r.active[id].(progress := progress)], r.events + events);
        r := Finish(r, id, savePath);
      case Broken(total, received, message) =>
        disk := fs[savePath := received];
        var events := ProgressEvents(id, total, |received|);
        var progress := if |events| > 0 then events[|events| - 1].progress else 0;
        r := ClientState(r.active[id := r.active[id].(progress := progress)], r.events + events);
        r := Fail(r, id, "Download failed: " + message);
    }
  }

  // ---------------------------------------------------------------------------
  // Browsing and searching

  const CacheTimeout: real := 60.0

  datatype CacheEntry = CacheEntry(files: seq<FileEntry>, timestamp: real)

  type Cache = map<string, CacheEntry>

  datatype Fetched = Listed(files: seq<FileEntry>) | FetchError(message: string)

  datatype Browsed = Files(files: seq<FileEntry>) | Raised(message: string)

  /** The cached listing is recent enough to be served. */
  predicate Fresh(cache: Cache, url: string, now: real)
  {
    url in cache && now - cache[url].timestamp < CacheTimeout
  }

  /** `browse_server`: a fresh cache entry is served unless a refresh is
      forced; otherwise the server is asked, and on failure the stale entry
      is served if there is one. */
  function BrowseServer(cache: Cache, url: string, force: bool, now: real, fetch: Fetched): (r: (Cache, Browsed))
    ensures !force && Fresh(cache, url, now) ==> r == (cache, Files(cache[url].files))
    ensures (force || !Fresh(cache, url, now)) && fetch.Listed? ==>
              r == (cache[url := CacheEntry(fetch.files, now)], Files(fetch.files))
    ensures (force || !Fresh(cache, url, now)) && fetch.FetchError? ==>
              r.0 == cache && (url in cache <==> r.1.Files?) && (url in cache ==> r.1.files == cache[url].files)
              && (url !in cache ==> r.1 == Raised(fetch.message))
  {
    if !force && Fresh(cache, url, now) then (cache, Files(cache[url].files))
    else match fetch
      case Listed(files) => (cache[url := CacheEntry(files, now)], Files(files))
      case FetchError(message) =>
        if url in cache then (cache, Files(cache[url].files)) else (cache, Raised(message))
  }

  /** Within a minute of a successful fetch, browsing again without forcing
      returns the same files whatever the server would say now. */
  lemma CacheServesRepeats(cache: Cache, url: string, force: bool, now: real, files: seq<FileEntry>, later: real, fetch: Fetched)
    requires now <= later < now + CacheTimeout
    requires BrowseServer(cache, url, force, now, Listed(files)).1 == Files(files)
    requires force || !Fresh(cache, url, now)
    ensures var first := BrowseServer(cache, url, force, now, Listed(files));
      BrowseServer(first.0, url, false, later, fetch).1 == Files(files)
  {
  }

  predicate Matches(f: FileEntry, term: string)
  {
    Contains(Lower(f.name), Lower(term))
  }

  /** The filter of `search_files`: the entries whose name contains the
      term, ignoring case, in their original order. */
  function FilterByName(files: seq<FileEntry>, term: string): (r: seq<FileEntry>)
    ensures |r| <= |files|
    ensures forall f :: f in r <==> f in files && Matches(f, term)
  {
    if |files| == 0 then []
    else
      var rest := FilterByName(files[1..], term);
      assert forall f :: f in files <==> f == files[0] || f in files[1..];
      if Matches(files[0], term) then [files[0]] + rest else rest
  }

  /** Searching a search result changes nothing, and the empty term keeps
      every file. */
  lemma {:induction false} SearchStable(files: seq<FileEntry>, term: string)
    ensures FilterByName(FilterByName(files, term), term) == FilterByName(files, term)
    ensures FilterByName(files, "") == files
  {
    EmptyTermKeepsAll(files);
    if |files| > 0 {
      SearchStable(files[1..], term);
      var rest := FilterByName(files[1..], term);
      if Matches(files[0], term) {
        assert ([files[0]] + rest)[1..] == rest;
      }
    }
  }

  /** The empty term matches every name, so it keeps the whole listing. */
  lemma {:induction false} EmptyTermKeepsAll(files: seq<FileEntry>)
    ensures FilterByName(files, "") == files
  {
    if |files| > 0 {
      EmptyTermKeepsAll(files[1..]);
      assert Matches(files[0], "") by { assert OccursAt(Lower(files[0].name), "", 0); }
    }
  }

  /** Filtering keeps the listing's order: it distributes over
      concatenation, and a single file stays exactly when it matches. */
  lemma {:induction false} FilterKeepsOrder(a: seq<FileEntry>, b: seq<FileEntry>, term: string)
    ensures FilterByName(a + b, term) == FilterByName(a, term) + FilterByName(b, term)
    ensures |a| == 1 ==> FilterByName(a, term) == if Matches(a[0], term) then a else []
    decreases |a|
  {
    if |a| == 0 {
      assert a + b == b;
    } else {
      var ab := a + b;
      assert ab[1..] == a[1..] + b && ab[0] == a[0];
      var head := if Matches(a[0], term) then [a[0]] else [];
      assert FilterByName(ab, term) == head + FilterByName(a[1..] + b, term);
      assert FilterByName(a, term) == head + FilterByName(a[1..], term);
      FilterKeepsOrder(a[1..], b, term);
    }
  }

  /** `search_files`: browse (cache rules included), then filter; a browse
      failure is reported with the search prefix. */
  function SearchFiles(cache: Cache, url: string, term: string, now: real, fetch: Fetched): (r: (Cache, Browsed))
    ensures r.0 == BrowseServer(cache, url, false, now, fetch).0
    ensures BrowseServer(cache, url, false, now, fetch).1.Raised? <==> r.1.Raised?
    ensures r.1.Files? ==> forall f :: f in r.1.files ==> Matches(f, term)
    ensures r.1.Raised? ==> StartsWith(r.1.message, "Search failed: ")
    ensures var b := BrowseServer(cache, url, false, now, fetch).1;
      b.Files? ==> r.1 == Files(FilterByName(b.files, term))
    ensures var b := BrowseServer(cache, url, false, now, fetch).1;
      b.Raised? ==> r.1 == Raised("Search failed: " + b.message)
  {
    var b := BrowseServer(cache, url, false, now, fetch);
    match b.1
    case Files(files) => (b.0, Files(FilterByName(files, term)))
    case Raised(message) => (b.0, Raised("Search failed: " + message))
  }
}

=== FILE: config.dfy ===
/** Size policies and the configuration dictionary (config.py).

    The banded buffer size and the file-size admission check read the module
    constants directly; everything else in the engine reads the mutable
    configuration dictionary, modelled here as a map from key to value. */
module Config {
  import opened Text

  const KiB: nat := 1024
  const MiB: nat := 1024 * 1024

  // File size limits (config.py:8-10)
  const MAX_FILE_SIZE_MB: nat := 10240
  const WARN_FILE_SIZE_MB: nat := 1024
  const MAX_TOTAL_SHARE_SIZE_GB: nat := 50

  // Adaptive I/O buffer sizes (config.py:13-16)
  const CHUNK_SIZE_SMALL: nat := 8192
  const CHUNK_SIZE_MEDIUM: nat := 65536
  const CHUNK_SIZE_LARGE: nat := 524288
  const CHUNK_SIZE_XLARGE: nat := 1048576

  // Network and performance settings (config.py:19-26, 42)
  const DOWNLOAD_TIMEOUT: nat := 300
  const UPLOAD_TIMEOUT: nat := 300
  const CONNECTION_TIMEOUT: nat := 30
  const MAX_CONCURRENT_DOWNLOADS: nat := 5
  const AUTO_REFRESH_INTERVAL: nat := 30

  // ---------------------------------------------------------------------------
  // Adaptive buffer size

  /** The I/O buffer used for a transfer of `fileSize` bytes. Each band is
      stated as an if-and-only-if on the size. */
  function ChunkSize(fileSize: int): (r: nat)
    ensures r > 0
    ensures r == CHUNK_SIZE_SMALL <==> fileSize < 10 * MiB
    ensures r == CHUNK_SIZE_MEDIUM <==> 10 * MiB <= fileSize < 100 * MiB
    ensures r == CHUNK_SIZE_LARGE <==> 100 * MiB <= fileSize < 1024 * MiB
    ensures r == CHUNK_SIZE_XLARGE <==> 1024 * MiB <= fileSize
  {
    var mb := 1024 * 1024;
    if fileSize < 10 * mb then CHUNK_SIZE_SMALL
    else if fileSize < 100 * mb then CHUNK_SIZE_MEDIUM
    else if fileSize < 1024 * mb then CHUNK_SIZE_LARGE
    else CHUNK_SIZE_XLARGE
  }

  /** A larger transfer never gets a smaller buffer. */
  lemma ChunkSizeMonotone(a: int, b: int)
    requires a <= b
    ensures ChunkSize(a) <= ChunkSize(b)
  {
  }

  // ---------------------------------------------------------------------------
  // File-size admission

  datatype SizeMessage =
    | ExceedsLimit(limitMb: nat)   // "File exceeds maximum size limit of {limit} MB"
    | LargeFile(sizeBytes: int)    // "Large file ({formatted size}) - transfer may take time"

  datatype SizeCheck = SizeCheck(valid: bool, message: Option<SizeMessage>)

  /** Whether a file may be shared: rejected above 10240 MiB, accepted with a
      warning above 1024 MiB, accepted silently otherwise. */
  function ValidateFileSize(fileSize: int): (r: SizeCheck)
    ensures r.valid <==> fileSize <= MAX_FILE_SIZE_MB * MiB
    ensures !r.valid ==> r.message == Some(ExceedsLimit(MAX_FILE_SIZE_MB))
    ensures r.valid && r.message.None? <==> fileSize <= WARN_FILE_SIZE_MB * MiB
    ensures r.valid && r.message.Some? ==> r.message.value == LargeFile(fileSize)
  {
    var maxBytes := MAX_FILE_SIZE_MB * 1024 * 1024;
    var warnBytes := WARN_FILE_SIZE_MB * 1024 * 1024;
    if fileSize > maxBytes then SizeCheck(false, Some(ExceedsLimit(MAX_FILE_SIZE_MB)))
    else if fileSize > warnBytes then SizeCheck(true, Some(LargeFile(fileSize)))
    else SizeCheck(true, None)
  }

  /** The byte branch of the human-readable size: `f"{size} B"`. */
  function FormatSmallSize(sizeBytes: int): (r: string)
    requires sizeBytes < 1024
    ensures EndsWith(r, " B")
  {
    IntToString(sizeBytes) + " B"
  }

  /** The formatted size reads back as the number it was made from. */
  lemma FormatSmallSizeReadsBack(sizeBytes: nat)
    requires sizeBytes < 1024
    ensures var r := FormatSmallSize(sizeBytes);
            |r| >= 3 && ParseInt(r[..|r| - 2]) == Some(sizeBytes)
  {
    var r := FormatSmallSize(sizeBytes);
    assert r[..|r| - 2] == NatToString(sizeBytes);
    ParseNatToString(sizeBytes);
  }

  // ---------------------------------------------------------------------------
  // The configuration dictionary

  /** JSON values that configuration entries hold. Python's `bool` is an `int`
      subclass, so a Boolean read as a number is 0 or 1. */
  datatype ConfigValue = Int(i: int) | Bool(b: bool)

  type ConfigMap = map<string, ConfigValue>

  function AsNumber(v: ConfigValue): int
  {
    match v
    case Int(i) => i
    case Bool(b) => if b then 1 else 0
  }

  /** Python truthiness of a configuration value. */
  predicate Truthy(v: ConfigValue)
  {
    match v
    case Int(i) => i != 0
    case Bool(b) => b
  }

  /** `CONFIG.get(key, default)` read as a number. */
  function GetNumber(c: ConfigMap, key: string, default: int): (r: int)
    ensures key !in c ==> r == default
    ensures key in c ==> r == AsNumber(c[key])
  {
    if key in c then AsNumber(c[key]) else default
  }

  /** `CONFIG.get(key, default)` read as a condition. */
  predicate GetFlag(c: ConfigMap, key: string, default: bool)
  {
    if key in c then Truthy(c[key]) else default
  }

  /** The dictionary as the module defines it at import time. The multithread
      keys are absent, so readers of them fall back to their own defaults. */
  function InitialConfig(): ConfigMap
  {
    map[
      "max_file_size_mb" := Int(MAX_FILE_SIZE_MB),
      "warn_file_size_mb" := Int(WARN_FILE_SIZE_MB),
      "max_total_share_size_gb" := Int(MAX_TOTAL_SHARE_SIZE_GB),
      "chunk_size_small" := Int(CHUNK_SIZE_SMALL),
      "chunk_size_medium" := Int(CHUNK_SIZE_MEDIUM),
      "chunk_size_large" := Int(CHUNK_SIZE_LARGE),
      "chunk_size_xlarge" := Int(CHUNK_SIZE_XLARGE),
      "download_timeout" := Int(DOWNLOAD_TIMEOUT),
      "upload_timeout" := Int(UPLOAD_TIMEOUT),
      "connection_timeout" := Int(CONNECTION_TIMEOUT),
      "enable_compression" := Bool(false),
      "enable_resume" := Bool(false),
      "max_concurrent_downloads" := Int(MAX_CONCURRENT_DOWNLOADS),
      "show_file_size_warning" := Bool(true),
      "auto_refresh_interval" := Int(AUTO_REFRESH_INTERVAL)
    ]
  }

  /** What reading `config.json` produced: no file, a file that failed to open
      or parse, or a parsed object. */
  datatype ConfigFile = NoFile | Unreadable | Parsed(entries: ConfigMap)

  /** `load_config_from_file`: the parsed entries override the same keys and
      every other key keeps its value; a missing or unreadable file changes
      nothing. */
  function LoadConfig(c: ConfigMap, file: ConfigFile): (r: ConfigMap)
    ensures file.Parsed? ==> r.Keys == c.Keys + file.entries.Keys
    ensures file.Parsed? ==> forall k :: k in file.entries ==> r[k] == file.entries[k]
    ensures forall k :: k in c && (file.Parsed? ==> k !in file.entries) ==> k in r && r[k] == c[k]
    ensures !file.Parsed? ==> r == c
  {
    match file
    case Parsed(entries) => c + entries
    case _ => c
  }
}

=== FILE: discovery.dfy ===
/** Peer discovery (discovery.py): the registry of servers other instances
    announced or a probe found, its staleness cleanup, the scan candidates
    and the callbacks that watch the registry.

    Sockets, threads and sleeps are not modelled: a received beacon arrives
    already decoded, a TCP probe is a predicate on the address, the ARP
    table arrives as the address found on each line, and the clock is a
    parameter. A callback is an id; notifying it appends a delivery of the
    registry's current contents to a log. */
module Discovery {
  import opened Text

  /** `last_seen` older than this many seconds is stale (discovery.py:257). */
  const StaleAfter: real := 300.0

  datatype ServerInfo = ServerInfo(ip: string, port: int, url: string, lastSeen: real, timestamp: real)

  /** Servers keyed by `"ip:port"`. */
  type Registry = map<string, ServerInfo>

  datatype Delivery = Delivery(callback: nat, servers: Registry)

  datatype Discovery = Discovery(
    port: int,
    discoveryPort: int,
    servers: Registry,
    running: bool,
    threads: nat,                 // service threads started so far
    callbacks: seq<nat>,
    log: seq<Delivery>)

  function NewDiscovery(port: int, discoveryPort: int): (d: Discovery)
    ensures d.servers == map[] && !d.running && d.callbacks == [] && d.log == []
  {
    Discovery(port, discoveryPort, map[], false, 0, [], [])
  }

  function ServerKey(ip: string, port: int): string
  {
    ip + ":" + IntToString(port)
  }

  function ServerUrl(ip: string, port: int): string
  {
    "http://" + ip + ":" + IntToString(port)
  }

  lemma IntToStringHasNoColon(i: int)
    ensures ':' !in IntToString(i)
  {
    var s := NatToString(if i < 0 then -i else i);
    forall k | 0 <= k < |s| ensures s[k] != ':' { assert IsDigit(s[k]); }
  }

  lemma IntToStringInjective(a: int, b: int)
    requires IntToString(a) == IntToString(b)
    ensures a == b
  {
    var sa, sb := NatToString(if a < 0 then -a else a), NatToString(if b < 0 then -b else b);
    assert IsDigit(sa[0]) && IsDigit(sb[0]);
    if a < 0 && b < 0 {
      assert IntToString(a)[1..] == sa && IntToString(b)[1..] == sb;
      NatToStringInjective(-a, -b);
    } else if a >= 0 && b >= 0 {
      NatToStringInjective(a, b);
    }
  }

  /** For addresses without a colon, the key names one server: two keys are
      equal only for the same address and port. */
  lemma ServerKeyInjective(ip1: string, port1: int, ip2: string, port2: int)
    requires ':' !in ip1 && ':' !in ip2
    requires ServerKey(ip1, port1) == ServerKey(ip2, port2)
    ensures ip1 == ip2 && port1 == port2
  {
    var a, b := IntToString(port1), IntToString(port2);
    IntToStringHasNoColon(port1);
    IntToStringHasNoColon(port2);
    assert Join([ip1, a], ':') == ServerKey(ip1, port1);
    assert Join([ip2, b], ':') == ServerKey(ip2, port2);
    SplitJoin([ip1, a], ':');
    SplitJoin([ip2, b], ':');
    IntToStringInjective(port1, port2);
  }

  // ---------------------------------------------------------------------------
  // Callbacks

  /** `r`'s log is `d`'s followed by one delivery of `r`'s registry to each
      callback of `d`, in registration order. */
  predicate NotifiedAll(d: Discovery, r: Discovery)
  {
    && |r.log| == |d.log| + |d.callbacks| && r.log[..|d.log|] == d.log
    && forall i :: 0 <= i < |d.callbacks| ==> r.log[|d.log| + i] == Delivery(d.callbacks[i], r.servers)
  }

  /** `notify_callbacks`: every registered callback receives the registry. */
  function Notify(d: Discovery): (r: Discovery)
    ensures r.servers == d.servers && r.callbacks == d.callbacks && r.running == d.running
    ensures |r.log| == |d.log| + |d.callbacks| && r.log[..|d.log|] == d.log
    ensures forall i :: 0 <= i < |d.callbacks| ==> r.log[|d.log| + i] == Delivery(d.callbacks[i], d.servers)
  {
    d.(log := d.log + seq(|d.callbacks|, i requires 0 <= i < |d.callbacks| => Delivery(d.callbacks[i], d.servers)))
  }

  /** `add_callback`: the callback is registered, and called at once exactly
      when the registry already holds a server. */
  function AddCallback(d: Discovery, callback: nat): (r: Discovery)
    ensures r.callbacks == d.callbacks + [callback] && r.servers == d.servers
    ensures |r.log| > |d.log| <==> |d.servers| > 0
    ensures |d.servers| > 0 ==> r.log == d.log + [Delivery(callback, d.servers)]
    ensures |d.servers| == 0 ==> r.log == d.log
  {
    var registered := d.(callbacks := d.callbacks + [callback]);
    if |d.servers| > 0 then registered.(log := d.log + [Delivery(callback, d.servers)]) else registered
  }

  // ---------------------------------------------------------------------------
  // Starting and stopping

  /** `start_discovery`: the three service threads start once. */
  function StartDiscovery(d: Discovery): (r: Discovery)
    ensures r.running
    ensures d.running ==> r == d
    ensures !d.running ==> r == d.(running := true, threads := d.threads + 3)
  {
    if d.running then d else d.(running := true, threads := d.threads + 3)
  }

  function StopDiscovery(d: Discovery): (r: Discovery)
    ensures !r.running && r.servers == d.servers && r.threads == d.threads
  {
    d.(running := false)
  }

  /** Starting twice starts the threads once. */
  lemma StartIdempotent(d: Discovery)
    ensures StartDiscovery(StartDiscovery(d)) == StartDiscovery(d)
    ensures StartDiscovery(StartDiscovery(d)).threads <= d.threads + 3
  {
  }

  // ---------------------------------------------------------------------------
  // Beacons

  /** A received datagram: undecodable JSON, or an object with the fields the
      handler reads (each absent or present). */
  datatype Beacon = Unparsable | Message(kind: Option<string>, port: Option<int>, timestamp: Option<real>)

  /** The beacon announces another instance: the right type, a truthy port,
      and not our own port. */
  predicate Announces(b: Beacon, ownPort: int)
  {
    && b.Message? && b.kind == Some("announcement")
    && b.port.Some? && b.port.value != 0 && b.port.value != ownPort
  }

  /** `_process_broadcast`. */
  function ProcessBeacon(d: Discovery, b: Beacon, senderIp: string, now: real): (r: Discovery)
    ensures !Announces(b, d.port) ==> r == d
    ensures Announces(b, d.port) ==>
      var key := ServerKey(senderIp, b.port.value);
      && r.servers.Keys == d.servers.Keys + {key}
      && r.servers[key] == ServerInfo(senderIp, b.port.value, ServerUrl(senderIp, b.port.value), now,
                                      if b.timestamp.Some? then b.timestamp.value else 0.0)
      && (forall k :: k in d.servers && k != key ==> r.servers[k] == d.servers[k])
      && NotifiedAll(d, r)
    ensures r.port == d.port && r.callbacks == d.callbacks && r.running == d.running
  {
    if Announces(b, d.port) then
      var port := b.port.value;
      var info := ServerInfo(senderIp, port, ServerUrl(senderIp, port), now,
                             if b.timestamp.Some? then b.timestamp.value else 0.0);
      Notify(d.(servers := d.servers[ServerKey(senderIp, port) := info]))
    else d
  }

  /** Our own beacon, echoed back by the broadcast, is ignored. */
  lemma OwnBeaconIgnored(d: Discovery, senderIp: string, timestamp: Option<real>, now: real)
    ensures ProcessBeacon(d, Message(Some("announcement"), Some(d.port), timestamp), senderIp, now) == d
  {
  }

  // ---------------------------------------------------------------------------
  // Probing

  /** `_check_server`: an open port registers the server with timestamp 0. */
  function CheckServer(d: Discovery, ip: string, open: bool, now: real): (r: Discovery)
    ensures !open ==> r == d
    ensures open ==> r.servers == d.servers[ServerKey(ip, d.port) := ServerInfo(ip, d.port, ServerUrl(ip, d.port), now, 0.0)]
    ensures open ==> NotifiedAll(d, r)
    ensures r.port == d.port && r.running == d.running && r.callbacks == d.callbacks
  {
    if open then
      Notify(d.(servers := d.servers[ServerKey(ip, d.port) := ServerInfo(ip, d.port, ServerUrl(ip, d.port), now, 0.0)]))
    else d
  }

  /** Some reachable host in `hosts` has the key `k`. */
  predicate Probed(k: string, hosts: seq<string>, probe: string -> bool, port: int)
  {
    exists i :: 0 <= i < |hosts| && probe(hosts[i]) && k == ServerKey(hosts[i], port)
  }

  /** A key probed in the tail, or the head's key when it answers, is probed
      in the whole list. */
  lemma ProbedCons(hosts: seq<string>, probe: string -> bool, port: int)
    requires |hosts| > 0
    ensures forall k :: Probed(k, hosts[1..], probe, port) ==> Probed(k, hosts, probe, port)
    ensures probe(hosts[0]) ==> Probed(ServerKey(hosts[0], port), hosts, probe, port)
  {
    forall k | Probed(k, hosts[1..], probe, port)
      ensures Probed(k, hosts, probe, port)
    {
      var i :| 0 <= i < |hosts[1..]| && probe(hosts[1..][i]) && k == ServerKey(hosts[1..][i], port);
      assert hosts[i + 1] == hosts[1..][i];
    }
    if probe(hosts[0]) {
      assert 0 < |hosts| && probe(hosts[0]);
    }
  }

  /** Probing `hosts` in order while the service runs. */
  function CheckAll(d: Discovery, hosts: seq<string>, probe: string -> bool, now: real): (r: Discovery)
    ensures r.port == d.port && r.running == d.running && r.callbacks == d.callbacks
    ensures d.servers.Keys <= r.servers.Keys
    ensures d.running ==> forall i :: 0 <= i < |hosts| && probe(hosts[i]) ==>
              && ServerKey(hosts[i], d.port) in r.servers
              && r.servers[ServerKey(hosts[i], d.port)].lastSeen == now
              && r.servers[ServerKey(hosts[i], d.port)].timestamp == 0.0
    ensures forall k :: k in d.servers && !Probed(k, hosts, probe, d.port) ==> r.servers[k] == d.servers[k]
    ensures forall k :: k in r.servers && k !in d.servers ==> d.running && Probed(k, hosts, probe, d.port)
    ensures !d.running ==> r == d
    decreases |hosts|
  {
    if |hosts| == 0 || !d.running then d
    else
      var next := CheckServer(d, hosts[0], probe(hosts[0]), now);
      var r := CheckAll(next, hosts[1..], probe, now);
      assert forall i :: 1 <= i < |hosts| ==> hosts[i] == hosts[1..][i - 1];
      ProbedCons(hosts, probe, d.port);
      r
  }

  // ---------------------------------------------------------------------------
  // Scan candidates

  /** `a.b.c` from a dotted address; None for the IndexError of one with
      fewer than three parts. */
  function NetworkBase(localIp: string): Option<string>
  {
    var parts := Split(localIp, '.');
    if |parts| < 3 then None else Some(parts[0] + "." + parts[1] + "." + parts[2])
  }

  /** Whether the scan has a usable local address. */
  predicate Routable(localIp: string)
  {
    localIp != "" && localIp != "127.0.0.1"
  }

  function Host(base: string, j: nat): string
  {
    base + "." + NatToString(j)
  }

  /** `base.i .. base.254`, skipping the local address. */
  function HostsFrom(base: string, localIp: string, i: nat): (r: seq<string>)
    requires 1 <= i <= 255
    ensures |r| <= 255 - i
    ensures localIp !in r
    decreases 255 - i
  {
    if i == 255 then []
    else
      var target := Host(base, i);
      var rest := HostsFrom(base, localIp, i + 1);
      if target != localIp then [target] + rest else rest
  }

  /** The scanned addresses are exactly `base.j` for `i <= j <= 254`, less
      the local one. */
  lemma {:induction false} HostsFromMembers(base: string, localIp: string, i: nat, t: string)
    requires 1 <= i <= 255
    ensures t in HostsFrom(base, localIp, i) <==> t != localIp && exists j :: i <= j <= 254 && t == Host(base, j)
    decreases 255 - i
  {
    if i < 255 {
      HostsFromMembers(base, localIp, i + 1, t);
      if t != localIp && t == Host(base, i) {
        assert t in HostsFrom(base, localIp, i);
      }
      if exists j :: i <= j <= 254 && t == Host(base, j) {
        var j :| i <= j <= 254 && t == Host(base, j);
        if j > i {
          assert exists j' :: i + 1 <= j' <= 254 && t == Host(base, j');
        }
      }
    }
  }

  /** The addresses `_scan_subnet` probes: none without a routable address,
      None when the address has fewer than three parts. */
  function SubnetCandidates(localIp: string): (r: Option<seq<string>>)
    ensures !Routable(localIp) ==> r == Some([])
    ensures r.Some? ==> |r.value| <= 254 && localIp !in r.value
    ensures Routable(localIp) ==> (r.None? <==> NetworkBase(localIp).None?)
  {
    if !Routable(localIp) then Some([])
    else match NetworkBase(localIp)
      case None => None
      case Some(base) => Some(HostsFrom(base, localIp, 1))
  }

  /** `get_network_range`. */
  function NetworkRange(localIp: string): (r: Option<string>)
    ensures r.Some? <==> Routable(localIp) && NetworkBase(localIp).Some?
    ensures r.Some? ==> EndsWith(r.value, ".0/24")
  {
    if Routable(localIp) && NetworkBase(localIp).Some? then Some(NetworkBase(localIp).value + ".0/24") else None
  }

  /** The advertised range and the scanned addresses share their first
      three parts. */
  lemma CandidatesInRange(localIp: string)
    requires NetworkRange(localIp).Some?
    ensures var base := NetworkBase(localIp).value;
      && NetworkRange(localIp) == Some(base + ".0/24")
      && SubnetCandidates(localIp).Some?
      && forall t :: t in SubnetCandidates(localIp).value ==> StartsWith(t, base + ".")
  {
    var base := NetworkBase(localIp).value;
    forall t | t in SubnetCandidates(localIp).value
      ensures StartsWith(t, base + ".")
    {
      HostsFromMembers(base, localIp, 1, t);
      var j :| 1 <= j <= 254 && t == Host(base, j);
      assert t == (base + ".") + NatToString(j);
    }
  }

  // ---------------------------------------------------------------------------
  // ARP table hosts

  predicate NoDuplicates(s: seq<string>)
  {
    forall i, j :: 0 <= i < j < |s| ==> s[i] != s[j]
  }

  /** `list(set(xs))`, keeping the last occurrence of each address. */
  function Dedup(s: seq<string>): (r: seq<string>)
    ensures NoDuplicates(r)
    ensures forall x :: x in r <==> x in s
    ensures |r| <= |s|
  {
    if |s| == 0 then []
    else
      var rest := Dedup(s[1..]);
      if s[0] in rest then rest else [s[0]] + rest
  }

  predicate Eligible(ip: string)
  {
    !StartsWith(ip, "127.") && !StartsWith(ip, "169.254.")
  }

  function EligibleOf(found: seq<Option<string>>): (r: seq<string>)
    ensures forall x :: x in r <==> Eligible(x) && Some(x) in found
  {
    if |found| == 0 then []
    else
      var rest := EligibleOf(found[1..]);
      assert forall x :: Some(x) in found <==> found[0] == Some(x) || Some(x) in found[1..];
      if found[0].Some? && Eligible(found[0].value) then [found[0].value] + rest else rest
  }

  /** `get_active_hosts`: the address found on each line of `arp -a`, loopback
      and link-local dropped, without repeats; nothing when `arp` fails. */
  function ActiveHosts(arp: Option<seq<Option<string>>>): (r: seq<string>)
    ensures NoDuplicates(r)
    ensures forall x :: x in r ==> Eligible(x)
    ensures arp.Some? ==> forall x :: x in r <==> Eligible(x) && Some(x) in arp.value
    ensures arp.None? ==> r == []
  {
    if arp.None? then [] else Dedup(EligibleOf(arp.value))
  }

  /** The addresses `_perform_quick_scan` probes: the ARP hosts when there
      are any, the subnet otherwise; none when the local address has fewer
      than three parts (the scan's exception handler ends it). */
  function ScanTargets(arp: Option<seq<Option<string>>>, localIp: string): (r: seq<string>)
    ensures |ActiveHosts(arp)| > 0 ==> r == ActiveHosts(arp)
    ensures |ActiveHosts(arp)| == 0 ==> |r| <= 254 && localIp !in r
    ensures |ActiveHosts(arp)| == 0 && SubnetCandidates(localIp).Some? ==> r == SubnetCandidates(localIp).value
    ensures |ActiveHosts(arp)| == 0 && SubnetCandidates(localIp).None? ==> r == []
    ensures !Routable(localIp) ==> r == ActiveHosts(arp)
  {
    var hosts := ActiveHosts(arp);
    if |hosts| > 0 then hosts
    else match SubnetCandidates(localIp)
      case None => []
      case Some(candidates) => candidates
  }

  /** `_perform_quick_scan` (also what `trigger_manual_scan` runs while the
      service is up). */
  function QuickScan(d: Discovery, arp: Option<seq<Option<string>>>, localIp: string, probe: string -> bool, now: real): (r: Discovery)
    ensures d.servers.Keys <= r.servers.Keys
    ensures !d.running ==> r == d
    ensures forall k :: k in r.servers && k !in d.servers ==> Probed(k, ScanTargets(arp, localIp), probe, d.port)
    ensures d.running ==> forall ip :: ip in ScanTargets(arp, localIp) && probe(ip) ==> ServerKey(ip, d.port) in r.servers
  {
    var targets := ScanTargets(arp, localIp);
    var r := CheckAll(d, targets, probe, now);
    assert forall ip :: ip in targets ==> exists i :: 0 <= i < |targets| && targets[i] == ip;
    r
  }

  // ---------------------------------------------------------------------------
  // Staleness

  predicate Stale(info: ServerInfo, now: real)
  {
    now - info.lastSeen > StaleAfter
  }

  /** `cleanup_old_servers`: the stale entries go, the others stay as they
      were, and callbacks hear of it only when something was removed. */
  function Cleanup(d: Discovery, now: real): (r: Discovery)
    ensures forall k :: k in r.servers <==> k in d.servers && !Stale(d.servers[k], now)
    ensures forall k :: k in r.servers ==> r.servers[k] == d.servers[k]
    ensures (exists k :: k in d.servers && Stale(d.servers[k], now)) ==> NotifiedAll(d, r)
    ensures (forall k :: k in d.servers ==> !Stale(d.servers[k], now)) ==> r == d
  {
    var kept := map k | k in d.servers && !Stale(d.servers[k], now) :: d.servers[k];
    if exists k :: k in d.servers && Stale(d.servers[k], now) then Notify(d.(servers := kept))
    else
      assert kept == d.servers;
      d
  }

  /** Cleaning up twice at the same moment is cleaning up once. */
  lemma CleanupIdempotent(d: Discovery, now: real)
    ensures Cleanup(Cleanup(d, now), now) == Cleanup(d, now)
  {
  }

  /** A later cleanup keeps no more servers than an earlier one. */
  lemma CleanupMonotone(d: Discovery, earlier: real, later: real)
    requires earlier <= later
    ensures Cleanup(d, later).servers.Keys <= Cleanup(d, earlier).servers.Keys
  {
  }

  /** An announcement is kept for exactly 300 seconds: a cleanup at most that
      long after it keeps the server, a later one drops it. */
  lemma AnnouncementLifetime(d: Discovery, b: Beacon, senderIp: string, now: real, later: real)
    requires Announces(b, d.port) && now <= later
    ensures var key := ServerKey(senderIp, b.port.value);
      (key in Cleanup(ProcessBeacon(d, b, senderIp, now), later).servers <==> later - now <= StaleAfter)
  {
    var key := ServerKey(senderIp, b.port.value);
    assert ProcessBeacon(d, b, senderIp, now).servers[key].lastSeen == now;
  }
}

=== FILE: endtoend.dfy ===
/** The downloader of fast_transfer.py talking to the handler of main.py:
    each worker's ranged GET is answered by `serve_file_download`, and the
    ranges it plans are exactly the ones the handler accepts. */
module EndToEnd {
  import opened Text
  import opened Config
  import opened Verification
  import opened Transfer
  import opened Server

  /** What a worker's request for `c` gets from the handler serving `id`:
      `urlopen` returns the body of a 2xx answer and raises on an error
      status. */
  function FetchFrom(shared: SharedFiles, serverFs: FileSystem, id: string, c: ChunkRange): (r: FetchOutcome)
    ensures r.Fetched? <==> ServeDownload(shared, serverFs, id, Some(RangeHeader(c)), None).Reply?
  {
    match ServeDownload(shared, serverFs, id, Some(RangeHeader(c)), None)
    case Reply(_, _, body) => Fetched(body)
    case Failure(code, message) => FetchFailed(None, "HTTP Error " + NatToString(code) + ": " + message)
    case Delegated => FetchFailed(None, "unexpected response")
  }

  /** Every planned range of a shared file is answered 206 with its bytes. */
  lemma PlannedRangesServed(shared: SharedFiles, serverFs: FileSystem, id: string, chunkSize: nat, k: nat)
    requires id in shared && shared[id] in serverFs && chunkSize >= 1
    requires k < NumChunks(|serverFs[shared[id]]|, chunkSize)
    ensures var content := serverFs[shared[id]];
      FetchFrom(shared, serverFs, id, Plan(|content|, chunkSize)[k])
        == Fetched(PlanSlices(content, chunkSize, NumChunks(|content|, chunkSize))[k])
  {
    var content := serverFs[shared[id]];
    var n := NumChunks(|content|, chunkSize);
    var c := Plan(|content|, chunkSize)[k];
    ChunkFacts(|content|, chunkSize, k);
    assert PlanSlices(content, chunkSize, n)[k] == content[c.start..c.end + 1];
    RangeRequestServed(shared, serverFs, id, c.start, c.end);
    assert ServeDownload(shared, serverFs, id, Some(RangeHeader(c)), None).Reply?;
  }

  /** Downloading a shared file from the handler, with at least one worker,
      no cancellation and a matching checksum (if one is expected), leaves
      the file's bytes at the save path. */
  lemma DownloadFromServer(h: Hashes, config: ConfigMap, shared: SharedFiles, serverFs: FileSystem, id: string,
                           d: Downloader, fs: FileSystem, store: ResumeStore, now: real)
    requires id in shared && shared[id] in serverFs
    requires ThreadChunkSize(config) >= 1 && d.fileSize == |serverFs[shared[id]]|
    requires d.numThreads >= 1 && !d.cancelled && d.errors == []
    requires ChecksumOk(h, serverFs[shared[id]], d.expectedChecksum)
    ensures var t := Transport(c => FetchFrom(shared, serverFs, id, c), None, now);
      var r := Download(h, config, t, d, fs, store);
      r.success && r.fs[d.savePath] == serverFs[shared[id]]
  {
    var content := serverFs[shared[id]];
    var size := ThreadChunkSize(config);
    var t := Transport(c => FetchFrom(shared, serverFs, id, c), None, now);
    var n := NumChunks(|content|, size);
    forall k | 0 <= k < n
      ensures t.fetch(Plan(d.fileSize, size)[k]) == Fetched(PlanSlices(content, size, n)[k])
    {
      PlannedRangesServed(shared, serverFs, id, size, k);
    }
    DownloadDeliversContent(h, config, t, d, fs, store, content);
  }
}

=== FILE: security.dfy ===
/** Access control (security.py): the IP allow and block lists, the per-IP
    request window, the access tokens, the order in which a request is
    checked, where the token is read from, the safe content-type table and
    the salted password hash.

    The clock is a parameter (`now`, seconds); `datetime` values are seconds
    too. Random tokens and salts are parameters, and the key-derivation
    function (PBKDF2-HMAC-SHA256 with 100000 rounds) is a function
    parameter. */
module Security {
  import opened Text

  /** Requests per IP within the last minute (security.py:26). */
  const DefaultMaxRequests: int := 60
  const Window: real := 60.0

  datatype TokenInfo = TokenInfo(created: real, expires: real, uses: nat)

  datatype AccessControl = AccessControl(
    allowed: set<string>,
    blocked: set<string>,
    tokens: map<string, TokenInfo>,
    requireToken: bool,
    rateLimits: map<string, seq<real>>,
    maxPerMinute: int)

  function NewAccessControl(): (ac: AccessControl)
    ensures ac.allowed == {} && ac.blocked == {} && ac.tokens == map[] && !ac.requireToken
    ensures ac.maxPerMinute == DefaultMaxRequests
  {
    AccessControl({}, {}, map[], false, map[], DefaultMaxRequests)
  }

  // ---------------------------------------------------------------------------
  // IP lists

  function AllowIp(ac: AccessControl, ip: string): (r: AccessControl)
    ensures r.allowed == ac.allowed + {ip} && r.blocked == ac.blocked
  {
    ac.(allowed := ac.allowed + {ip})
  }

  function BlockIp(ac: AccessControl, ip: string): (r: AccessControl)
    ensures r.blocked == ac.blocked + {ip} && r.allowed == ac.allowed
  {
    ac.(blocked := ac.blocked + {ip})
  }

  /** `is_ip_allowed`: blocked first, then an allowlist if there is one. */
  predicate IsIpAllowed(ac: AccessControl, ip: string)
    ensures IsIpAllowed(ac, ip) <==> ip !in ac.blocked && (ac.allowed == {} || ip in ac.allowed)
  {
    if ip in ac.blocked then false
    else if |ac.allowed| > 0 && ip !in ac.allowed then false
    else true
  }

  /** Blocking wins over allowing, in either order of the two calls; with an
      empty allowlist and no block everyone is let in. */
  lemma BlockWins(ac: AccessControl, ip: string)
    ensures !IsIpAllowed(AllowIp(BlockIp(ac, ip), ip), ip)
    ensures !IsIpAllowed(BlockIp(AllowIp(ac, ip), ip), ip)
    ensures IsIpAllowed(AllowIp(ac, ip), ip) <==> ip !in ac.blocked
    ensures ac.allowed == {} && ip !in ac.blocked ==> IsIpAllowed(ac, ip)
  {
    assert ip in AllowIp(ac, ip).allowed;
  }

  /** Allowing one address shuts out every other address not already on the
      allowlist. */
  lemma AllowlistExcludes(ac: AccessControl, ip: string, other: string)
    requires other != ip && other !in ac.allowed
    ensures !IsIpAllowed(AllowIp(ac, ip), other)
  {
    assert ip in AllowIp(ac, ip).allowed;
  }

  // ---------------------------------------------------------------------------
  // Rate limit

  /** The timestamps later than `cutoff`, in order. */
  function KeepAfter(times: seq<real>, cutoff: real): (r: seq<real>)
    ensures |r| <= |times|
    ensures forall i :: 0 <= i < |r| ==> r[i] > cutoff
    ensures forall t :: t in times && t > cutoff ==> t in r
    ensures forall t :: t in r ==> t in times
  {
    if |times| == 0 then []
    else
      var rest := KeepAfter(times[1..], cutoff);
      if times[0] > cutoff then [times[0]] + rest else rest
  }

  /** `check_rate_limit`: forget requests older than a minute, then accept and
      record this one if fewer than the maximum remain. */
  function CheckRateLimit(ac: AccessControl, ip: string, now: real): (r: (AccessControl, bool))
    ensures var recent := KeepAfter(if ip in ac.rateLimits then ac.rateLimits[ip] else [], now - Window);
      && ip in r.0.rateLimits
      && (r.1 <==> |recent| < ac.maxPerMinute)
      && (r.1 ==> r.0.rateLimits[ip] == recent + [now])
      && (!r.1 ==> r.0.rateLimits[ip] == recent)
    ensures forall other :: other != ip ==>
      (other in r.0.rateLimits <==> other in ac.rateLimits) &&
      (other in ac.rateLimits ==> r.0.rateLimits[other] == ac.rateLimits[other])
    ensures r.0.(rateLimits := ac.rateLimits) == ac
  {
    var recent := KeepAfter(if ip in ac.rateLimits then ac.rateLimits[ip] else [], now - Window);
    if |recent| < ac.maxPerMinute then (ac.(rateLimits := ac.rateLimits[ip := recent + [now]]), true)
    else (ac.(rateLimits := ac.rateLimits[ip := recent]), false)
  }

  /** No address holds more timestamps than the maximum. */
  predicate WindowsBounded(ac: AccessControl)
  {
    forall ip :: ip in ac.rateLimits ==> |ac.rateLimits[ip]| <= ac.maxPerMinute
  }

  /** The bound survives every check, and after a check the checked address
      holds only timestamps from the last minute (and the current one). */
  lemma RateLimitKeepsBound(ac: AccessControl, ip: string, now: real)
    requires WindowsBounded(ac) && ac.maxPerMinute >= 0
    ensures var r := CheckRateLimit(ac, ip, now);
      WindowsBounded(r.0) && forall i :: 0 <= i < |r.0.rateLimits[ip]| ==> r.0.rateLimits[ip][i] > now - Window
  {
    var r := CheckRateLimit(ac, ip, now);
    var recent := KeepAfter(if ip in ac.rateLimits then ac.rateLimits[ip] else [], now - Window);
    if r.1 {
      assert r.0.rateLimits[ip] == recent + [now];
      assert forall i :: 0 <= i < |recent| ==> (recent + [now])[i] == recent[i];
    }
  }

  /** The `max`+1-th request within one minute is refused, and refusal
      records nothing. */
  lemma BurstRefused(ac: AccessControl, ip: string, now: real)
    requires ip in ac.rateLimits && |ac.rateLimits[ip]| == ac.maxPerMinute
    requires forall i :: 0 <= i < |ac.rateLimits[ip]| ==> ac.rateLimits[ip][i] > now - Window
    ensures var r := CheckRateLimit(ac, ip, now);
      !r.1 && r.0 == ac
  {
    var times := ac.rateLimits[ip];
    KeepAllRecent(times, now - Window);
    var r := CheckRateLimit(ac, ip, now);
    assert r.0.rateLimits == ac.rateLimits;
  }

  lemma {:induction false} KeepAllRecent(times: seq<real>, cutoff: real)
    requires forall i :: 0 <= i < |times| ==> times[i] > cutoff
    ensures KeepAfter(times, cutoff) == times
  {
    if |times| > 0 {
      KeepAllRecent(times[1..], cutoff);
    }
  }

  // ---------------------------------------------------------------------------
  // Tokens

  /** `generate_access_token` with the random token and the clock given. */
  function GenerateToken(ac: AccessControl, token: string, now: real, expiresHours: real): (r: AccessControl)
    ensures r.tokens == ac.tokens[token := TokenInfo(now, now + expiresHours * 3600.0, 0)]
    ensures r.(tokens := ac.tokens) == ac
  {
    ac.(tokens := ac.tokens[token := TokenInfo(now, now + expiresHours * 3600.0, 0)])
  }

  predicate Expired(info: TokenInfo, now: real)
  {
    now > info.expires
  }

  /** `validate_token`: unknown fails; expired is deleted and fails;
      otherwise its use count goes up and it passes. */
  function ValidateToken(ac: AccessControl, token: string, now: real): (r: (AccessControl, bool))
    ensures r.1 <==> token in ac.tokens && !Expired(ac.tokens[token], now)
    ensures token !in ac.tokens ==> r.0 == ac
    ensures token in ac.tokens && Expired(ac.tokens[token], now) ==> r.0.tokens == ac.tokens - {token}
    ensures r.1 ==> r.0.tokens == ac.tokens[token := ac.tokens[token].(uses := ac.tokens[token].uses + 1)]
    ensures r.0.(tokens := ac.tokens) == ac
  {
    if token !in ac.tokens then (ac, false)
    else
      var info := ac.tokens[token];
      if now > info.expires then (ac.(tokens := ac.tokens - {token}), false)
      else (ac.(tokens := ac.tokens[token := info.(uses := info.uses + 1)]), true)
  }

  /** A token validates from its creation until its expiry, inclusive. */
  lemma TokenLifetime(ac: AccessControl, token: string, now: real, hours: real, later: real)
    requires hours >= 0.0 && now <= later
    ensures ValidateToken(GenerateToken(ac, token, now, hours), token, later).1 <==> later <= now + hours * 3600.0
  {
  }

  function ExpiredTokens(ac: AccessControl, now: real): set<string>
  {
    set t | t in ac.tokens && Expired(ac.tokens[t], now)
  }

  /** `cleanup_expired_tokens`: drops exactly the expired tokens and returns
      how many went. */
  function CleanupExpiredTokens(ac: AccessControl, now: real): (r: (AccessControl, nat))
    ensures r.0.tokens.Keys == ac.tokens.Keys - ExpiredTokens(ac, now)
    ensures forall t :: t in r.0.tokens ==> r.0.tokens[t] == ac.tokens[t] && !Expired(ac.tokens[t], now)
    ensures r.1 + |r.0.tokens| == |ac.tokens|
    ensures r.0.(tokens := ac.tokens) == ac
  {
    var expired := ExpiredTokens(ac, now);
    var kept := map t | t in ac.tokens && !Expired(ac.tokens[t], now) :: ac.tokens[t];
    assert kept.Keys + expired == ac.tokens.Keys;
    assert kept.Keys * expired == {};
    (ac.(tokens := kept), |expired|)
  }

  /** A token survives cleanup exactly when it would still validate then. */
  lemma CleanupAgreesWithValidate(ac: AccessControl, token: string, now: real)
    requires token in ac.tokens
    ensures token in CleanupExpiredTokens(ac, now).0.tokens <==> ValidateToken(ac, token, now).1
  {
  }

  // ---------------------------------------------------------------------------
  // Where the token comes from

  /** A query pair that gives `token` a non-blank value. */
  predicate IsTokenPair(pair: string) { |pair| > 6 && pair[..6] == "token=" }

  /** The value of the first `token=` pair with a non-empty value in a query
      string (`parse_qs(q)['token'][0]`; blank values are dropped).
      Percent-decoding is not modelled. */
  function QueryToken(pairs: seq<string>): (r: Option<string>)
    ensures r.Some? ==> |r.value| > 0 && exists i :: 0 <= i < |pairs| && pairs[i] == "token=" + r.value
    ensures r.None? <==> forall i :: 0 <= i < |pairs| ==> !IsTokenPair(pairs[i])
    ensures r.Some? ==> exists i :: 0 <= i < |pairs| && IsTokenPair(pairs[i]) && r.value == pairs[i][6..]
                                   && forall j :: 0 <= j < i ==> !IsTokenPair(pairs[j])
  {
    if |pairs| == 0 then None
    else
      var pair := pairs[0];
      TokenPairShape(pair);
      if '=' in pair && pair[..IndexOf(pair, '=')] == "token" && |pair[IndexOf(pair, '=') + 1..]| > 0 then
        var value := pair[IndexOf(pair, '=') + 1..];
        assert pair == pair[..IndexOf(pair, '=')] + "=" + value;
        Some(value)
      else
        assert forall i :: 0 <= i < |pairs| - 1 ==> pairs[1..][i] == pairs[i + 1];
        var rest := QueryToken(pairs[1..]);
        assert rest.Some? ==> exists i :: 1 <= i < |pairs| && IsTokenPair(pairs[i]) && rest.value == pairs[i][6..]
                                         && forall j :: 0 <= j < i ==> !IsTokenPair(pairs[j]) by {
          if rest.Some? {
            var i :| 0 <= i < |pairs| - 1 && IsTokenPair(pairs[1..][i]) && rest.value == pairs[1..][i][6..]
                     && forall j :: 0 <= j < i ==> !IsTokenPair(pairs[1..][j]);
            assert forall j :: 1 <= j < i + 1 ==> !IsTokenPair(pairs[j]) by {
              forall j | 1 <= j < i + 1 ensures !IsTokenPair(pairs[j]) {
                assert pairs[j] == pairs[1..][j - 1];
              }
            }
          }
        }
        rest
  }

  /** The test `get_token_from_request` applies to a pair, in the pair's own
      terms: the name before the first `=` is `token` and a value follows. */
  lemma TokenPairShape(pair: string)
    ensures ('=' in pair && pair[..IndexOf(pair, '=')] == "token" && |pair[IndexOf(pair, '=') + 1..]| > 0)
              <==> IsTokenPair(pair)
    ensures IsTokenPair(pair) ==> IndexOf(pair, '=') == 5
  {
    if IsTokenPair(pair) {
      assert pair[5] == '=';
      assert pair[..5] == "token";
      IndexOfUnique(pair, '=', 5);
    }
    if '=' in pair && pair[..IndexOf(pair, '=')] == "token" {
      assert IndexOf(pair, '=') == 5;
    }
  }

  /** `get_token_from_request`: a Bearer header wins; otherwise the query
      string of the path; otherwise none. */
  function TokenFromRequest(authorization: Option<string>, path: string): (r: Option<string>)
    ensures authorization.Some? && StartsWith(authorization.value, "Bearer ") ==> r == Some(authorization.value[7..])
    ensures r.Some? && !(authorization.Some? && StartsWith(authorization.value, "Bearer ")) ==>
      '?' in path && |r.value| > 0
    ensures '?' !in path && !(authorization.Some? && StartsWith(authorization.value, "Bearer ")) ==> r.None?
    ensures '?' in path && !(authorization.Some? && StartsWith(authorization.value, "Bearer ")) ==>
      r == QueryToken(Split(path[IndexOf(path, '?') + 1..], '&'))
  {
    if authorization.Some? && StartsWith(authorization.value, "Bearer ") then Some(authorization.value[7..])
    else if '?' in path then QueryToken(Split(path[IndexOf(path, '?') + 1..], '&'))
    else None
  }

  /** A single `token=` query parameter is found when no Bearer header is
      sent. */
  lemma QueryTokenFound(page: string, value: string, authorization: Option<string>)
    requires '?' !in page && '&' !in value && |value| > 0
    requires !(authorization.Some? && StartsWith(authorization.value, "Bearer "))
    ensures TokenFromRequest(authorization, page + "?token=" + value) == Some(value)
  {
    var path := page + "?token=" + value;
    TokenQueryAfterMark(page, value);
    SingleTokenPair(value);
    assert TokenFromRequest(authorization, path) == QueryToken(Split("token=" + value, '&'));
  }

  /** The query string is what follows the first `?`. */
  lemma TokenQueryAfterMark(page: string, value: string)
    requires '?' !in page
    ensures var path := page + "?token=" + value;
      '?' in path && path[IndexOf(path, '?') + 1..] == "token=" + value
  {
    var path := page + "?token=" + value;
    var rest := "?token=" + value;
    assert path == page + rest;
    IndexOfAfterFree(page, rest, '?');
    assert rest[1..] == "token=" + value;
    assert path[|page| + 1..] == rest[1..];
  }

  /** A query of one `token=value` pair yields the value. */
  lemma SingleTokenPair(value: string)
    requires '&' !in value && |value| > 0
    ensures QueryToken(Split("token=" + value, '&')) == Some(value)
  {
    var query := "token=" + value;
    NoSeparatorInPair(value);
    assert Split(query, '&') == [query];
    TokenPairValue(value);
  }

  lemma NoSeparatorInPair(value: string)
    requires '&' !in value
    ensures '&' !in "token=" + value
  {
    var query := "token=" + value;
    forall k | 0 <= k < |query|
      ensures query[k] != '&'
    {
      if k >= 6 {
        assert query[k] == value[k - 6];
      }
    }
  }

  /** The pair `token=value` names the token and carries the value. */
  lemma TokenPairValue(value: string)
    ensures var pair := "token=" + value;
      '=' in pair && IndexOf(pair, '=') == 5 && pair[..5] == "token" && pair[6..] == value
  {
    var pair := "token=" + value;
    IndexOfUnique(pair, '=', 5);
  }

  // ---------------------------------------------------------------------------
  // Checking a request

  datatype Verdict = Denied | TooManyRequests | AuthRequired | Admitted

  /** The status code each refusal is sent with. */
  function VerdictCode(v: Verdict): (code: nat)
    ensures v.Admitted? <==> code == 200
  {
    match v
    case Denied => 403
    case TooManyRequests => 429
    case AuthRequired => 401
    case Admitted => 200
  }

  /** `validate_request`: the IP lists, then the rate limit, then (when
      required) the token, which must be non-empty and valid. */
  function ValidateRequest(ac: AccessControl, ip: string, authorization: Option<string>, path: string, now: real): (r: (AccessControl, Verdict))
    ensures r.1 == Denied <==> !IsIpAllowed(ac, ip)
    ensures r.1 == Denied ==> r.0 == ac
    ensures IsIpAllowed(ac, ip) ==> (r.1 == TooManyRequests <==> !CheckRateLimit(ac, ip, now).1)
    ensures IsIpAllowed(ac, ip) ==> r.0.rateLimits == CheckRateLimit(ac, ip, now).0.rateLimits
    ensures r.1 == Admitted && ac.requireToken ==>
      var t := TokenFromRequest(authorization, path);
      t.Some? && t.value != "" && t.value in ac.tokens && !Expired(ac.tokens[t.value], now)
    ensures IsIpAllowed(ac, ip) && CheckRateLimit(ac, ip, now).1 && !ac.requireToken ==> r.1 == Admitted
    ensures IsIpAllowed(ac, ip) && CheckRateLimit(ac, ip, now).1 && ac.requireToken ==>
      var t := TokenFromRequest(authorization, path);
      (r.1 == Admitted <==> t.Some? && t.value != "" && t.value in ac.tokens && !Expired(ac.tokens[t.value], now))
    ensures IsIpAllowed(ac, ip) && CheckRateLimit(ac, ip, now).1 && ac.requireToken ==>
      var t := TokenFromRequest(authorization, path);
      r.0 == if t.Some? && t.value != "" then ValidateToken(CheckRateLimit(ac, ip, now).0, t.value, now).0
             else CheckRateLimit(ac, ip, now).0
    ensures IsIpAllowed(ac, ip) && !(CheckRateLimit(ac, ip, now).1 && ac.requireToken) ==> r.0 == CheckRateLimit(ac, ip, now).0
  {
    if !IsIpAllowed(ac, ip) then (ac, Denied)
    else
      var limited := CheckRateLimit(ac, ip, now);
      if !limited.1 then (limited.0, TooManyRequests)
      else if ac.requireToken then
        var token := TokenFromRequest(authorization, path);
        if token.None? || token.value == "" then (limited.0, AuthRequired)
        else
          var checked := ValidateToken(limited.0, token.value, now);
          if checked.1 then (checked.0, Admitted) else (checked.0, AuthRequired)
      else (limited.0, Admitted)
  }

  /** A request refused for its token still used up a slot of the rate
      window. */
  lemma RefusedTokenUsesSlot(ac: AccessControl, ip: string, path: string, now: real)
    requires ac.requireToken && IsIpAllowed(ac, ip) && CheckRateLimit(ac, ip, now).1 && '?' !in path
    ensures var r := ValidateRequest(ac, ip, None, path, now);
      r.1 == AuthRequired && r.0.rateLimits[ip] == CheckRateLimit(ac, ip, now).0.rateLimits[ip]
      && |r.0.rateLimits[ip]| == |KeepAfter(if ip in ac.rateLimits then ac.rateLimits[ip] else [], now - Window)| + 1
  {
  }

  /** `Bearer ` with nothing after it is refused, and does not fall back to
      the query string. */
  lemma EmptyBearerRefused(ac: AccessControl, ip: string, query: string, now: real)
    requires ac.requireToken && IsIpAllowed(ac, ip) && CheckRateLimit(ac, ip, now).1
    ensures ValidateRequest(ac, ip, Some("Bearer "), "/?token=" + query, now).1 == AuthRequired
  {
    assert StartsWith("Bearer ", "Bearer ");
    assert "Bearer "[7..] == "";
  }

  // ---------------------------------------------------------------------------
  // Safe content types

  /** The table of `get_safe_content_type`. */
  const SafeTypes: map<string, string> := map[
    ".txt" := "text/plain; charset=utf-8", ".py" := "text/plain; charset=utf-8",
    ".js" := "text/plain; charset=utf-8", ".html" := "text/plain; charset=utf-8",
    ".css" := "text/plain; charset=utf-8", ".json" := "application/json", ".xml" := "text/xml",
    ".jpg" := "image/jpeg", ".jpeg" := "image/jpeg", ".png" := "image/png", ".gif" := "image/gif",
    ".pdf" := "application/pdf", ".csv" := "text/csv"]

  /** `get_safe_content_type`: the lower-cased extension looked up in the
      table, `application/octet-stream` otherwise. */
  function SafeContentType(path: string): (r: string)
    ensures r in SafeTypes.Values || r == "application/octet-stream"
    ensures r != "text/html"
  {
    var ext := Lower(SplitExt(path).1);
    if ext in SafeTypes then SafeTypes[ext] else "application/octet-stream"
  }

  lemma NoDotBeforeEnd(stem: string, ext: string)
    requires |ext| >= 1 && ext[0] == '.'
    requires forall k :: 1 <= k < |ext| ==> ext[k] != '.' && !IsPathSep(ext[k])
    requires forall k :: 0 <= k < |stem| ==> !IsPathSep(stem[k])
    ensures LastIndexOf(stem + ext, '.') == |stem|
    ensures LastSepIndex(stem + ext) == -1
  {
    var p := stem + ext;
    assert p[|stem|] == '.';
    var tail := p[|stem| + 1..];
    assert '.' !in tail by {
      forall k | 0 <= k < |tail| ensures tail[k] != '.' { assert tail[k] == ext[k + 1]; }
    }
    LastIndexOfAt(p, '.', |stem|);
    forall k | 0 <= k < |p| ensures !IsPathSep(p[k]) {
      if k < |stem| { assert p[k] == stem[k]; } else { assert p[k] == ext[k - |stem|]; }
    }
  }

  lemma {:induction false} LastIndexOfAt(s: string, c: char, i: nat)
    requires i < |s| && s[i] == c && c !in s[i + 1..]
    ensures LastIndexOf(s, c) == i
    decreases |s|
  {
    if |s| - 1 != i {
      assert s[|s| - 1] == s[i + 1..][|s| - 2 - i];
      assert s[..|s| - 1][i + 1..] == s[i + 1..][..|s| - 2 - i];
      LastIndexOfAt(s[..|s| - 1], c, i);
    }
  }

  /** A file named `stem + ext` with a plain stem and any casing of a table
      extension gets that extension's type: the lookup ignores case. */
  lemma SafeTypeOfName(stem: string, ext: string)
    requires |stem| > 0 && forall k :: 0 <= k < |stem| ==> stem[k] != '.' && !IsPathSep(stem[k])
    requires Lower(ext) in SafeTypes
    requires forall k :: 1 <= k < |ext| ==> ext[k] != '.' && !IsPathSep(ext[k])
    ensures SafeContentType(stem + ext) == SafeTypes[Lower(ext)]
  {
    var l := Lower(ext);
    assert |ext| >= 1 && ext[0] == '.' by {
      assert |l| >= 1 && l[0] == '.';
      assert LowerChar(ext[0]) == '.';
    }
    NoDotBeforeEnd(stem, ext);
    var p := stem + ext;
    assert p[0] != '.' && 0 < |stem|;
    assert SplitExt(p) == (stem, ext) by {
      assert p[..|stem|] == stem && p[|stem|..] == ext;
    }
  }

  /** A file whose extension, in any casing, is not in the table is served
      as `application/octet-stream`. */
  lemma UnknownTypeIsBinary(stem: string, ext: string)
    requires |stem| > 0 && forall k :: 0 <= k < |stem| ==> stem[k] != '.' && !IsPathSep(stem[k])
    requires |ext| >= 1 && ext[0] == '.' && Lower(ext) !in SafeTypes
    requires forall k :: 1 <= k < |ext| ==> ext[k] != '.' && !IsPathSep(ext[k])
    ensures SafeContentType(stem + ext) == "application/octet-stream"
  {
    NoDotBeforeEnd(stem, ext);
    var p := stem + ext;
    assert p[0] != '.' && 0 < |stem|;
    assert SplitExt(p) == (stem, ext) by {
      assert p[..|stem|] == stem && p[|stem|..] == ext;
    }
  }

  /** A name without a dot has no extension and is served as
      `application/octet-stream`. */
  lemma NoExtensionIsBinary(path: string)
    requires '.' !in path
    ensures SafeContentType(path) == "application/octet-stream"
  {
    assert LastIndexOf(path, '.') == -1;
    assert SplitExt(path).1 == [];
    assert Lower([]) == [];
  }

  /** HTML is served as plain text whatever its case. */
  lemma HtmlServedAsText(stem: string)
    requires |stem| > 0 && forall k :: 0 <= k < |stem| ==> stem[k] != '.' && !IsPathSep(stem[k])
    ensures SafeContentType(stem + ".html") == "text/plain; charset=utf-8"
    ensures SafeContentType(stem + ".HTML") == "text/plain; charset=utf-8"
  {
    assert Lower(".html") == ".html";
    assert Lower(".HTML") == ".html";
    SafeTypeOfName(stem, ".html");
    SafeTypeOfName(stem, ".HTML");
  }

  // ---------------------------------------------------------------------------
  // Password hashing

  function HexDigit(n: nat): (c: char)
    requires n < 16
  {
    if n < 10 then ('0' as int + n) as char else ('a' as int + n - 10) as char
  }

  /** `bytes.hex()`: two lower-case hex digits per byte, high nibble first. */
  function Hex(b: seq<byte>): (r: string)
    ensures |r| == 2 * |b|
    ensures forall k :: 0 <= k < |b| ==> r[2 * k] == HexDigit(b[k] as nat / 16) && r[2 * k + 1] == HexDigit(b[k] as nat % 16)
  {
    seq(2 * |b|, i requires 0 <= i < 2 * |b| =>
      var x := b[i / 2] as nat;
      if i % 2 == 0 then HexDigit(x / 16) else HexDigit(x % 16))
  }

  lemma HexDigitInjective(a: nat, b: nat)
    requires a < 16 && b < 16 && HexDigit(a) == HexDigit(b)
    ensures a == b
  {
  }

  lemma ByteFromDigits(p: byte, q: byte)
    requires (p as nat) / 16 == (q as nat) / 16 && (p as nat) % 16 == (q as nat) % 16
    ensures p == q
  {
    var x, y := p as nat, q as nat;
    assert x == 16 * (x / 16) + x % 16;
    assert y == 16 * (y / 16) + y % 16;
  }

  /** Different bytes have different hex strings. */
  lemma HexInjective(a: seq<byte>, b: seq<byte>)
    requires Hex(a) == Hex(b)
    ensures a == b
  {
    assert |a| == |b|;
    forall k | 0 <= k < |a| ensures a[k] == b[k] {
      var x, y := a[k] as nat, b[k] as nat;
      assert Hex(a)[2 * k] == Hex(b)[2 * k] && Hex(a)[2 * k + 1] == Hex(b)[2 * k + 1];
      HexDigitInjective(x / 16, y / 16);
      HexDigitInjective(x % 16, y % 16);
      ByteFromDigits(a[k], b[k]);
    }
  }

  /** `hash_password`: the salt followed by the hex digest. */
  function HashPassword(kdf: (string, string) -> seq<byte>, password: string, salt: string): (r: string)
    ensures StartsWith(r, salt) && |r| == |salt| + 2 * |kdf(password, salt)|
  {
    salt + Hex(kdf(password, salt))
  }

  /** `verify_password`: the first 32 characters are taken as the salt (the
      length of `secrets.token_hex(16)`), the rest as the digest. */
  predicate VerifyPassword(kdf: (string, string) -> seq<byte>, password: string, hashed: string)
    ensures |hashed| >= 32 ==> (VerifyPassword(kdf, password, hashed) <==> hashed == HashPassword(kdf, password, hashed[..32]))
  {
    var salt := if |hashed| < 32 then hashed else hashed[..32];
    var stored := if |hashed| < 32 then "" else hashed[32..];
    Hex(kdf(password, salt)) == stored
  }

  /** A hash made with a 32-character salt (the default) verifies its
      password, and verifies no password whose derived key differs. */
  lemma PasswordRoundTrip(kdf: (string, string) -> seq<byte>, password: string, other: string, salt: string)
    requires |salt| == 32
    ensures VerifyPassword(kdf, password, HashPassword(kdf, password, salt))
    ensures kdf(other, salt) != kdf(password, salt) ==> !VerifyPassword(kdf, other, HashPassword(kdf, password, salt))
  {
    var h := HashPassword(kdf, password, salt);
    assert h[..32] == salt && h[32..] == Hex(kdf(password, salt));
    if kdf(other, salt) != kdf(password, salt) && VerifyPassword(kdf, other, h) {
      HexInjective(kdf(other, salt), kdf(password, salt));
    }
  }
}

=== FILE: server.dfy ===
/** The HTTP handler that serves shared files (`FileShareHandler`, main.py).

    It answers `/` with the listing page, `/download/<id>` with the file
    (whole, or one byte range as in sections 2.1, 4.2 and 4.4 of RFC 7233),
    and `/files/<id>` with a preview. The listing HTML is a parameter; the
    client's disconnect is modelled as the number of writes it accepts. */
module Server {
  import opened Text
  import opened Config

  type Headers = seq<(string, string)>

  datatype Response =
    | Failure(code: nat, message: string)                  // send_error
    | Reply(status: nat, headers: Headers, body: seq<byte>)
    | Delegated                                            // left to SimpleHTTPRequestHandler

  /** Shared files by id: the path each id was registered with. */
  type SharedFiles = map<string, string>

  /** A GET request: the path, the Range header if sent, and how many
      writes the client accepts before the connection breaks (None: all). */
  datatype Request = Request(path: string, range: Option<string>, accepted: Option<nat>)

  datatype Route = Listing | DownloadRoute(id: string) | PreviewRoute(id: string) | Other

  /** The dispatch shared by `do_GET` and `do_HEAD`; an id is what follows
      the last occurrence of the route prefix. */
  function RouteOf(path: string): Route
  {
    if path == "/" then Listing
    else if StartsWith(path, "/download/") then DownloadRoute(LastPiece(path, "/download/"))
    else if StartsWith(path, "/files/") then PreviewRoute(LastPiece(path, "/files/"))
    else Other
  }

  /** An id that does not itself contain the prefix is routed back out of
      the path built from it. */
  lemma DownloadPathRoutes(id: string)
    requires !Contains(id, "/download/")
    ensures RouteOf("/download/" + id) == DownloadRoute(id)
  {
    var sep := "/download/";
    var path := sep + id;
    assert path[..|sep|] == sep;
    assert path != "/" by { assert |path| >= |sep|; }
    assert Find(path, sep) == Some(0);
    assert path[|sep|..] == id;
    if Find(id, sep).Some? {
      assert false;
    }
    assert LastPiece(path, sep) == LastPiece(id, sep) == id;
  }

  // ---------------------------------------------------------------------------
  // Byte ranges

  datatype RangeSpec = Malformed | Bounds(start: int, end: int)

  /** `range_header.replace('bytes=', '').split('-')`, then `int()` on the
      first two pieces; an empty start reads as 0 and an empty end as the
      last byte. Fewer than two pieces or a non-number is malformed (the
      IndexError and ValueError the handler turns into 400). */
  function ParseRange(header: string, fileSize: int): (r: RangeSpec)
    ensures r.Bounds? ==> r.start >= 0 && (r.end >= 0 || r.end == fileSize - 1)
  {
    var pieces := Split(RemoveAll(header, "bytes="), '-');
    var start := if pieces[0] == "" then Some(0) else ParseInt(pieces[0]);
    ParseIntWithoutMinus(pieces[0]);
    if start.None? || |pieces| < 2 then Malformed
    else
      ParseIntWithoutMinus(pieces[1]);
      var end := if pieces[1] == "" then Some(fileSize - 1) else ParseInt(pieces[1]);
      if end.None? then Malformed else Bounds(start.value, end.value)
  }

  /** The range validation: 416 unless `start <= end < size`. */
  predicate Satisfiable(start: int, end: int, fileSize: int)
  {
    !(start >= fileSize || end >= fileSize || start > end)
  }

  lemma RemoveBytesPrefix(rest: string)
    requires 'b' !in rest
    ensures RemoveAll("bytes=" + rest, "bytes=") == rest
  {
    var s := "bytes=" + rest;
    assert "bytes=" <= s;
    assert s[|"bytes="|..] == rest;
    RemoveAllAbsent(rest, "bytes=");
  }

  lemma SplitTwo(a: string, b: string)
    requires '-' !in a && '-' !in b
    ensures Split(a + "-" + b, '-') == [a, b]
  {
    assert Join([a, b], '-') == a + "-" + b;
    SplitJoin([a, b], '-');
  }

  lemma DigitsHaveNoLetters(s: string)
    requires AllDigits(s)
    ensures 'b' !in s && '-' !in s
  {
    forall k | 0 <= k < |s|
      ensures s[k] != 'b' && s[k] != '-'
    {
      assert IsDigit(s[k]);
    }
  }

  /** The header a downloader sends for `[start, end]` reads back as exactly
      that range. */
  lemma RangeHeaderParses(start: nat, end: nat, fileSize: int)
    ensures ParseRange("bytes=" + NatToString(start) + "-" + NatToString(end), fileSize) == Bounds(start, end)
  {
    var a, b := NatToString(start), NatToString(end);
    DigitsHaveNoLetters(a);
    DigitsHaveNoLetters(b);
    assert "bytes=" + a + "-" + b == "bytes=" + (a + "-" + b);
    RemoveBytesPrefix(a + "-" + b);
    SplitTwo(a, b);
    ParseNatToString(start);
    ParseNatToString(end);
  }

  /** `bytes=-N` is read as the first `N + 1` bytes, not as the suffix range
      of section 2.1 of RFC 7233 (the last `N` bytes). */
  lemma SuffixRangeReadAsPrefix(n: nat, fileSize: int)
    ensures ParseRange("bytes=-" + NatToString(n), fileSize) == Bounds(0, n)
  {
    var b := NatToString(n);
    DigitsHaveNoLetters(b);
    assert "bytes=-" + b == "bytes=" + ("" + "-" + b);
    RemoveBytesPrefix("" + "-" + b);
    SplitTwo("", b);
    ParseNatToString(n);
  }

  /** `bytes=N-` runs to the last byte. */
  lemma OpenEndedRange(n: nat, fileSize: int)
    ensures ParseRange("bytes=" + NatToString(n) + "-", fileSize) == Bounds(n, fileSize - 1)
  {
    var a := NatToString(n);
    DigitsHaveNoLetters(a);
    assert "bytes=" + a + "-" == "bytes=" + (a + "-" + "");
    RemoveBytesPrefix(a + "-" + "");
    SplitTwo(a, "");
    ParseNatToString(n);
  }

  /** A non-numeric bound is malformed. */
  lemma NonNumericRange(fileSize: int)
    ensures ParseRange("bytes=x-", fileSize) == Malformed
  {
    assert "bytes=x-" == "bytes=" + ("x" + "-" + "");
    RemoveBytesPrefix("x" + "-" + "");
    SplitTwo("x", "");
    assert Strip("x") == "x";
    assert !IsDigitGroupString("x");
  }

  // ---------------------------------------------------------------------------
  // Writing a body

  /** What reaches a client that accepts `accepted` writes of `buffer`-sized
      pieces: a failed write ends the transfer. */
  function Delivered(data: seq<byte>, buffer: nat, accepted: Option<nat>): (r: seq<byte>)
    requires buffer >= 1
    ensures r <= data
    ensures accepted.None? ==> r == data
  {
    if accepted.None? || accepted.value * buffer >= |data| then data else data[..accepted.value * buffer]
  }

  /** The copy loops of `serve_file_download`: read at most `buffer` bytes,
      write them, stop at the end of the data or when a write fails. */
  method WriteBody(data: seq<byte>, buffer: nat, accepted: Option<nat>) returns (sent: seq<byte>)
    requires buffer >= 1
    ensures sent == Delivered(data, buffer, accepted)
    ensures sent <= data
  {
    sent := [];
    var pos := 0;
    var writes := 0;
    while pos < |data|
      invariant 0 <= pos <= |data| && pos <= writes * buffer
      invariant pos == writes * buffer || pos == |data|
      invariant sent == data[..pos]
      invariant accepted.Some? ==> writes <= accepted.value
      decreases |data| - pos
    {
      var stop := if pos + buffer < |data| then pos + buffer else |data|;
      var chunk := data[pos..stop];
      if accepted.Some? && writes == accepted.value {
        break;
      }
      sent := sent + chunk;
      assert (writes + 1) * buffer == writes * buffer + buffer;
      pos := stop;
      writes := writes + 1;
    }
    if accepted.Some? && pos == |data| {
      assert accepted.value * buffer >= writes * buffer by {
        assert (accepted.value - writes) * buffer >= 0;
      }
    }
  }

  // ---------------------------------------------------------------------------
  // Responses

  function Disposition(filename: string): (string, string)
  {
    ("Content-Disposition", "attachment; filename=\"" + filename + "\"")
  }

  /** The headers of a whole-file download (GET without Range, and HEAD). */
  function DownloadHeaders(filename: string, fileSize: nat): Headers
  {
    [("Content-type", "application/octet-stream"), Disposition(filename),
     ("Content-Length", NatToString(fileSize)), ("Accept-Ranges", "bytes")]
  }

  /** The headers of a 206 answer for `[start, end]`. */
  function RangeHeaders(filename: string, start: nat, end: nat, fileSize: nat): Headers
    requires start <= end
  {
    [("Content-type", "application/octet-stream"), Disposition(filename),
     ("Content-Length", NatToString(end - start + 1)),
     ("Content-Range", "bytes " + NatToString(start) + "-" + NatToString(end) + "/" + NatToString(fileSize)),
     ("Accept-Ranges", "bytes")]
  }

  /** The ranged branch of `serve_file_download` for a parsed header. */
  function ServeRange(filename: string, content: seq<byte>, spec: RangeSpec, accepted: Option<nat>): (r: Response)
    requires spec.Bounds? ==> spec.start >= 0
    ensures spec.Malformed? <==> r == Failure(400, "Invalid Range header")
    ensures spec.Bounds? ==>
              (r == Failure(416, "Requested Range Not Satisfiable") <==> !Satisfiable(spec.start, spec.end, |content|))
    ensures spec.Bounds? && Satisfiable(spec.start, spec.end, |content|) ==>
              && 0 <= spec.start <= spec.end < |content|
              && r.Reply? && r.status == 206 && r.headers == RangeHeaders(filename, spec.start, spec.end, |content|)
              && r.body <= content[spec.start..spec.end + 1]
              && (accepted.None? ==> r.body == content[spec.start..spec.end + 1])
  {
    match spec
    case Malformed => Failure(400, "Invalid Range header")
    case Bounds(start, end) =>
      if start >= |content| || end >= |content| || start > end then Failure(416, "Requested Range Not Satisfiable")
      else
        var length := end - start + 1;
        Reply(206, RangeHeaders(filename, start, end, |content|), Delivered(content[start..end + 1], ChunkSize(length), accepted))
  }

  /** `serve_file_download`: 404 for an unknown id or a file that is gone,
      the whole file without a Range header, the ranged branch with one. */
  function ServeDownload(shared: SharedFiles, fs: FileSystem, id: string, range: Option<string>, accepted: Option<nat>): (r: Response)
    ensures r == Failure(404, "File not found") <==> id !in shared || shared[id] !in fs
    ensures id in shared && shared[id] in fs && !Provided(range) ==>
              var content := fs[shared[id]];
              && r.Reply? && r.status == 200 && r.headers == DownloadHeaders(BaseName(shared[id]), |content|)
              && r.body <= content && (accepted.None? ==> r.body == content)
    ensures id in shared && shared[id] in fs && Provided(range) ==>
              r == ServeRange(BaseName(shared[id]), fs[shared[id]], ParseRange(range.value, |fs[shared[id]]|), accepted)
  {
    if id !in shared || shared[id] !in fs then Failure(404, "File not found")
    else
      var path := shared[id];
      var content := fs[path];
      if Provided(range) then ServeRange(BaseName(path), content, ParseRange(range.value, |content|), accepted)
      else Reply(200, DownloadHeaders(BaseName(path), |content|), Delivered(content, ChunkSize(|content|), accepted))
  }

  /** An empty file has no satisfiable range: a ranged request is answered
      400 or 416, never 206. */
  lemma EmptyFileHasNoRange(shared: SharedFiles, fs: FileSystem, id: string, range: Option<string>, accepted: Option<nat>)
    requires id in shared && shared[id] in fs && fs[shared[id]] == [] && Provided(range)
    ensures var r := ServeDownload(shared, fs, id, range, accepted);
      r.Failure? && (r.code == 400 || r.code == 416)
  {
  }

  /** A range request for `[start, end]` inside the file is answered 206 with
      exactly those bytes when the client stays connected. */
  lemma RangeRequestServed(shared: SharedFiles, fs: FileSystem, id: string, start: nat, end: nat)
    requires id in shared && shared[id] in fs && start <= end < |fs[shared[id]]|
    ensures var header := "bytes=" + NatToString(start) + "-" + NatToString(end);
      ServeDownload(shared, fs, id, Some(header), None)
        == Reply(206, RangeHeaders(BaseName(shared[id]), start, end, |fs[shared[id]]|), fs[shared[id]][start..end + 1])
  {
    var content := fs[shared[id]];
    var header := "bytes=" + NatToString(start) + "-" + NatToString(end);
    assert Provided(Some(header));
    RangeHeaderParses(start, end, |content|);
    var r := ServeDownload(shared, fs, id, Some(header), None);
    assert r == ServeRange(BaseName(shared[id]), content, Bounds(start, end), None);
  }

  // ---------------------------------------------------------------------------
  // Preview content types

  /** The extension table of the preview route, in the order it is checked. */
  const PreviewTable: seq<(string, string)> := [
    (".txt", "text/plain"), (".py", "text/plain"), (".js", "text/plain"), (".html", "text/plain"),
    (".css", "text/plain"), (".json", "text/plain"), (".xml", "text/plain"),
    (".jpg", "image/jpeg"), (".jpeg", "image/jpeg"), (".png", "image/png"), (".gif", "image/gif")]

  /** The type of the first table entry whose extension ends `name`. */
  function FirstMatch(name: string, table: seq<(string, string)>, k: nat): string
    decreases |table| - k
  {
    if k >= |table| then "application/octet-stream"
    else if EndsWith(name, table[k].0) then table[k].1
    else FirstMatch(name, table, k + 1)
  }

  /** The content type `serve_direct_file` and `do_HEAD` choose from the
      lower-cased path. */
  function PreviewContentType(path: string): (r: string)
    ensures r in {"text/plain", "image/jpeg", "image/png", "image/gif", "application/octet-stream"}
    ensures EndsWith(Lower(path), ".txt") || EndsWith(Lower(path), ".html") || EndsWith(Lower(path), ".json") ==> r == "text/plain"
  {
    var l := Lower(path);
    if EndsWith(l, ".txt") || EndsWith(l, ".py") || EndsWith(l, ".js") || EndsWith(l, ".html")
       || EndsWith(l, ".css") || EndsWith(l, ".json") || EndsWith(l, ".xml") then "text/plain"
    else if EndsWith(l, ".jpg") || EndsWith(l, ".jpeg") then "image/jpeg"
    else if EndsWith(l, ".png") then "image/png"
    else if EndsWith(l, ".gif") then "image/gif"
    else "application/octet-stream"
  }

  /** The branch chain is the table read top to bottom. */
  lemma PreviewFollowsTable(path: string)
    ensures PreviewContentType(path) == FirstMatch(Lower(path), PreviewTable, 0)
  {
    var l, t := Lower(path), PreviewTable;
    assert FirstMatch(l, t, 0) == if EndsWith(l, ".txt") then "text/plain" else FirstMatch(l, t, 1);
    assert FirstMatch(l, t, 1) == if EndsWith(l, ".py") then "text/plain" else FirstMatch(l, t, 2);
    assert FirstMatch(l, t, 2) == if EndsWith(l, ".js") then "text/plain" else FirstMatch(l, t, 3);
    assert FirstMatch(l, t, 3) == if EndsWith(l, ".html") then "text/plain" else FirstMatch(l, t, 4);
    assert FirstMatch(l, t, 4) == if EndsWith(l, ".css") then "text/plain" else FirstMatch(l, t, 5);
    assert FirstMatch(l, t, 5) == if EndsWith(l, ".json") then "text/plain" else FirstMatch(l, t, 6);
    assert FirstMatch(l, t, 6) == if EndsWith(l, ".xml") then "text/plain" else FirstMatch(l, t, 7);
    assert FirstMatch(l, t, 7) == if EndsWith(l, ".jpg") then "image/jpeg" else FirstMatch(l, t, 8);
    assert FirstMatch(l, t, 8) == if EndsWith(l, ".jpeg") then "image/jpeg" else FirstMatch(l, t, 9);
    assert FirstMatch(l, t, 9) == if EndsWith(l, ".png") then "image/png" else FirstMatch(l, t, 10);
    assert FirstMatch(l, t, 10) == if EndsWith(l, ".gif") then "image/gif" else FirstMatch(l, t, 11);
    assert FirstMatch(l, t, 11) == "application/octet-stream";
  }

  lemma LowerIdempotent(s: string)
    ensures Lower(Lower(s)) == Lower(s)
  {
  }

  /** The choice ignores case: a path and its lower-cased form get the same
      type. */
  lemma PreviewIgnoresCase(path: string)
    ensures PreviewContentType(path) == PreviewContentType(Lower(path))
  {
    LowerIdempotent(path);
  }

  // ---------------------------------------------------------------------------
  // GET and HEAD

  /** `do_GET`. */
  function Get(shared: SharedFiles, fs: FileSystem, listing: seq<byte>, req: Request): (r: Response)
    ensures RouteOf(req.path) == Other <==> r == Delegated
    ensures RouteOf(req.path) == Listing ==> r == Reply(200, [("Content-type", "text/html")], listing)
    ensures RouteOf(req.path).DownloadRoute? ==> r == ServeDownload(shared, fs, RouteOf(req.path).id, req.range, req.accepted)
  {
    match RouteOf(req.path)
    case Listing => Reply(200, [("Content-type", "text/html")], listing)
    case DownloadRoute(id) => ServeDownload(shared, fs, id, req.range, req.accepted)
    case PreviewRoute(id) =>
      if id !in shared || shared[id] !in fs then Failure(404, "File not found")
      else Reply(200, [("Content-type", PreviewContentType(shared[id]))], fs[shared[id]])
    case Other => Delegated
  }

  /** `do_HEAD`: headers only. */
  function Head(shared: SharedFiles, fs: FileSystem, listing: seq<byte>, path: string): (r: Response)
    ensures r.Reply? ==> r.body == []
    ensures RouteOf(path) == Other <==> r == Delegated
  {
    match RouteOf(path)
    case Listing => Reply(200, [("Content-type", "text/html"), ("Content-Length", NatToString(|listing|))], [])
    case DownloadRoute(id) =>
      if id !in shared || shared[id] !in fs then Failure(404, "File not found")
      else Reply(200, DownloadHeaders(BaseName(shared[id]), |fs[shared[id]]|), [])
    case PreviewRoute(id) =>
      if id !in shared || shared[id] !in fs then Failure(404, "File not found")
      else Reply(200, [("Content-type", PreviewContentType(shared[id])), ("Content-Length", NatToString(|fs[shared[id]]|))], [])
    case Other => Delegated
  }

  /** HEAD on a download answers like a GET without Range: the same status
      and headers (or the same error), and no body. */
  lemma HeadMatchesGetDownload(shared: SharedFiles, fs: FileSystem, listing: seq<byte>, path: string, accepted: Option<nat>)
    requires RouteOf(path).DownloadRoute?
    ensures var g := Get(shared, fs, listing, Request(path, None, accepted));
      var h := Head(shared, fs, listing, path);
      && (h.Failure? <==> g.Failure?) && (h.Failure? ==> h == g)
      && (h.Reply? ==> g.Reply? && h.status == g.status && h.headers == g.headers)
  {
  }

  /** HEAD and GET on a preview choose the same content type; HEAD adds the
      length. */
  lemma HeadMatchesGetPreview(shared: SharedFiles, fs: FileSystem, listing: seq<byte>, path: string, range: Option<string>)
    requires RouteOf(path).PreviewRoute?
    ensures var g := Get(shared, fs, listing, Request(path, range, None));
      var h := Head(shared, fs, listing, path);
      && (h.Failure? <==> g.Failure?) && (h.Failure? ==> h == g)
      && (h.Reply? ==> g.Reply? && h.status == g.status == 200 && |h.headers| == 2 && g.headers == [h.headers[0]]
                       && ParseInt(h.headers[1].1) == Some(|g.body|))
  {
    var id := RouteOf(path).id;
    if id in shared && shared[id] in fs {
      ParseNatToString(|fs[shared[id]]|);
    }
  }

  /** The listing's HEAD announces the length of the page GET sends. */
  lemma ListingLengthAnnounced(shared: SharedFiles, fs: FileSystem, listing: seq<byte>)
    ensures var h := Head(shared, fs, listing, "/");
      var g := Get(shared, fs, listing, Request("/", None, None));
      h.Reply? && g.Reply? && h.headers[1].0 == "Content-Length" && ParseInt(h.headers[1].1) == Some(|g.body|)
  {
    ParseNatToString(|listing|);
  }
}

=== FILE: settings.dfy ===
/** The settings window of settings_ui.py: the text the form shows for the
    current configuration, the checks run before saving, the unit
    conversions applied on save, cancel, and reset to defaults. Widgets,
    message boxes and the write of `config.json` are left out; a form is
    the text of its entries and the state of its check boxes. */
module Settings {
  import opened Text
  import opened Config

  // ---------------------------------------------------------------------------
  // The fields of the window

  /** Entries holding whole numbers, in the order the window checks them. */
  datatype Entry =
    | MaxFile | WarnFile | MaxTotal
    | MaxThreads | MinMultithread | ThreadChunk | MaxConcurrent
    | TcpBuffer | DownloadTimeout | ConnectionTimeout
    | ChunkSmall | ChunkMedium | ChunkLarge | ChunkXlarge
    | AutoRefresh

  /** Check boxes. */
  datatype Flag = ShowWarning | Multithread | Nodelay | Keepalive

  datatype Field = Number(entry: Entry) | Check(flag: Flag)

  const Entries: set<Entry> := {
    MaxFile, WarnFile, MaxTotal, MaxThreads, MinMultithread, ThreadChunk, MaxConcurrent,
    TcpBuffer, DownloadTimeout, ConnectionTimeout, ChunkSmall, ChunkMedium, ChunkLarge,
    ChunkXlarge, AutoRefresh
  }

  const Flags: set<Flag> := {ShowWarning, Multithread, Nodelay, Keepalive}

  const Fields: set<Field> := (set e | e in Entries :: Number(e)) + (set g | g in Flags :: Check(g))

  /** The configuration keys, in the order of `Position`. */
  const KeyTable: seq<string> := [
    "max_file_size_mb", "warn_file_size_mb", "max_total_share_size_gb",
    "max_download_threads", "min_file_size_for_multithread", "thread_chunk_size",
    "max_concurrent_downloads", "tcp_buffer_size", "download_timeout", "connection_timeout",
    "chunk_size_small", "chunk_size_medium", "chunk_size_large", "chunk_size_xlarge",
    "auto_refresh_interval",
    "show_file_size_warning", "enable_multithreaded_download", "enable_tcp_nodelay", "enable_keepalive"
  ]

  function Position(x: Field): (i: nat)
    ensures i < 19
  {
    match x
    case Number(MaxFile) => 0
    case Number(WarnFile) => 1
    case Number(MaxTotal) => 2
    case Number(MaxThreads) => 3
    case Number(MinMultithread) => 4
    case Number(ThreadChunk) => 5
    case Number(MaxConcurrent) => 6
    case Number(TcpBuffer) => 7
    case Number(DownloadTimeout) => 8
    case Number(ConnectionTimeout) => 9
    case Number(ChunkSmall) => 10
    case Number(ChunkMedium) => 11
    case Number(ChunkLarge) => 12
    case Number(ChunkXlarge) => 13
    case Number(AutoRefresh) => 14
    case Check(ShowWarning) => 15
    case Check(Multithread) => 16
    case Check(Nodelay) => 17
    case Check(Keepalive) => 18
  }

  /** The configuration key a field is stored under. */
  function Key(x: Field): string
  {
    KeyTable[Position(x)]
  }

  function NumberKey(e: Entry): string { Key(Number(e)) }

  function FlagKey(g: Flag): string { Key(Check(g)) }

  /** Tells the keys above apart by their length and their first and
      twelfth characters; it says nothing about other strings. */
  function KeyClass(s: string): Option<Field>
  {
    if |s| < 12 then None
    else if |s| == 15 then Some(Number(TcpBuffer))
    else if |s| == 16 then
      if s[0] == 'm' then Some(Number(MaxFile))
      else if s[0] == 'd' then Some(Number(DownloadTimeout))
      else if s[0] == 'e' then Some(Check(Keepalive))
      else if s[11] == 's' then Some(Number(ChunkSmall))
      else Some(Number(ChunkLarge))
    else if |s| == 17 then
      if s[0] == 'w' then Some(Number(WarnFile))
      else if s[0] == 't' then Some(Number(ThreadChunk))
      else if s[11] == 'm' then Some(Number(ChunkMedium))
      else Some(Number(ChunkXlarge))
    else if |s| == 18 then
      if s[0] == 'c' then Some(Number(ConnectionTimeout)) else Some(Check(Nodelay))
    else if |s| == 20 then Some(Number(MaxThreads))
    else if |s| == 21 then Some(Number(AutoRefresh))
    else if |s| == 22 then Some(Check(ShowWarning))
    else if |s| == 23 then Some(Number(MaxTotal))
    else if |s| == 24 then Some(Number(MaxConcurrent))
    else if |s| == 29 then
      if s[0] == 'm' then Some(Number(MinMultithread)) else Some(Check(Multithread))
    else None
  }

  lemma NumberKeyClassified(e: Entry)
    ensures KeyClass(NumberKey(e)) == Some(Number(e))
  {
    match e
    case MaxFile | WarnFile | MaxTotal | MaxThreads | MinMultithread | ThreadChunk | MaxConcurrent =>
    case _ =>
  }

  lemma FlagKeyClassified(g: Flag)
    ensures KeyClass(FlagKey(g)) == Some(Check(g))
  {
  }

  lemma KeyClassified(x: Field)
    ensures KeyClass(Key(x)) == Some(x)
  {
    match x
    case Number(e) => NumberKeyClassified(e);
    case Check(g) => FlagKeyClassified(g);
  }

  /** Different fields are stored under different keys. */
  lemma KeyInjective(x: Field, y: Field)
    ensures Key(x) == Key(y) ==> x == y
  {
    KeyClassified(x);
    KeyClassified(y);
  }

  lemma EntryListed(e: Entry)
    ensures e in Entries
  {
    match e
    case MaxFile => case WarnFile => case MaxTotal =>
    case MaxThreads => case MinMultithread => case ThreadChunk => case MaxConcurrent =>
    case TcpBuffer => case DownloadTimeout => case ConnectionTimeout =>
    case ChunkSmall => case ChunkMedium => case ChunkLarge => case ChunkXlarge =>
    case AutoRefresh =>
  }

  lemma FlagListed(g: Flag)
    ensures g in Flags
  {
    match g
    case ShowWarning => case Multithread => case Nodelay => case Keepalive =>
  }

  lemma AllFieldsListed()
    ensures forall e: Entry :: e in Entries
    ensures forall g: Flag :: g in Flags
    ensures forall x: Field :: x in Fields
  {
    forall e: Entry
      ensures e in Entries
    {
      EntryListed(e);
    }
    forall g: Flag
      ensures g in Flags
    {
      FlagListed(g);
    }
    forall x: Field
      ensures x in Fields
    {
      if x.Number? {
        EntryListed(x.entry);
      } else {
        FlagListed(x.flag);
      }
    }
  }

  /** Bytes per displayed unit: the form shows some sizes in MB or KB and
      the configuration stores bytes. */
  function Unit(e: Entry): (u: nat)
    ensures u >= 1
  {
    match e
    case MinMultithread | ThreadChunk | ChunkXlarge => MiB
    case TcpBuffer | ChunkSmall | ChunkMedium | ChunkLarge => KiB
    case _ => 1
  }

  /** The fallback the window uses, in stored units, when a key is absent. */
  function Default(e: Entry): int
  {
    match e
    case MaxFile => 10240
    case WarnFile => 1024
    case MaxTotal => 50
    case MaxThreads => 4
    case MinMultithread => 10485760
    case ThreadChunk => 2097152
    case MaxConcurrent => 5
    case TcpBuffer => 262144
    case DownloadTimeout => 300
    case ConnectionTimeout => 30
    case ChunkSmall => 8192
    case ChunkMedium => 65536
    case ChunkLarge => 524288
    case ChunkXlarge => 1048576
    case AutoRefresh => 30
  }

  // ---------------------------------------------------------------------------
  // The form

  datatype Form = Form(texts: map<Entry, string>, flags: map<Flag, bool>)

  /** Every entry and check box of the window is present. */
  predicate Complete(f: Form)
  {
    (forall e: Entry :: e in f.texts) && (forall g: Flag :: g in f.flags)
  }

  /** `str(v)` of a configuration value. */
  function Str(v: ConfigValue): string
  {
    match v
    case Int(i) => IntToString(i)
    case Bool(b) => if b then "True" else "False"
  }

  /** Python's `int(a / d)`: the quotient truncated toward zero. */
  function TruncDiv(a: int, d: nat): (q: int)
    requires d >= 1
    ensures a >= 0 ==> q >= 0 && q * d <= a < q * d + d
    ensures a < 0 ==> q <= 0 && a <= q * d < a + d
  {
    if a >= 0 then a / d else -((-a) / d)
  }

  /** The text an entry is filled with when the window opens: `str` of the
      value, or `str(int(value / unit))` for sizes shown in MB or KB. */
  function Shown(c: ConfigMap, e: Entry): string
  {
    var k := NumberKey(e);
    if Unit(e) == 1 then
      if k in c then Str(c[k]) else IntToString(Default(e))
    else IntToString(TruncDiv(GetNumber(c, k, Default(e)), Unit(e)))
  }

  /** The form as the window builds it from the current configuration. */
  function Display(c: ConfigMap): (f: Form)
    ensures Complete(f)
    ensures forall e: Entry :: f.texts[e] == Shown(c, e)
    ensures forall g: Flag :: f.flags[g] == GetFlag(c, FlagKey(g), true)
  {
    AllFieldsListed();
    Form(map e | e in Entries :: Shown(c, e), map g | g in Flags :: GetFlag(c, FlagKey(g), true))
  }

  // ---------------------------------------------------------------------------
  // Reading the entries

  /** What `int(entry.get())` makes of an entry's text. */
  datatype Parsed = Whole(v: int) | Garbled(text: string)

  function Read(text: string): (p: Parsed)
    ensures p.Whole? <==> ParseInt(text).Some?
    ensures p.Whole? ==> p.v == ParseInt(text).value
    ensures p.Garbled? ==> p.text == text
  {
    match ParseInt(text)
    case Some(v) => Whole(v)
    case None => Garbled(text)
  }

  /** Every entry of a form, read. */
  type Reading = map<Entry, Parsed>

  predicate Full(r: Reading)
  {
    forall e: Entry :: e in r
  }

  function Readings(f: Form): (r: Reading)
    requires Complete(f)
    ensures Full(r)
  {
    AllFieldsListed();
    map e | e in Entries :: Read(f.texts[e])
  }

  lemma ReadingOf(f: Form, e: Entry)
    requires Complete(f)
    ensures Readings(f)[e] == Read(f.texts[e])
  {
    EntryListed(e);
  }

  // ---------------------------------------------------------------------------
  // Validation

  /** Why the window refuses to save. */
  datatype Problem =
    | NotANumber(text: string)
    | SizesNotPositive | WarnAboveMax
    | ThreadsOutOfRange | MinMultithreadNotPositive | ThreadChunkNotPositive | ConcurrentOutOfRange
    | BufferOutOfRange | DownloadTimeoutOutOfRange | ConnectionTimeoutOutOfRange
    | ChunksNotPositive | RefreshOutOfRange

  datatype Validation = Valid | Invalid(problem: Problem)

  /** The text of the error box. */
  function Message(p: Problem): string
  {
    match p
    case NotANumber(text) => "invalid literal for int() with base 10: '" + text + "'"
    case SizesNotPositive => "File sizes must be positive numbers"
    case WarnAboveMax => "Warning threshold cannot exceed maximum file size"
    case ThreadsOutOfRange => "Max threads must be between 1 and 16"
    case MinMultithreadNotPositive => "Min file size for multi-threading must be positive"
    case ThreadChunkNotPositive => "Thread chunk size must be positive"
    case ConcurrentOutOfRange => "Max concurrent downloads must be between 1 and 20"
    case BufferOutOfRange => "TCP buffer size must be between 8 KB and 2048 KB"
    case DownloadTimeoutOutOfRange => "Download timeout must be between 10 and 3600 seconds"
    case ConnectionTimeoutOutOfRange => "Connection timeout must be between 5 and 300 seconds"
    case ChunksNotPositive => "Chunk sizes must be positive numbers"
    case RefreshOutOfRange => "Auto-refresh interval must be between 5 and 300 seconds"
  }

  /** The first of `es` that is not a number. */
  function FirstGarbled(r: Reading, es: seq<Entry>): (g: Option<Entry>)
    requires Full(r)
    ensures g.None? <==> forall i :: 0 <= i < |es| ==> r[es[i]].Whole?
    ensures g.Some? ==> g.value in es && r[g.value].Garbled?
  {
    if |es| == 0 then None
    else if r[es[0]].Garbled? then Some(es[0])
    else
      assert forall i :: 1 <= i < |es| ==> es[1..][i - 1] == es[i];
      FirstGarbled(r, es[1..])
  }

  /** The three file sizes, read together and then checked: each is
      positive and the warning threshold is at most the maximum. */
  function FileSizesProblem(r: Reading): (p: Option<Problem>)
    requires Full(r)
    ensures p.None? <==>
      (r[MaxFile].Whole? && r[WarnFile].Whole? && r[MaxTotal].Whole? &&
       r[MaxFile].v > 0 && r[WarnFile].v > 0 && r[MaxTotal].v > 0 &&
       r[WarnFile].v <= r[MaxFile].v)
  {
    var es := [MaxFile, WarnFile, MaxTotal];
    match FirstGarbled(r, es)
    case Some(e) => Some(NotANumber(r[e].text))
    case None =>
      assert es[1] == WarnFile && es[2] == MaxTotal;
      var maxFile, warnFile, maxTotal := r[MaxFile].v, r[WarnFile].v, r[MaxTotal].v;
      if maxFile <= 0 || warnFile <= 0 || maxTotal <= 0 then Some(SizesNotPositive)
      else if warnFile > maxFile then Some(WarnAboveMax)
      else None
  }

  /** One entry read and checked against `lo` and, if given, `hi`. */
  function RangeProblem(r: Reading, e: Entry, lo: int, hi: Option<int>, failure: Problem): (p: Option<Problem>)
    requires Full(r)
    ensures p.None? <==> r[e].Whole? && lo <= r[e].v && (hi.Some? ==> r[e].v <= hi.value)
  {
    match r[e]
    case Garbled(text) => Some(NotANumber(text))
    case Whole(v) => if v < lo || (hi.Some? && v > hi.value) then Some(failure) else None
  }

  /** The four chunk sizes, read together and then checked positive. */
  function ChunkSizesProblem(r: Reading): (p: Option<Problem>)
    requires Full(r)
    ensures p.None? <==>
      (r[ChunkSmall].Whole? && r[ChunkMedium].Whole? && r[ChunkLarge].Whole? && r[ChunkXlarge].Whole? &&
       r[ChunkSmall].v > 0 && r[ChunkMedium].v > 0 && r[ChunkLarge].v > 0 && r[ChunkXlarge].v > 0)
  {
    var es := [ChunkSmall, ChunkMedium, ChunkLarge, ChunkXlarge];
    match FirstGarbled(r, es)
    case Some(e) => Some(NotANumber(r[e].text))
    case None =>
      assert es[1] == ChunkMedium && es[2] == ChunkLarge && es[3] == ChunkXlarge;
      if r[ChunkSmall].v <= 0 || r[ChunkMedium].v <= 0 || r[ChunkLarge].v <= 0 || r[ChunkXlarge].v <= 0
      then Some(ChunksNotPositive)
      else None
  }

  /** A check that stops at its own problem or lets the later ones run. */
  function Then(problem: Option<Problem>, later: Validation): (v: Validation)
    ensures v.Valid? <==> problem.None? && later.Valid?
  {
    if problem.Some? then Invalid(problem.value) else later
  }

  /** The checks in the order the window runs them; the first that fails
      gives the message shown. */
  function Checks(r: Reading): Validation
    requires Full(r)
  {
    Then(FileSizesProblem(r),
    Then(RangeProblem(r, MaxThreads, 1, Some(16), ThreadsOutOfRange),
    Then(RangeProblem(r, MinMultithread, 1, None, MinMultithreadNotPositive),
    Then(RangeProblem(r, ThreadChunk, 1, None, ThreadChunkNotPositive),
    Then(RangeProblem(r, MaxConcurrent, 1, Some(20), ConcurrentOutOfRange),
    Then(RangeProblem(r, TcpBuffer, 8, Some(2048), BufferOutOfRange),
    Then(RangeProblem(r, DownloadTimeout, 10, Some(3600), DownloadTimeoutOutOfRange),
    Then(RangeProblem(r, ConnectionTimeout, 5, Some(300), ConnectionTimeoutOutOfRange),
    Then(ChunkSizesProblem(r),
    Then(RangeProblem(r, AutoRefresh, 5, Some(300), RefreshOutOfRange),
    Valid))))))))))
  }

  /** `validate_settings`. */
  function Validate(f: Form): Validation
    requires Complete(f)
  {
    Checks(Readings(f))
  }

  /** The lower bound every number entry must reach. */
  function Low(e: Entry): int
  {
    match e
    case TcpBuffer => 8
    case DownloadTimeout => 10
    case ConnectionTimeout | AutoRefresh => 5
    case _ => 1
  }

  /** The upper bound of the entries that have one. */
  function High(e: Entry): Option<int>
  {
    match e
    case MaxThreads => Some(16)
    case MaxConcurrent => Some(20)
    case TcpBuffer => Some(2048)
    case DownloadTimeout => Some(3600)
    case ConnectionTimeout | AutoRefresh => Some(300)
    case _ => None
  }

  predicate Within(p: Parsed, e: Entry)
  {
    p.Whole? && Low(e) <= p.v && (High(e).Some? ==> p.v <= High(e).value)
  }

  /** What the window accepts, stated entry by entry: every entry is a
      whole number within its bounds, and the warning threshold does not
      exceed the maximum file size. */
  predicate Acceptable(r: Reading)
    requires Full(r)
  {
    (forall e: Entry :: Within(r[e], e)) && r[WarnFile].v <= r[MaxFile].v
  }

  /** Each entry's bounds are enforced by one of the checks. */
  lemma EntryChecked(r: Reading, e: Entry)
    requires Full(r) && Checks(r).Valid?
    ensures Within(r[e], e)
  {
  }

  lemma FileSizesPass(r: Reading)
    requires Full(r) && Acceptable(r)
    ensures FileSizesProblem(r).None?
  {
    assert Within(r[MaxFile], MaxFile) && Within(r[WarnFile], WarnFile) && Within(r[MaxTotal], MaxTotal);
  }

  lemma ChunkSizesPass(r: Reading)
    requires Full(r) && Acceptable(r)
    ensures ChunkSizesProblem(r).None?
  {
    assert Within(r[ChunkSmall], ChunkSmall) && Within(r[ChunkMedium], ChunkMedium);
    assert Within(r[ChunkLarge], ChunkLarge) && Within(r[ChunkXlarge], ChunkXlarge);
  }

  lemma RangePasses(r: Reading, e: Entry, failure: Problem)
    requires Full(r) && Acceptable(r)
    ensures RangeProblem(r, e, Low(e), High(e), failure).None?
  {
    assert Within(r[e], e);
  }

  lemma AcceptablePassesChecks(r: Reading)
    requires Full(r) && Acceptable(r)
    ensures Checks(r).Valid?
  {
    FileSizesPass(r);
    ChunkSizesPass(r);
    RangePasses(r, MaxThreads, ThreadsOutOfRange);
    RangePasses(r, MinMultithread, MinMultithreadNotPositive);
    RangePasses(r, ThreadChunk, ThreadChunkNotPositive);
    RangePasses(r, MaxConcurrent, ConcurrentOutOfRange);
    RangePasses(r, TcpBuffer, BufferOutOfRange);
    RangePasses(r, DownloadTimeout, DownloadTimeoutOutOfRange);
    RangePasses(r, ConnectionTimeout, ConnectionTimeoutOutOfRange);
    RangePasses(r, AutoRefresh, RefreshOutOfRange);
  }

  lemma PassingIsAcceptable(r: Reading)
    requires Full(r) && Checks(r).Valid?
    ensures Acceptable(r)
  {
    forall e: Entry
      ensures Within(r[e], e)
    {
      EntryChecked(r, e);
    }
  }

  /** The checks pass exactly on acceptable readings. */
  lemma ChecksAcceptIff(r: Reading)
    requires Full(r)
    ensures Checks(r).Valid? <==> Acceptable(r)
  {
    if Checks(r).Valid? {
      PassingIsAcceptable(r);
    }
    if Acceptable(r) {
      AcceptablePassesChecks(r);
    }
  }

  /** `validate_settings` returns True exactly when every entry's text is
      a whole number within its bounds and the warning threshold does not
      exceed the maximum. */
  lemma ValidateAcceptsIff(f: Form)
    requires Complete(f)
    ensures Validate(f).Valid? <==> Acceptable(Readings(f))
  {
    ChecksAcceptIff(Readings(f));
  }

  // ---------------------------------------------------------------------------
  // Saving

  /** The keys a successful save writes. */
  const SavedKeys: set<string> := set x | x in Fields :: Key(x)

  lemma KeysInjective()
    ensures forall x: Field, y: Field :: Key(x) == Key(y) ==> x == y
  {
    forall x: Field, y: Field
      ensures Key(x) == Key(y) ==> x == y
    {
      KeyInjective(x, y);
    }
  }

  /** What a field is saved as: the number in stored units, or the box's
      state. */
  function StoredValue(f: Form, x: Field): ConfigValue
    requires Complete(f) && Acceptable(Readings(f))
  {
    match x
    case Number(e) =>
      assert Within(Readings(f)[e], e);
      Int(Readings(f)[e].v * Unit(e))
    case Check(g) => Bool(f.flags[g])
  }

  lemma AllKeysClassified()
    ensures forall x: Field :: KeyClass(Key(x)) == Some(x)
  {
    forall x: Field
      ensures KeyClass(Key(x)) == Some(x)
    {
      KeyClassified(x);
    }
  }

  /** Values given per field, filed under the fields' keys. */
  function ByKey(values: map<Field, ConfigValue>): (w: map<string, ConfigValue>)
    requires forall x: Field :: x in values
    ensures w.Keys == SavedKeys
    ensures forall x: Field :: Key(x) in w && w[Key(x)] == values[x]
  {
    AllKeysClassified();
    AllFieldsListed();
    map k | k in SavedKeys :: values[KeyClass(k).value]
  }

  /** Every field's value as `save_settings` stores it. */
  function StoredValues(f: Form): (values: map<Field, ConfigValue>)
    requires Complete(f) && Acceptable(Readings(f))
    ensures forall x: Field :: x in values && values[x] == StoredValue(f, x)
  {
    AllFieldsListed();
    map x | x in Fields :: StoredValue(f, x)
  }

  /** Each field lands under its key with its stored value. */
  lemma StoredUnderKeys(c: ConfigMap, f: Form)
    requires Complete(f) && Acceptable(Readings(f))
    ensures forall e: Entry ::
      Readings(f)[e].Whole? && NumberKey(e) in c + ByKey(StoredValues(f)) &&
      (c + ByKey(StoredValues(f)))[NumberKey(e)] == Int(Readings(f)[e].v * Unit(e))
    ensures forall g: Flag ::
      FlagKey(g) in c + ByKey(StoredValues(f)) && (c + ByKey(StoredValues(f)))[FlagKey(g)] == Bool(f.flags[g])
  {
    var v := StoredValues(f);
    forall e: Entry
      ensures Readings(f)[e].Whole? && NumberKey(e) in c + ByKey(v) && (c + ByKey(v))[NumberKey(e)] == Int(Readings(f)[e].v * Unit(e))
    {
      assert (c + ByKey(v))[NumberKey(e)] == v[Number(e)];
      assert Within(Readings(f)[e], e);
    }
    forall g: Flag
      ensures FlagKey(g) in c + ByKey(v) && (c + ByKey(v))[FlagKey(g)] == Bool(f.flags[g])
    {
      assert (c + ByKey(v))[FlagKey(g)] == v[Check(g)];
    }
  }

  /** `save_settings`: nothing is written when validation fails; otherwise
      every field is stored under its key, sizes entered in MB multiplied
      by 1024 * 1024 and sizes entered in KB by 1024, and every other
      entry of the configuration is left as it was. */
  function Save(c: ConfigMap, f: Form): (r: ConfigMap)
    requires Complete(f)
    ensures !Validate(f).Valid? ==> r == c
    ensures Validate(f).Valid? ==> r.Keys == c.Keys + SavedKeys
    ensures Validate(f).Valid? ==> forall e: Entry ::
      Readings(f)[e].Whole? && NumberKey(e) in r && r[NumberKey(e)] == Int(Readings(f)[e].v * Unit(e))
    ensures Validate(f).Valid? ==> forall g: Flag :: FlagKey(g) in r && r[FlagKey(g)] == Bool(f.flags[g])
    ensures forall k :: k in c && k !in SavedKeys ==> k in r && r[k] == c[k]
  {
    if !Validate(f).Valid? then c
    else
      ValidateAcceptsIff(f);
      StoredUnderKeys(c, f);
      c + ByKey(StoredValues(f))
  }

  /** A stored value that is a whole, non-negative number of the field's
      display unit. */
  predicate WholeUnits(c: ConfigMap, e: Entry)
  {
    NumberKey(e) in c ==> c[NumberKey(e)].Int? && c[NumberKey(e)].i >= 0 && c[NumberKey(e)].i % Unit(e) == 0
  }

  lemma DefaultWholeUnits(e: Entry)
    ensures Default(e) >= 0 && Default(e) % Unit(e) == 0
  {
  }

  lemma ProductQuotient(q: int, u: int)
    requires u >= 1
    ensures q * u / u == q
  {
    var d, r := q * u / u, q * u % u;
    assert (q - d) * u == r;
  }

  lemma ExactQuotient(n: int, u: nat)
    requires u >= 1 && n % u == 0
    ensures n / u * u == n
  {
  }

  /** The entry shows the stored value divided by its unit, which reads
      back as that quotient. */
  lemma ShownReadsBack(c: ConfigMap, e: Entry)
    requires WholeUnits(c, e)
    ensures var n := GetNumber(c, NumberKey(e), Default(e));
      n >= 0 && n % Unit(e) == 0 && Read(Shown(c, e)) == Whole(n / Unit(e))
  {
    var n := GetNumber(c, NumberKey(e), Default(e));
    DefaultWholeUnits(e);
    if Unit(e) == 1 {
      assert Shown(c, e) == NatToString(n);
      ParseNatToString(n);
    } else {
      assert Shown(c, e) == NatToString(n / Unit(e));
      ParseNatToString(n / Unit(e));
    }
  }

  /** A field holding a whole number of its display unit comes back
      unchanged from opening the window and saving it; an absent key comes
      back as the window's default. */
  lemma DisplaySaveRoundTrip(c: ConfigMap, e: Entry)
    requires Validate(Display(c)).Valid? && WholeUnits(c, e)
    ensures NumberKey(e) in Save(c, Display(c))
    ensures Save(c, Display(c))[NumberKey(e)] == Int(GetNumber(c, NumberKey(e), Default(e)))
  {
    var f := Display(c);
    var n := GetNumber(c, NumberKey(e), Default(e));
    SaveStoresNumber(c, f, e);
    ShownReadsBack(c, e);
    ReadingOf(f, e);
    assert Readings(f)[e] == Whole(n / Unit(e));
    ExactQuotient(n, Unit(e));
  }

  /** A configuration whose numbers are whole display units and whose
      check-box keys hold Booleans is left as it was by opening the window
      and saving; the only change is the keys the window adds. */
  lemma DisplaySaveKeepsConfig(c: ConfigMap)
    requires Validate(Display(c)).Valid?
    requires forall e: Entry :: WholeUnits(c, e)
    requires forall g: Flag :: FlagKey(g) in c ==> c[FlagKey(g)].Bool?
    ensures var r := Save(c, Display(c));
      r.Keys == c.Keys + SavedKeys && forall k :: k in c ==> r[k] == c[k]
  {
    var r := Save(c, Display(c));
    forall k | k in c
      ensures r[k] == c[k]
    {
      if k in SavedKeys {
        var x :| x in Fields && k == Key(x);
        match x
        case Number(e) =>
          DisplaySaveRoundTrip(c, e);
        case Check(g) =>
          DisplaySaveKeepsFlag(c, g);
      }
    }
  }

  /** A check box shows the stored Boolean and saves it back. */
  lemma DisplaySaveKeepsFlag(c: ConfigMap, g: Flag)
    requires Validate(Display(c)).Valid?
    requires FlagKey(g) in c && c[FlagKey(g)].Bool?
    ensures FlagKey(g) in Save(c, Display(c)) && Save(c, Display(c))[FlagKey(g)] == c[FlagKey(g)]
  {
    assert Display(c).flags[g] == GetFlag(c, FlagKey(g), true);
  }

  // ---------------------------------------------------------------------------
  // Cancel and reset

  /** `cancel`: `CONFIG.update(original)` with the snapshot taken when the
      window opened. Keys the snapshot holds get their old values back;
      keys added since are kept. */
  function Cancel(current: ConfigMap, original: ConfigMap): (r: ConfigMap)
    ensures r.Keys == current.Keys + original.Keys
    ensures forall k :: k in original ==> r[k] == original[k]
    ensures forall k :: k in current && k !in original ==> r[k] == current[k]
  {
    current + original
  }

  /** Cancel gives back the snapshot exactly when no key was added since
      it was taken. */
  lemma CancelRestoresIff(current: ConfigMap, original: ConfigMap)
    ensures Cancel(current, original) == original <==> current.Keys <= original.Keys
  {
    if current.Keys <= original.Keys {
      assert Cancel(current, original).Keys == original.Keys;
    }
  }

  /** The number each box of `reset_defaults` is set to, in display units
      (the window writes them as decimal string literals). */
  function ResetNumber(e: Entry): nat
  {
    match e
    case MaxFile => 10240
    case WarnFile => 1024
    case MaxTotal => 50
    case MaxThreads => 4
    case MinMultithread => 10
    case ThreadChunk => 2
    case MaxConcurrent => 5
    case TcpBuffer => 256
    case DownloadTimeout => 300
    case ConnectionTimeout => 30
    case ChunkSmall => 8
    case ChunkMedium => 64
    case ChunkLarge => 512
    case ChunkXlarge => 1
    case AutoRefresh => 30
  }

  /** The text `reset_defaults` puts in the entry's box. */
  function ResetText(e: Entry): (t: string)
    ensures Read(t) == Whole(ResetNumber(e))
  {
    ParseNatToString(ResetNumber(e));
    NatToString(ResetNumber(e))
  }

  /** The form after `reset_defaults`: the reset texts, every box ticked. */
  function ResetForm(): (f: Form)
    ensures Complete(f)
    ensures forall e: Entry :: f.texts[e] == ResetText(e)
    ensures forall g: Flag :: f.flags[g]
  {
    AllFieldsListed();
    Form(map e | e in Entries :: ResetText(e), map g | g in Flags :: true)
  }

  /** `reset_defaults`, after the confirmation dialog's answer. */
  function Reset(f: Form, confirmed: bool): (r: Form)
    ensures confirmed ==> r == ResetForm()
    ensures !confirmed ==> r == f
  {
    if confirmed then ResetForm() else f
  }

  /** The reset numbers are the fallbacks `display` uses, in display units. */
  lemma ResetNumberIsDefault(e: Entry)
    ensures ResetNumber(e) * Unit(e) == Default(e)
  {
  }

  /** Each reset text reads as the window's default in display units. */
  lemma ResetTextReadsAsDefault(e: Entry)
    ensures Read(ResetText(e)) == Whole(Default(e) / Unit(e))
  {
    ResetNumberIsDefault(e);
    ProductQuotient(ResetNumber(e), Unit(e));
  }

  lemma ResetReadsAsDefault(e: Entry)
    ensures Readings(ResetForm())[e] == Whole(Default(e) / Unit(e))
  {
    ResetTextReadsAsDefault(e);
    ReadingOf(ResetForm(), e);
  }

  /** Every reset value lies within its entry's bounds. */
  lemma ResetNumberWithin(e: Entry)
    ensures Within(Whole(ResetNumber(e)), e)
  {
  }

  lemma ResetEntryWithin(e: Entry)
    ensures Within(Readings(ResetForm())[e], e)
  {
    var f := ResetForm();
    ReadingOf(f, e);
    assert Readings(f)[e] == Whole(ResetNumber(e));
    ResetNumberWithin(e);
  }

  lemma ResetAcceptable()
    ensures Acceptable(Readings(ResetForm()))
  {
    forall e: Entry
      ensures Within(Readings(ResetForm())[e], e)
    {
      ResetEntryWithin(e);
    }
    ResetReadsAsDefault(MaxFile);
    ResetReadsAsDefault(WarnFile);
  }

  /** The reset values pass every check. */
  lemma ResetFormValid()
    ensures Validate(ResetForm()).Valid?
  {
    ResetAcceptable();
    ValidateAcceptsIff(ResetForm());
  }

  lemma ResetSavesDefault(c: ConfigMap, e: Entry)
    ensures NumberKey(e) in Save(c, ResetForm()) && Save(c, ResetForm())[NumberKey(e)] == Int(Default(e))
  {
    var f := ResetForm();
    ResetFormValid();
    SaveStoresNumber(c, f, e);
    ReadingOf(f, e);
    ResetNumberIsDefault(e);
  }

  /** A valid form stores each entry's reading times its unit. */
  lemma SaveStoresNumber(c: ConfigMap, f: Form, e: Entry)
    requires Complete(f) && Validate(f).Valid?
    ensures Readings(f)[e].Whole?
    ensures NumberKey(e) in Save(c, f) && Save(c, f)[NumberKey(e)] == Int(Readings(f)[e].v * Unit(e))
  {
  }

  /** Saving right after a reset stores the window's defaults. */
  lemma ResetSavesDefaults(c: ConfigMap)
    ensures var r := Save(c, ResetForm());
      forall e: Entry :: NumberKey(e) in r && r[NumberKey(e)] == Int(Default(e))
  {
    forall e: Entry
      ensures NumberKey(e) in Save(c, ResetForm()) && Save(c, ResetForm())[NumberKey(e)] == Int(Default(e))
    {
      ResetSavesDefault(c, e);
    }
  }

  /** Saving right after a reset turns every option on. */
  lemma ResetSavesFlags(c: ConfigMap)
    ensures var r := Save(c, ResetForm());
      forall g: Flag :: FlagKey(g) in r && r[FlagKey(g)] == Bool(true)
  {
    ResetFormValid();
  }

  /** The window's defaults for the chunk sizes, the timeouts, the size
      limits, the download slots and the refresh interval are the
      configuration module's own. */
  lemma DefaultsMatchConfig()
    ensures Default(ChunkSmall) == CHUNK_SIZE_SMALL && Default(ChunkMedium) == CHUNK_SIZE_MEDIUM
    ensures Default(ChunkLarge) == CHUNK_SIZE_LARGE && Default(ChunkXlarge) == CHUNK_SIZE_XLARGE
    ensures Default(DownloadTimeout) == DOWNLOAD_TIMEOUT && Default(ConnectionTimeout) == CONNECTION_TIMEOUT
    ensures Default(MaxFile) == MAX_FILE_SIZE_MB && Default(WarnFile) == WARN_FILE_SIZE_MB
    ensures Default(MaxTotal) == MAX_TOTAL_SHARE_SIZE_GB && Default(MaxConcurrent) == MAX_CONCURRENT_DOWNLOADS
    ensures Default(AutoRefresh) == AUTO_REFRESH_INTERVAL
  {
  }
}

=== FILE: text.dfy ===
/** Option, bytes and files, and the handful of Python string operations the transfer engine
    relies on: decimal printing (`str(n)`), `int(s)`, `strip`, `lower`, `split`,
    `replace(pat, '')`, `startswith`/`endswith`, and Windows `os.path.splitext`.
    Each is stated with the property that makes it usable by the other modules:
    printing and parsing are inverses, split and join are inverses, and so on. */
module Text {

  datatype Option<+T> = None | Some(value: T)

  /** Python truthiness of an optional string: None and "" both read as
      "not supplied". */
  predicate Provided(o: Option<string>) { o.Some? && |o.value| > 0 }

  type byte = bv8

  /** The local disk as far as the engine sees it: a path is present iff it is
      a key, and maps to the file's bytes. */
  type FileSystem = map<string, seq<byte>>

  // ---------------------------------------------------------------------------
  // Characters

  predicate IsDigit(c: char) { '0' <= c <= '9' }

  /** The characters Python's `str.strip()` and `int()` treat as white space,
      restricted to ASCII. */
  predicate IsSpace(c: char)
  {
    c == ' ' || (9 <= c as int <= 13) || (28 <= c as int <= 31)
  }

  function DigitChar(d: nat): (c: char)
    requires d < 10
    ensures IsDigit(c)
  {
    ('0' as int + d) as char
  }

  function DigitValue(c: char): (d: nat)
    requires IsDigit(c)
    ensures d < 10
  {
    c as int - '0' as int
  }

  predicate AllDigits(s: string) { forall i :: 0 <= i < |s| ==> IsDigit(s[i]) }

  /** ASCII lower-casing. Hex digests, file extensions and header tokens need
      nothing more; the file-name search of the client, which Python lowers
      in full Unicode, is matched here on ASCII case only. */
  function LowerChar(c: char): (r: char)
    ensures 'A' <= c <= 'Z' ==> 'a' <= r <= 'z'
    ensures !('A' <= c <= 'Z') ==> r == c
  {
    if 'A' <= c <= 'Z' then (c as int + 32) as char else c
  }

  function Lower(s: string): (r: string)
    ensures |r| == |s|
    ensures forall i :: 0 <= i < |s| ==> r[i] == LowerChar(s[i])
  {
    seq(|s|, i requires 0 <= i < |s| => LowerChar(s[i]))
  }

  // ---------------------------------------------------------------------------
  // Decimal printing: `str(n)` and `f"{n}"`

  function NatToString(n: nat): (s: string)
    ensures |s| >= 1 && AllDigits(s)
    decreases n
  {
    if n < 10 then [DigitChar(n)] else NatToString(n / 10) + [DigitChar(n % 10)]
  }

  function IntToString(i: int): string
  {
    if i < 0 then "-" + NatToString(-i) else NatToString(i)
  }

  /** The value of a string of decimal digits, most significant first. */
  function DigitsValue(s: string): nat
    requires AllDigits(s)
  {
    if |s| == 0 then 0 else DigitsValue(s[..|s| - 1]) * 10 + DigitValue(s[|s| - 1])
  }

  lemma {:induction false} DigitsValueOfNatToString(n: nat)
    ensures DigitsValue(NatToString(n)) == n
    decreases n
  {
    if n >= 10 {
      var s := NatToString(n);
      assert s[..|s| - 1] == NatToString(n / 10);
      DigitsValueOfNatToString(n / 10);
    }
  }

  /** Distinct numbers print differently: `str` is injective on naturals. */
  lemma NatToStringInjective(a: nat, b: nat)
    requires NatToString(a) == NatToString(b)
    ensures a == b
  {
    DigitsValueOfNatToString(a);
    DigitsValueOfNatToString(b);
  }

  // ---------------------------------------------------------------------------
  // Python `int(s)` in base 10

  /** Digits with single underscores allowed between them, as `int()` accepts. */
  predicate IsDigitGroupString(s: string)
  {
    && |s| > 0
    && IsDigit(s[0]) && IsDigit(s[|s| - 1])
    && (forall i :: 0 <= i < |s| ==> IsDigit(s[i]) || s[i] == '_')
    && (forall i :: 0 <= i < |s| - 1 ==> s[i] == '_' ==> s[i + 1] != '_')
  }

  function DropUnderscores(s: string): (r: string)
    requires forall i :: 0 <= i < |s| ==> IsDigit(s[i]) || s[i] == '_'
    ensures AllDigits(r)
    ensures AllDigits(s) ==> r == s
  {
    if |s| == 0 then []
    else if s[0] == '_' then DropUnderscores(s[1..])
    else [s[0]] + DropUnderscores(s[1..])
  }

  function StripLeft(s: string): (r: string)
    ensures |r| == 0 || !IsSpace(r[0])
    ensures |r| <= |s| && r == s[|s| - |r|..]
    ensures forall k :: 0 <= k < |s| - |r| ==> IsSpace(s[k])
  {
    if |s| > 0 && IsSpace(s[0]) then StripLeft(s[1..]) else s
  }

  function StripRight(s: string): (r: string)
    ensures |r| == 0 || !IsSpace(r[|r| - 1])
    ensures |r| <= |s| && r == s[..|r|]
    ensures forall k :: |r| <= k < |s| ==> IsSpace(s[k])
  {
    if |s| > 0 && IsSpace(s[|s| - 1]) then StripRight(s[..|s| - 1]) else s
  }

  /** `str.strip()`: drop leading and trailing white space. */
  function Strip(s: string): (r: string)
    ensures |r| == 0 || (!IsSpace(r[0]) && !IsSpace(r[|r| - 1]))
    ensures (forall i :: 0 <= i < |s| ==> !IsSpace(s[i])) ==> r == s
  {
    StripRight(StripLeft(s))
  }

  /** `s` is `r` at offset `i` with nothing but white space around it. */
  predicate SpaceAround(s: string, r: string, i: int)
  {
    && 0 <= i <= |s| - |r| && r == s[i..i + |r|]
    && (forall k :: 0 <= k < i ==> IsSpace(s[k]))
    && (forall k :: i + |r| <= k < |s| ==> IsSpace(s[k]))
  }

  /** Stripping removes white space and nothing else: the input is the
      result with a run of white space on either side. */
  lemma StripRemovesOnlySpace(s: string)
    ensures exists i :: SpaceAround(s, Strip(s), i)
  {
    var left := StripLeft(s);
    var i := |s| - |left|;
    var r := StripRight(left);
    assert r == s[i..i + |r|];
    forall k | i + |r| <= k < |s|
      ensures IsSpace(s[k])
    {
      assert s[k] == left[k - i];
    }
    assert r == Strip(s);
    assert SpaceAround(s, r, i);
  }

  /** An unsigned digit group string: the part of `int()` after the sign. */
  function ParseUnsigned(t: string): Option<nat>
  {
    if IsDigitGroupString(t) then Some(DigitsValue(DropUnderscores(t))) else None
  }

  /** `int(s)`: None stands for the ValueError Python raises. */
  function ParseInt(s: string): (r: Option<int>)
    ensures s == "" ==> r.None?
    ensures r.Some? && r.value < 0 ==> '-' in s
  {
    var t := Strip(s);
    if |t| > 0 && (t[0] == '+' || t[0] == '-') then
      match ParseUnsigned(t[1..])
      case None => None
      case Some(v) => Some(if t[0] == '-' then 0 - v else v)
    else
      match ParseUnsigned(t)
      case None => None
      case Some(v) => Some(v)
  }

  lemma DigitsParseUnsigned(s: string)
    requires |s| > 0 && AllDigits(s)
    ensures ParseUnsigned(s) == Some(DigitsValue(s))
  {
    assert IsDigitGroupString(s);
  }

  lemma DigitsHaveNoSpace(s: string)
    requires AllDigits(s)
    ensures Strip(s) == s
  {
    assert forall i :: 0 <= i < |s| ==> !IsSpace(s[i]) by {
      forall i | 0 <= i < |s| ensures !IsSpace(s[i]) { assert IsDigit(s[i]); }
    }
  }

  /** Without a minus sign anywhere, `int()` never yields a negative number. */
  lemma ParseIntWithoutMinus(s: string)
    requires '-' !in s
    ensures ParseInt(s).Some? ==> ParseInt(s).value >= 0
  {
    var l := StripLeft(s);
    var t := Strip(s);
    if |t| > 0 {
      assert t[0] == l[0] == s[|s| - |l|];
    }
  }

  /** Printing a number and reading it back gives the number. */
  lemma ParseNatToString(n: nat)
    ensures ParseInt(NatToString(n)) == Some(n)
  {
    var s := NatToString(n);
    DigitsHaveNoSpace(s);
    assert IsDigit(s[0]);
    DigitsParseUnsigned(s);
    DigitsValueOfNatToString(n);
  }

  // ---------------------------------------------------------------------------
  // Prefixes, suffixes, substrings

  predicate StartsWith(s: string, p: string) { p <= s }

  predicate EndsWith(s: string, suffix: string)
  {
    |suffix| <= |s| && s[|s| - |suffix|..] == suffix
  }

  /** Python's `t in s` for strings. */
  predicate Contains(s: string, t: string)
  {
    exists i :: 0 <= i <= |s| - |t| && OccursAt(s, t, i)
  }

  /** `t` occurs in `s` starting at index `i`. */
  predicate OccursAt(s: string, t: string, i: int)
  {
    0 <= i && i + |t| <= |s| && s[i..i + |t|] == t
  }

  // ---------------------------------------------------------------------------
  // Splitting on one character: `s.split(c)`

  function IndexOf(s: string, c: char): (i: nat)
    requires c in s
    ensures i < |s| && s[i] == c && c !in s[..i]
  {
    if s[0] == c then 0 else 1 + IndexOf(s[1..], c)
  }

  function Split(s: string, c: char): (parts: seq<string>)
    ensures |parts| >= 1
    ensures forall k :: 0 <= k < |parts| ==> c !in parts[k]
    decreases |s|
  {
    if c !in s then [s]
    else
      var i := IndexOf(s, c);
      [s[..i]] + Split(s[i + 1..], c)
  }

  function Join(parts: seq<string>, c: char): string
    requires |parts| >= 1
  {
    if |parts| == 1 then parts[0] else parts[0] + [c] + Join(parts[1..], c)
  }

  /** Splitting loses nothing: joining the pieces with the separator gives back
      the input. */
  lemma {:induction false} JoinSplit(s: string, c: char)
    ensures Join(Split(s, c), c) == s
    decreases |s|
  {
    if c in s {
      var i := IndexOf(s, c);
      var rest := Split(s[i + 1..], c);
      assert Split(s, c) == [s[..i]] + rest;
      assert ([s[..i]] + rest)[1..] == rest;
      JoinSplit(s[i + 1..], c);
      assert s == s[..i] + [c] + s[i + 1..];
    }
  }

  /** Pieces free of the separator come back out of a join unchanged. */
  lemma {:induction false} SplitJoin(parts: seq<string>, c: char)
    requires |parts| >= 1
    requires forall k :: 0 <= k < |parts| ==> c !in parts[k]
    ensures Split(Join(parts, c), c) == parts
    decreases |parts|
  {
    if |parts| > 1 {
      var rest := Join(parts[1..], c);
      assert Join(parts, c) == parts[0] + [c] + rest;
      SplitCons(parts[0], rest, c);
      assert forall k :: 0 <= k < |parts[1..]| ==> parts[1..][k] == parts[k + 1];
      SplitJoin(parts[1..], c);
      assert [parts[0]] + parts[1..] == parts;
    } else {
      assert Join(parts, c) == parts[0];
    }
  }

  /** A separator-free piece followed by the separator splits off first. */
  lemma SplitCons(a: string, rest: string, c: char)
    requires c !in a
    ensures Split(a + [c] + rest, c) == [a] + Split(rest, c)
  {
    var s := a + [c] + rest;
    assert s[|a|] == c;
    assert s[..|a|] == a;
    IndexOfAfterFree(a, [c] + rest, c);
    assert s == a + ([c] + rest);
    assert s[|a| + 1..] == rest;
  }

  lemma {:induction false} IndexOfUnique(s: string, c: char, k: nat)
    requires k < |s| && s[k] == c && c !in s[..k]
    ensures c in s && IndexOf(s, c) == k
    decreases k
  {
    if k > 0 {
      assert s[0] == s[..k][0];
      assert s[1..][k - 1] == c;
      assert s[1..][..k - 1] == s[..k][1..];
      IndexOfUnique(s[1..], c, k - 1);
    }
  }

  lemma IndexOfAfterFree(a: string, b: string, c: char)
    requires c !in a && c in b
    ensures c in a + b && IndexOf(a + b, c) == |a| + IndexOf(b, c)
  {
    var s := a + b;
    var j := IndexOf(b, c);
    assert s[|a| + j] == c;
    assert s[..|a| + j] == a + b[..j];
    IndexOfUnique(s, c, |a| + j);
  }

  // ---------------------------------------------------------------------------
  // Multi-character separators: `s.split(sep)[-1]` and `s.replace(pat, '')`

  /** The first index at which `sep` occurs in `s`. */
  function Find(s: string, sep: string): (r: Option<nat>)
    requires |sep| > 0
    ensures r.Some? ==> OccursAt(s, sep, r.value)
    ensures r.Some? ==> forall j :: 0 <= j < r.value ==> !OccursAt(s, sep, j)
    ensures r.None? ==> forall j :: 0 <= j ==> !OccursAt(s, sep, j)
    decreases |s|
  {
    if |s| < |sep| then None
    else if sep <= s then
      assert s[0..|sep|] == sep;
      Some(0)
    else
      assert !OccursAt(s, sep, 0);
      assert forall j :: 1 <= j ==> OccursAt(s, sep, j) == OccursAt(s[1..], sep, j - 1) by {
        forall j | 1 <= j ensures OccursAt(s, sep, j) == OccursAt(s[1..], sep, j - 1) {
          if j + |sep| <= |s| { assert s[1..][j - 1..j - 1 + |sep|] == s[j..j + |sep|]; }
        }
      }
      match Find(s[1..], sep)
      case None => None
      case Some(i) => Some(i + 1)
  }

  /** The last piece of `s.split(sep)`: what follows the last occurrence found
      by a left-to-right, non-overlapping scan. */
  function LastPiece(s: string, sep: string): (r: string)
    requires |sep| > 0
    ensures |r| <= |s| && r == s[|s| - |r|..]
    decreases |s|
  {
    match Find(s, sep)
    case None => s
    case Some(i) => LastPiece(s[i + |sep|..], sep)
  }

  /** `s.replace(pat, '')`: every occurrence found left to right is dropped. */
  function RemoveAll(s: string, pat: string): (r: string)
    requires |pat| > 0
    ensures |r| <= |s|
    decreases |s|
  {
    if |s| == 0 then []
    else if pat <= s then RemoveAll(s[|pat|..], pat)
    else [s[0]] + RemoveAll(s[1..], pat)
  }

  /** A string that never contains the pattern's first character is left alone. */
  lemma {:induction false} RemoveAllAbsent(s: string, pat: string)
    requires |pat| > 0 && pat[0] !in s
    ensures RemoveAll(s, pat) == s
    decreases |s|
  {
    if |s| > 0 {
      assert !(pat <= s) by { assert s[0] != pat[0]; }
      assert pat[0] !in s[1..] by {
        forall k | 0 <= k < |s| - 1 ensures s[1..][k] != pat[0] { assert s[1..][k] == s[k + 1]; }
      }
      RemoveAllAbsent(s[1..], pat);
      assert s == [s[0]] + s[1..];
    }
  }

  // ---------------------------------------------------------------------------
  // Windows path helpers (ntpath)

  predicate IsPathSep(c: char) { c == '\\' || c == '/' }

  /** Index of the last `c` in `s`, or -1 (Python's `rfind`). */
  function LastIndexOf(s: string, c: char): (r: int)
    ensures -1 <= r < |s|
    ensures r >= 0 ==> s[r] == c
    ensures forall k :: r < k < |s| ==> s[k] != c
  {
    if |s| == 0 then -1
    else if s[|s| - 1] == c then |s| - 1
    else
      var r := LastIndexOf(s[..|s| - 1], c);
      assert forall k :: r < k < |s| - 1 ==> s[k] == s[..|s| - 1][k];
      r
  }

  function LastSepIndex(s: string): (r: int)
    ensures -1 <= r < |s|
    ensures r >= 0 ==> IsPathSep(s[r])
    ensures forall k :: r < k < |s| ==> !IsPathSep(s[k])
  {
    var a := LastIndexOf(s, '\\');
    var b := LastIndexOf(s, '/');
    if a > b then a else b
  }

  /** `os.path.splitext(p)` with Windows separators: the extension starts at
      the last dot of the final path component, provided that component has
      something other than dots before it. */
  function SplitExt(p: string): (r: (string, string))
    ensures r.0 + r.1 == p
    ensures r.1 == [] || (r.1[0] == '.' && forall k :: 1 <= k < |r.1| ==> r.1[k] != '.' && !IsPathSep(r.1[k]))
  {
    var sepIndex := LastSepIndex(p);
    var dotIndex := LastIndexOf(p, '.');
    if dotIndex > sepIndex && exists k :: sepIndex + 1 <= k < dotIndex && p[k] != '.' then
      assert p[..dotIndex] + p[dotIndex..] == p;
      (p[..dotIndex], p[dotIndex..])
    else
      (p, [])
  }

  /** `k` starts a run of the final path component, up to index `d`, that
      begins with something other than a dot. */
  predicate StemAt(p: string, k: int, d: int)
  {
    0 <= k < d <= |p| && p[k] != '.' && forall j :: k <= j < |p| ==> !IsPathSep(p[j])
  }

  /** The extension is split off exactly when the final component has a
      non-dot character before one of its dots, and then it starts at the
      last dot. */
  lemma SplitExtAtLastDot(p: string)
    ensures var r := SplitExt(p);
      r.1 != [] ==> exists k :: StemAt(p, k, |r.0|)
    ensures var r := SplitExt(p);
      (exists k, d :: StemAt(p, k, d) && d < |p| && p[d] == '.') ==>
        r.1 != [] && forall j :: |r.0| < j < |p| ==> p[j] != '.'
  {
    var r := SplitExt(p);
    var sepIndex := LastSepIndex(p);
    var dotIndex := LastIndexOf(p, '.');
    if r.1 != [] {
      var k :| sepIndex + 1 <= k < dotIndex && p[k] != '.';
      assert StemAt(p, k, |r.0|);
    }
    if exists k, d :: StemAt(p, k, d) && d < |p| && p[d] == '.' {
      var k, d :| StemAt(p, k, d) && d < |p| && p[d] == '.';
      assert d <= dotIndex;
      assert sepIndex < k;
    }
  }

  /** `os.path.basename(p)`: the text after the last separator. */
  function BaseName(p: string): (r: string)
    ensures forall k :: 0 <= k < |r| ==> !IsPathSep(r[k])
    ensures EndsWith(p, r)
    ensures |r| == |p| || IsPathSep(p[|p| - |r| - 1])
  {
    var i := LastSepIndex(p);
    p[i + 1..]
  }
}

=== FILE: transfer.dfy ===
/** The multi-threaded downloader (fast_transfer.py).

    A download splits the file into fixed-size byte ranges, lets a pool of
    workers fetch them into part files, merges the parts in id order and
    verifies the result. Threads are modelled as a sequential fold over the
    queue (one admissible schedule: each chunk is taken by some live worker
    in queue order); the network is a function from a requested range to what
    the server sent; the moment a user cancels is a parameter. */
module Transfer {
  import opened Text
  import opened Config
  import opened Verification

  function Min(a: int, b: int): int { if a <= b then a else b }

  // ---------------------------------------------------------------------------
  // Chunk plan

  /** One byte range `[start, end]` (inclusive) of the file. */
  datatype ChunkRange = ChunkRange(id: nat, start: nat, end: nat, size: nat)

  /** The range size read from the configuration, 2 MiB when unset. */
  function ThreadChunkSize(config: ConfigMap): int
  {
    GetNumber(config, "thread_chunk_size", 2 * MiB)
  }

  /** How many ranges a file of `fileSize` bytes is split into. */
  function NumChunks(fileSize: int, chunkSize: nat): nat
    requires chunkSize >= 1
  {
    if fileSize <= 0 then 0 else (fileSize + chunkSize - 1) / chunkSize
  }

  /** Range `k` starts inside the file exactly when `k` is below the chunk
      count. */
  lemma NumChunksBound(fileSize: int, chunkSize: nat, k: nat)
    requires chunkSize >= 1
    ensures k < NumChunks(fileSize, chunkSize) <==> k * chunkSize < fileSize
  {
    MulMonotone(0, k, chunkSize);
    if fileSize > 0 {
      var n := NumChunks(fileSize, chunkSize);
      var r := (fileSize + chunkSize - 1) % chunkSize;
      assert fileSize + chunkSize - 1 == n * chunkSize + r;
      if k < n {
        MulMonotone(k, n - 1, chunkSize);
        assert (n - 1) * chunkSize == n * chunkSize - chunkSize;
      } else {
        MulMonotone(n, k, chunkSize);
      }
    }
  }

  lemma MulMonotone(a: int, b: int, c: nat)
    requires a <= b
    ensures a * c <= b * c
  {
    assert b * c - a * c == (b - a) * c;
  }

  /** The `k`-th range: it starts at `k * chunkSize` and is cut short by the
      end of the file. */
  function ChunkAt(k: nat, fileSize: int, chunkSize: nat): ChunkRange
    requires chunkSize >= 1 && k < NumChunks(fileSize, chunkSize)
  {
    NumChunksBound(fileSize, chunkSize, k);
    var start := k * chunkSize;
    var end := Min(start + chunkSize - 1, fileSize - 1);
    ChunkRange(k, start, end, end - start + 1)
  }

  /** The closed form of the chunk list a download works through. */
  function Plan(fileSize: int, chunkSize: nat): seq<ChunkRange>
    requires chunkSize >= 1
  {
    seq(NumChunks(fileSize, chunkSize), k requires 0 <= k < NumChunks(fileSize, chunkSize) => ChunkAt(k, fileSize, chunkSize))
  }

  /** The chunking loop of `download`: it produces exactly the closed-form
      plan, and nothing for an empty file. A range size below 1 makes the
      loop spin forever on a non-empty file, so that case is not callable. */
  method PlanChunks(fileSize: int, chunkSize: int) returns (chunks: seq<ChunkRange>)
    requires chunkSize >= 1 || fileSize <= 0
    ensures chunkSize >= 1 ==> chunks == Plan(fileSize, chunkSize)
    ensures fileSize <= 0 ==> chunks == []
  {
    if chunkSize < 1 {
      chunks := [];
      return;
    }
    var n := NumChunks(fileSize, chunkSize);
    chunks := [];
    var offset := 0;
    var chunkId: nat := 0;
    NumChunksBound(fileSize, chunkSize, 0);
    while offset < fileSize
      invariant chunkId == |chunks| <= n
      invariant forall k :: 0 <= k < |chunks| ==> chunks[k] == ChunkAt(k, fileSize, chunkSize)
      invariant offset == if chunkId < n then chunkId * chunkSize else if n == 0 then 0 else fileSize
      invariant offset < fileSize <==> chunkId < n
      decreases fileSize - offset
    {
      PlanStep(fileSize, chunkSize, chunkId);
      var end := Min(offset + chunkSize - 1, fileSize - 1);
      chunks := chunks + [ChunkRange(chunkId, offset, end, end - offset + 1)];
      offset := end + 1;
      chunkId := chunkId + 1;
      NumChunksBound(fileSize, chunkSize, chunkId);
    }
    PlanMatches(chunks, fileSize, chunkSize);
  }

  /** One turn of the chunking loop builds range `k` and moves the offset to
      the next range's start, or to the end of the file after the last. */
  lemma PlanStep(fileSize: int, chunkSize: nat, k: nat)
    requires chunkSize >= 1 && k < NumChunks(fileSize, chunkSize)
    ensures k * chunkSize < fileSize
    ensures var end := Min(k * chunkSize + chunkSize - 1, fileSize - 1);
      && ChunkRange(k, k * chunkSize, end, end - k * chunkSize + 1) == ChunkAt(k, fileSize, chunkSize)
      && end + 1 == if k + 1 < NumChunks(fileSize, chunkSize) then (k + 1) * chunkSize else fileSize
  {
    NumChunksBound(fileSize, chunkSize, k);
    ChunkFacts(fileSize, chunkSize, k);
  }

  lemma PlanMatches(chunks: seq<ChunkRange>, fileSize: int, chunkSize: nat)
    requires chunkSize >= 1 && |chunks| == NumChunks(fileSize, chunkSize)
    requires forall k :: 0 <= k < |chunks| ==> chunks[k] == ChunkAt(k, fileSize, chunkSize)
    ensures chunks == Plan(fileSize, chunkSize)
  {
  }

  /** The facts about one planned range that everything else uses. */
  lemma ChunkFacts(fileSize: int, chunkSize: nat, k: nat)
    requires chunkSize >= 1 && k < NumChunks(fileSize, chunkSize)
    ensures var c := ChunkAt(k, fileSize, chunkSize);
      && c.id == k && c.start == k * chunkSize && c.end + 1 == Min((k + 1) * chunkSize, fileSize)
      && c.end == c.start + c.size - 1 && 1 <= c.size <= chunkSize
      && (k + 1 < NumChunks(fileSize, chunkSize) <==> c.size == chunkSize && c.end + 1 < fileSize)
      && (k + 1 == NumChunks(fileSize, chunkSize) <==> c.end == fileSize - 1)
  {
    NumChunksBound(fileSize, chunkSize, k);
    NumChunksBound(fileSize, chunkSize, k + 1);
    assert (k + 1) * chunkSize == k * chunkSize + chunkSize;
  }

  /** The plan partitions `[0, fileSize)`: ids count up from 0, every range
      but the last is full size, consecutive ranges are adjacent, the first
      starts at 0 and the last ends at the last byte. */
  lemma PlanPartition(fileSize: int, chunkSize: nat)
    requires chunkSize >= 1
    ensures var p := Plan(fileSize, chunkSize);
      && (|p| == 0 <==> fileSize <= 0)
      && (forall k :: 0 <= k < |p| ==>
            p[k].id == k && p[k].start == k * chunkSize && p[k].end == p[k].start + p[k].size - 1 && 1 <= p[k].size <= chunkSize)
      && (forall k :: 0 <= k < |p| - 1 ==> p[k].size == chunkSize && p[k + 1].start == p[k].end + 1)
      && (|p| > 0 ==> p[0].start == 0 && p[|p| - 1].end == fileSize - 1)
  {
    var p := Plan(fileSize, chunkSize);
    var n := |p|;
    NumChunksBound(fileSize, chunkSize, 0);
    forall k | 0 <= k < n
      ensures p[k].id == k && p[k].start == k * chunkSize && p[k].end == p[k].start + p[k].size - 1 && 1 <= p[k].size <= chunkSize
    {
      ChunkFacts(fileSize, chunkSize, k);
    }
    forall k | 0 <= k < n - 1
      ensures p[k].size == chunkSize && p[k + 1].start == p[k].end + 1
    {
      ChunkFacts(fileSize, chunkSize, k);
      ChunkFacts(fileSize, chunkSize, k + 1);
    }
    if n > 0 {
      ChunkFacts(fileSize, chunkSize, n - 1);
    }
  }

  /** The bytes of the file that range `c` names. */
  function SliceOf(content: seq<byte>, c: ChunkRange): seq<byte>
    requires c.end < |content| && c.start <= c.end + 1
  {
    content[c.start..c.end + 1]
  }

  /** The planned ranges of a file, read back from it. */
  function PlanSlices(content: seq<byte>, chunkSize: nat, j: nat): (r: seq<seq<byte>>)
    requires chunkSize >= 1 && j <= NumChunks(|content|, chunkSize)
    ensures |r| == j
  {
    var p := Plan(|content|, chunkSize);
    seq(j, k requires 0 <= k < j => (ChunkFacts(|content|, chunkSize, k); SliceOf(content, p[k])))
  }

  /** The first `j` ranges of the plan, read back from the file and joined,
      are the file's first `min(j * chunkSize, |content|)` bytes. */
  lemma {:induction false} PlanPrefixCovers(content: seq<byte>, chunkSize: nat, j: nat)
    requires chunkSize >= 1 && j <= NumChunks(|content|, chunkSize)
    ensures Concat(PlanSlices(content, chunkSize, j)) == content[..Min(j * chunkSize, |content|)]
    decreases j
  {
    if j > 0 {
      PlanPrefixCovers(content, chunkSize, j - 1);
      var a := (j - 1) * chunkSize;
      var b := Min(j * chunkSize, |content|);
      var ys := PlanSlices(content, chunkSize, j - 1);
      PlanSlicesSnoc(content, chunkSize, j);
      ConcatAppend(ys, [content[a..b]]);
      assert Concat([content[a..b]]) == content[a..b];
      PrefixThenSlice(content, a, b);
    }
  }

  /** The `j`-th planned slice is the next stretch of the file. */
  lemma PlanSlicesSnoc(content: seq<byte>, chunkSize: nat, j: nat)
    requires chunkSize >= 1 && 0 < j <= NumChunks(|content|, chunkSize)
    ensures (j - 1) * chunkSize < |content| && (j - 1) * chunkSize <= Min(j * chunkSize, |content|)
    ensures PlanSlices(content, chunkSize, j)
      == PlanSlices(content, chunkSize, j - 1) + [content[(j - 1) * chunkSize..Min(j * chunkSize, |content|)]]
  {
    NumChunksBound(|content|, chunkSize, j - 1);
    ChunkFacts(|content|, chunkSize, j - 1);
    assert j * chunkSize == (j - 1) * chunkSize + chunkSize;
    var xs := PlanSlices(content, chunkSize, j);
    var ys := PlanSlices(content, chunkSize, j - 1);
    assert forall k :: 0 <= k < j - 1 ==> xs[k] == ys[k];
  }

  lemma PrefixThenSlice(s: seq<byte>, a: int, b: int)
    requires 0 <= a <= b <= |s|
    ensures Min(a, |s|) == a && s[..a] + s[a..b] == s[..b]
  {
  }

  /** Every byte of the file is fetched exactly once and in order: joining the
      planned ranges gives the whole file back. */
  lemma PlanCoversContent(content: seq<byte>, chunkSize: nat)
    requires chunkSize >= 1
    ensures Concat(PlanSlices(content, chunkSize, NumChunks(|content|, chunkSize))) == content
  {
    var n := NumChunks(|content|, chunkSize);
    PlanPrefixCovers(content, chunkSize, n);
    NumChunksBound(|content|, chunkSize, n);
  }

  // ---------------------------------------------------------------------------
  // Receiving one range

  /** What a worker keeps of a response body: reads stop once the range size
      has been reached or the server closes the stream. */
  function Received(body: seq<byte>, size: nat): (r: seq<byte>)
    ensures r <= body && |r| <= size
    ensures |r| == size || r == body
  {
    if |body| <= size then body else body[..size]
  }

  /** The read loop of `_download_worker`: 64 KiB reads, never more than the
      bytes still missing from the range, stopping at an empty read. */
  method ReceiveChunk(body: seq<byte>, size: nat) returns (data: seq<byte>)
    ensures data == Received(body, size)
  {
    data := [];
    var downloaded := 0;
    while downloaded < size
      invariant downloaded <= |body| && downloaded <= size
      invariant data == body[..downloaded]
      decreases size - downloaded
    {
      var want := Min(65536, size - downloaded);
      var stop := Min(downloaded + want, |body|);
      var piece := body[downloaded..stop];
      if |piece| == 0 {
        break;
      }
      data := data + piece;
      downloaded := downloaded + |piece|;
    }
  }

  /** The request header naming a range. */
  function RangeHeader(c: ChunkRange): string
  {
    "bytes=" + NatToString(c.start) + "-" + NatToString(c.end)
  }

  /** The headers a worker sends: the range, plus a bearer token when one is
      configured. */
  function ChunkRequestHeaders(c: ChunkRange, token: Option<string>): (r: seq<(string, string)>)
    ensures |r| >= 1 && r[0] == ("Range", RangeHeader(c))
    ensures |r| == 2 <==> Provided(token)
    ensures |r| == 2 ==> r[1] == ("Authorization", "Bearer " + token.value)
  {
    [("Range", RangeHeader(c))] + if Provided(token) then [("Authorization", "Bearer " + token.value)] else []
  }

  // ---------------------------------------------------------------------------
  // Part files

  /** `f"{save_path}.part{id}"`. */
  function PartPath(savePath: string, id: nat): string
  {
    savePath + ".part" + NatToString(id)
  }

  /** Paths of the shape `PartPath(savePath, k)`. */
  predicate IsPartPath(savePath: string, p: string)
  {
    |p| > |savePath| + 5 && p[..|savePath| + 5] == savePath + ".part" && AllDigits(p[|savePath| + 5..])
  }

  function PartIndex(savePath: string, p: string): nat
    requires IsPartPath(savePath, p)
  {
    DigitsValue(p[|savePath| + 5..])
  }

  /** A part path is recognised as one, and its number reads back. */
  lemma PartPathIndex(savePath: string, id: nat)
    ensures IsPartPath(savePath, PartPath(savePath, id))
    ensures PartIndex(savePath, PartPath(savePath, id)) == id
    ensures PartPath(savePath, id) != savePath
  {
    var p := PartPath(savePath, id);
    assert p[..|savePath| + 5] == savePath + ".part";
    assert p[|savePath| + 5..] == NatToString(id);
    DigitsValueOfNatToString(id);
  }

  /** The marker `can_resume` looks for is never a part file: `"i"` is not a
      digit. */
  lemma PartialMarkerIsNotAPart(savePath: string)
    ensures !IsPartPath(savePath, savePath + ".partial")
    ensures savePath + ".partial" != savePath
  {
    var p := savePath + ".partial";
    assert p[|savePath| + 5] == 'i';
  }

  /** A part downloaded by a worker. */
  datatype TempPart = TempPart(id: nat, path: string)

  predicate PartsNamed(savePath: string, parts: seq<TempPart>)
  {
    forall t :: t in parts ==> t.path == PartPath(savePath, t.id)
  }

  /** `a` and `b` agree on every path that is neither the target nor one of
      its part files. */
  ghost predicate AgreeOutside(savePath: string, a: FileSystem, b: FileSystem)
  {
    forall p :: p != savePath && !IsPartPath(savePath, p) ==> (p in a <==> p in b) && (p in a ==> a[p] == b[p])
  }

  /** The target file itself is the same in `a` and `b` (present in both with
      the same bytes, or absent from both). */
  predicate KeepsTarget(savePath: string, a: FileSystem, b: FileSystem)
  {
    (savePath in a <==> savePath in b) && (savePath in a ==> a[savePath] == b[savePath])
  }

  // ---------------------------------------------------------------------------
  // Ordering the finished parts

  predicate SortedById(s: seq<TempPart>)
  {
    forall i, j :: 0 <= i < j < |s| ==> s[i].id <= s[j].id
  }

  predicate StrictlyById(s: seq<TempPart>)
  {
    forall i, j :: 0 <= i < j < |s| ==> s[i].id < s[j].id
  }

  function InsertById(t: TempPart, s: seq<TempPart>): (r: seq<TempPart>)
    requires SortedById(s)
    ensures SortedById(r) && multiset(r) == multiset(s) + multiset{t}
    ensures |s| > 0 && t.id <= s[0].id ==> r == [t] + s
  {
    if |s| == 0 then [t]
    else if t.id <= s[0].id then [t] + s
    else
      var rest := InsertById(t, s[1..]);
      InsertBehindHead(t, s, rest);
      [s[0]] + rest
  }

  /** The head of `s` stays in front of `t` inserted into the tail. */
  lemma InsertBehindHead(t: TempPart, s: seq<TempPart>, rest: seq<TempPart>)
    requires SortedById(s) && |s| > 0 && s[0].id < t.id
    requires SortedById(rest) && multiset(rest) == multiset(s[1..]) + multiset{t}
    ensures SortedById([s[0]] + rest) && multiset([s[0]] + rest) == multiset(s) + multiset{t}
  {
    assert s == [s[0]] + s[1..];
    forall j | 0 <= j < |rest|
      ensures s[0].id <= rest[j].id
    {
      assert rest[j] in multiset(s[1..]) + multiset{t};
    }
  }

  /** `sorted(temp_files, key=lambda x: x['id'])`: a stable sort by id. */
  function SortById(s: seq<TempPart>): (r: seq<TempPart>)
    ensures SortedById(r) && multiset(r) == multiset(s)
  {
    if |s| == 0 then []
    else
      assert s == [s[0]] + s[1..];
      InsertById(s[0], SortById(s[1..]))
  }

  /** Parts that already arrive in increasing id order are left as they are. */
  lemma {:induction false} SortKeepsOrdered(s: seq<TempPart>)
    requires StrictlyById(s)
    ensures SortById(s) == s
    decreases |s|
  {
    if |s| > 0 {
      SortKeepsOrdered(s[1..]);
      assert s == [s[0]] + s[1..];
    }
  }

  /** No two distinct parts share an id. */
  predicate IdsDetermine(s: seq<TempPart>)
  {
    forall x, y :: x in s && y in s && x.id == y.id ==> x == y
  }

  lemma SortedHeadLeast(s: seq<TempPart>, x: TempPart)
    requires SortedById(s) && x in s
    ensures s[0].id <= x.id
  {
    var i :| 0 <= i < |s| && s[i] == x;
    if i > 0 {
      assert s[0].id <= s[i].id;
    }
  }

  lemma MultisetCancelHead(x: TempPart, ta: seq<TempPart>, tb: seq<TempPart>)
    requires multiset([x] + ta) == multiset([x] + tb)
    ensures multiset(ta) == multiset(tb)
  {
    assert multiset([x] + ta) == multiset{x} + multiset(ta);
    assert multiset([x] + tb) == multiset{x} + multiset(tb);
    forall z ensures multiset(ta)[z] == multiset(tb)[z] {
      assert multiset([x] + ta)[z] == multiset{x}[z] + multiset(ta)[z];
      assert multiset([x] + tb)[z] == multiset{x}[z] + multiset(tb)[z];
    }
  }

  lemma SortedTail(s: seq<TempPart>)
    requires SortedById(s) && |s| > 0
    ensures SortedById(s[1..])
  {
    forall i, j | 0 <= i < j < |s| - 1
      ensures s[1..][i].id <= s[1..][j].id
    {
      assert s[1..][i] == s[i + 1] && s[1..][j] == s[j + 1];
    }
  }

  lemma IdsDetermineTail(s: seq<TempPart>)
    requires IdsDetermine(s) && |s| > 0
    ensures IdsDetermine(s[1..])
  {
    forall u, v | u in s[1..] && v in s[1..] && u.id == v.id
      ensures u == v
    {
      assert u in s && v in s;
    }
  }

  /** Two id-sorted sequences holding the same parts, where an id names at
      most one part, are equal. */
  lemma {:induction false} SortedUnique(a: seq<TempPart>, b: seq<TempPart>)
    requires SortedById(a) && SortedById(b) && multiset(a) == multiset(b) && IdsDetermine(a)
    ensures a == b
    decreases |a|
  {
    assert |b| == |multiset(b)| == |a|;
    if |a| > 0 {
      var x, y := a[0], b[0];
      assert x in multiset(b);
      assert y in multiset(a);
      SortedHeadLeast(b, x);
      SortedHeadLeast(a, y);
      assert y in a;
      assert x.id == y.id;
      assert x == y;
      var ta, tb := a[1..], b[1..];
      assert a == [x] + ta && b == [x] + tb;
      MultisetCancelHead(x, ta, tb);
      SortedTail(a);
      SortedTail(b);
      IdsDetermineTail(a);
      SortedUnique(ta, tb);
    }
  }

  lemma SortKeepsIdsDetermined(a: seq<TempPart>)
    requires IdsDetermine(a)
    ensures IdsDetermine(SortById(a))
  {
    var sa := SortById(a);
    forall x, y | x in sa && y in sa && x.id == y.id
      ensures x == y
    {
      assert x in multiset(sa) && y in multiset(sa);
      assert x in a && y in a;
    }
  }

  /** The merge order does not depend on the order in which workers
      finished: any two completion orders of the same parts sort alike. */
  lemma SortIsCanonical(a: seq<TempPart>, b: seq<TempPart>)
    requires multiset(a) == multiset(b) && IdsDetermine(a)
    ensures SortById(a) == SortById(b)
  {
    SortKeepsIdsDetermined(a);
    SortedUnique(SortById(a), SortById(b));
  }

  function Paths(parts: seq<TempPart>): (r: seq<string>)
    ensures |r| == |parts| && forall k :: 0 <= k < |parts| ==> r[k] == parts[k].path
  {
    seq(|parts|, k requires 0 <= k < |parts| => parts[k].path)
  }

  // ---------------------------------------------------------------------------
  // The worker pool

  /** What the server sent for a range: a body that ended normally, or an
      exception, raised either before a part file was opened (`None`) or
      after some bytes had been written to it. */
  datatype FetchOutcome =
    | Fetched(body: seq<byte>)
    | FetchFailed(partial: Option<seq<byte>>, reason: string)

  /** The shared state of the workers: how many are still running, the parts
      they finished, the errors they logged, the running byte count and the
      disk. */
  datatype Pool = Pool(alive: int, parts: seq<TempPart>, errors: seq<string>, downloaded: nat, fs: FileSystem)

  /** How many worker threads `download` starts. */
  function WorkerCount(numThreads: int, numChunks: nat): (r: nat)
    ensures r <= numChunks
    ensures numThreads >= 1 && numChunks >= 1 ==> r >= 1
  {
    if Min(numThreads, numChunks) <= 0 then 0 else Min(numThreads, numChunks)
  }

  predicate AllFetched(fetch: ChunkRange -> FetchOutcome, chunks: seq<ChunkRange>, i: nat)
  {
    forall k :: i <= k < |chunks| ==> fetch(chunks[k]).Fetched?
  }

  /** The queue from position `i` on. A worker whose fetch raises logs the
      message and exits; the others keep taking chunks. The pool stops when
      the queue is empty, every worker has exited, or the cancel flag is seen
      (before taking chunk `stopAt`). */
  function Work(fetch: ChunkRange -> FetchOutcome, savePath: string, chunks: seq<ChunkRange>, i: nat, stopAt: nat, pool: Pool): (r: Pool)
    requires i <= |chunks|
    requires PartsNamed(savePath, pool.parts)
    ensures PartsNamed(savePath, r.parts)
    ensures pool.errors <= r.errors && pool.parts <= r.parts && r.downloaded >= pool.downloaded
    ensures AgreeOutside(savePath, pool.fs, r.fs)
    ensures KeepsTarget(savePath, pool.fs, r.fs)
    ensures AllFetched(fetch, chunks, i) && pool.alive >= 1 ==> r.errors == pool.errors
    ensures forall e :: e in r.errors[|pool.errors|..] ==> exists k :: i <= k < |chunks| && FailedWith(fetch(chunks[k]), e)
    decreases |chunks| - i
  {
    if i == |chunks| || i >= stopAt || pool.alive <= 0 then pool
    else
      var c := chunks[i];
      var next := WorkStep(fetch, savePath, c, pool);
      var r := Work(fetch, savePath, chunks, i + 1, stopAt, next);
      if fetch(c).FetchFailed? then
        assert FailedWith(fetch(chunks[i]), fetch(c).reason);
        assert r.errors[|pool.errors|..] == [fetch(c).reason] + r.errors[|next.errors|..];
        r
      else
        assert r.errors[|pool.errors|..] == r.errors[|next.errors|..];
        r
  }

  /** One worker taking chunk `c`: a body that arrives becomes part file
      `c.id`; a fetch that raises logs its message, keeps whatever was
      written, and ends the worker. */
  function WorkStep(fetch: ChunkRange -> FetchOutcome, savePath: string, c: ChunkRange, pool: Pool): (next: Pool)
    requires PartsNamed(savePath, pool.parts)
    ensures PartsNamed(savePath, next.parts)
    ensures pool.errors <= next.errors && pool.parts <= next.parts && next.downloaded >= pool.downloaded
    ensures AgreeOutside(savePath, pool.fs, next.fs)
    ensures KeepsTarget(savePath, pool.fs, next.fs)
    ensures fetch(c).Fetched? ==> next.errors == pool.errors && next.alive == pool.alive
    ensures fetch(c).FetchFailed? ==> next.errors == pool.errors + [fetch(c).reason]
  {
    var path := PartPath(savePath, c.id);
    PartPathIndex(savePath, c.id);
    match fetch(c)
    case Fetched(body) =>
      var data := Received(body, c.size);
      Pool(pool.alive, pool.parts + [TempPart(c.id, path)], pool.errors, pool.downloaded + |data|, pool.fs[path := data])
    case FetchFailed(partial, reason) =>
      var kept := if partial.Some? then Received(partial.value, c.size) else [];
      var fs' := if partial.Some? then pool.fs[path := kept] else pool.fs;
      Pool(pool.alive - 1, pool.parts, pool.errors + [reason], pool.downloaded + |kept|, fs')
  }

  predicate FailedWith(o: FetchOutcome, reason: string)
  {
    o.FetchFailed? && o.reason == reason
  }

  /** The parts a fully successful run over `chunks[i..]` produces. */
  function PlannedParts(savePath: string, i: nat, n: nat): seq<TempPart>
    requires i <= n
  {
    seq(n - i, j requires 0 <= j < n - i => TempPart(i + j, PartPath(savePath, i + j)))
  }

  /** When every fetch from `i` on succeeds, some worker is alive and nobody
      cancels, each remaining chunk `k` becomes part file `k` holding what the
      server sent for it, and nothing else on disk changes. */
  lemma WorkCompletes(fetch: ChunkRange -> FetchOutcome, savePath: string, chunks: seq<ChunkRange>,
                                         i: nat, stopAt: nat, pool: Pool)
    requires i <= |chunks| <= stopAt && pool.alive >= 1
    requires PartsNamed(savePath, pool.parts)
    requires AllFetched(fetch, chunks, i)
    requires forall k :: 0 <= k < |chunks| ==> chunks[k].id == k
    ensures var r := Work(fetch, savePath, chunks, i, stopAt, pool);
      && r.parts == pool.parts + PlannedParts(savePath, i, |chunks|)
      && (forall k :: i <= k < |chunks| ==>
            PartPath(savePath, k) in r.fs && r.fs[PartPath(savePath, k)] == Received(fetch(chunks[k]).body, chunks[k].size))
      && (forall p :: p in pool.fs && !(IsPartPath(savePath, p) && PartIndex(savePath, p) >= i) ==> p in r.fs && r.fs[p] == pool.fs[p])
  {
    WorkCompletesParts(fetch, savePath, chunks, i, stopAt, pool);
    WorkWritesParts(fetch, savePath, chunks, i, stopAt, pool);
    WorkKeepsOtherFiles(fetch, savePath, chunks, i, stopAt, pool);
  }

  lemma {:induction false} WorkCompletesParts(fetch: ChunkRange -> FetchOutcome, savePath: string, chunks: seq<ChunkRange>,
                                         i: nat, stopAt: nat, pool: Pool)
    requires i <= |chunks| <= stopAt && pool.alive >= 1
    requires PartsNamed(savePath, pool.parts)
    requires AllFetched(fetch, chunks, i)
    requires forall k :: 0 <= k < |chunks| ==> chunks[k].id == k
    ensures Work(fetch, savePath, chunks, i, stopAt, pool).parts == pool.parts + PlannedParts(savePath, i, |chunks|)
    decreases |chunks| - i
  {
    if i < |chunks| {
      var c := chunks[i];
      var path := PartPath(savePath, i);
      PartPathIndex(savePath, i);
      var data := Received(fetch(c).body, c.size);
      assert c.id == i && fetch(c).Fetched?;
      var next := WorkStep(fetch, savePath, c, pool);
      assert next == Pool(pool.alive, pool.parts + [TempPart(i, path)], pool.errors, pool.downloaded + |data|, pool.fs[path := data]);
      assert PartsNamed(savePath, next.parts);
      var r := Work(fetch, savePath, chunks, i + 1, stopAt, next);
      assert Work(fetch, savePath, chunks, i, stopAt, pool) == r;
      WorkCompletesParts(fetch, savePath, chunks, i + 1, stopAt, next);
      PlannedPartsUnfold(savePath, i, |chunks|);
      assert next.parts + PlannedParts(savePath, i + 1, |chunks|)
        == pool.parts + ([TempPart(i, path)] + PlannedParts(savePath, i + 1, |chunks|));
    }
  }

  lemma PlannedPartsUnfold(savePath: string, i: nat, n: nat)
    requires i < n
    ensures PlannedParts(savePath, i, n) == [TempPart(i, PartPath(savePath, i))] + PlannedParts(savePath, i + 1, n)
  {
    var a, b := PlannedParts(savePath, i, n), PlannedParts(savePath, i + 1, n);
    assert forall j :: 1 <= j < n - i ==> a[j] == b[j - 1];
  }

  lemma {:induction false} WorkWritesParts(fetch: ChunkRange -> FetchOutcome, savePath: string, chunks: seq<ChunkRange>,
                                         i: nat, stopAt: nat, pool: Pool)
    requires i <= |chunks| <= stopAt && pool.alive >= 1
    requires PartsNamed(savePath, pool.parts)
    requires AllFetched(fetch, chunks, i)
    requires forall k :: 0 <= k < |chunks| ==> chunks[k].id == k
    ensures var r := Work(fetch, savePath, chunks, i, stopAt, pool);
      forall k :: i <= k < |chunks| ==>
        PartPath(savePath, k) in r.fs && r.fs[PartPath(savePath, k)] == Received(fetch(chunks[k]).body, chunks[k].size)
    decreases |chunks| - i
  {
    if i < |chunks| {
      var c := chunks[i];
      var path := PartPath(savePath, i);
      PartPathIndex(savePath, i);
      var data := Received(fetch(c).body, c.size);
      assert c.id == i && fetch(c).Fetched?;
      var next := WorkStep(fetch, savePath, c, pool);
      assert next == Pool(pool.alive, pool.parts + [TempPart(i, path)], pool.errors, pool.downloaded + |data|, pool.fs[path := data]);
      assert PartsNamed(savePath, next.parts);
      var r := Work(fetch, savePath, chunks, i + 1, stopAt, next);
      assert Work(fetch, savePath, chunks, i, stopAt, pool) == r;
      WorkWritesParts(fetch, savePath, chunks, i + 1, stopAt, next);
      WorkKeepsOtherFiles(fetch, savePath, chunks, i + 1, stopAt, next);
      assert path in next.fs && !(IsPartPath(savePath, path) && PartIndex(savePath, path) >= i + 1);
      assert path in r.fs && r.fs[path] == data;
      forall k | i <= k < |chunks|
        ensures PartPath(savePath, k) in r.fs && r.fs[PartPath(savePath, k)] == Received(fetch(chunks[k]).body, chunks[k].size)
      {
        if k == i {
          assert PartPath(savePath, k) == path;
        }
      }
    }
  }

  lemma {:induction false} WorkKeepsOtherFiles(fetch: ChunkRange -> FetchOutcome, savePath: string, chunks: seq<ChunkRange>,
                                         i: nat, stopAt: nat, pool: Pool)
    requires i <= |chunks| <= stopAt && pool.alive >= 1
    requires PartsNamed(savePath, pool.parts)
    requires AllFetched(fetch, chunks, i)
    requires forall k :: 0 <= k < |chunks| ==> chunks[k].id == k
    ensures var r := Work(fetch, savePath, chunks, i, stopAt, pool);
      forall p :: p in pool.fs && !(IsPartPath(savePath, p) && PartIndex(savePath, p) >= i) ==> p in r.fs && r.fs[p] == pool.fs[p]
    decreases |chunks| - i
  {
    if i < |chunks| {
      var c := chunks[i];
      var path := PartPath(savePath, i);
      PartPathIndex(savePath, i);
      var data := Received(fetch(c).body, c.size);
      assert c.id == i && fetch(c).Fetched?;
      var next := WorkStep(fetch, savePath, c, pool);
      assert next == Pool(pool.alive, pool.parts + [TempPart(i, path)], pool.errors, pool.downloaded + |data|, pool.fs[path := data]);
      assert PartsNamed(savePath, next.parts);
      var r := Work(fetch, savePath, chunks, i + 1, stopAt, next);
      assert Work(fetch, savePath, chunks, i, stopAt, pool) == r;
      WorkKeepsOtherFiles(fetch, savePath, chunks, i + 1, stopAt, next);
      forall p | p in pool.fs && !(IsPartPath(savePath, p) && PartIndex(savePath, p) >= i)
        ensures p in r.fs && r.fs[p] == pool.fs[p]
      {
        assert p != path;
      }
    }
  }

  // ---------------------------------------------------------------------------
  // The downloader object

  /** A `MultiThreadedDownloader`: its constructor arguments and the state a
      download leaves behind (byte count, logged errors, cancel flag). */
  datatype Downloader = Downloader(
    url: string, savePath: string, fileSize: int, numThreads: int, token: Option<string>,
    expectedChecksum: Option<string>, enableResume: bool, downloadId: string,
    downloadedBytes: nat, errors: seq<string>, cancelled: bool)

  /** The string the download id is the md5 digest of. */
  function JobKey(url: string, savePath: string, fileSize: int): string
  {
    url + "_" + savePath + "_" + IntToString(fileSize)
  }

  /** The key is not injective: an underscore can move between the URL and
      the path, so two different downloads can share a resume id. */
  lemma JobKeyAmbiguous()
    ensures JobKey("a_b", "c", 1) == JobKey("a", "b_c", 1)
  {
    assert IntToString(1) == "1";
  }

  /** `num_threads or CONFIG.get('max_download_threads', 4)`: a missing or
      zero hint falls back to the configuration. */
  function ThreadCount(config: ConfigMap, hint: Option<int>): (r: int)
    ensures hint.Some? && hint.value != 0 ==> r == hint.value
    ensures (hint.None? || hint == Some(0)) && "max_download_threads" !in config ==> r == 4
  {
    if hint.Some? && hint.value != 0 then hint.value else GetNumber(config, "max_download_threads", 4)
  }

  /** `MultiThreadedDownloader.__init__`. The id hash is a parameter. */
  function NewDownloader(config: ConfigMap, idHash: string -> string, url: string, savePath: string, fileSize: int,
                         numThreads: Option<int>, token: Option<string>, expectedChecksum: Option<string>,
                         enableResume: bool): (d: Downloader)
    ensures d.numThreads == ThreadCount(config, numThreads)
    ensures d.downloadId == idHash(JobKey(url, savePath, fileSize))
    ensures d.downloadedBytes == 0 && d.errors == [] && !d.cancelled
  {
    Downloader(url, savePath, fileSize, ThreadCount(config, numThreads), token, expectedChecksum, enableResume,
               idHash(JobKey(url, savePath, fileSize)), 0, [], false)
  }

  /** The record `_save_resume_info` writes. */
  function ResumeInfo(d: Downloader, now: real): ResumeRecord
  {
    ResumeRecord(d.url, d.savePath, d.fileSize, d.downloadedBytes, d.expectedChecksum, now)
  }

  /** `cancel`: raise the flag and, when resume is enabled, record how many
      bytes had arrived. */
  function Cancel(d: Downloader, store: ResumeStore, now: real): (r: (Downloader, ResumeStore))
    ensures r.0 == d.(cancelled := true)
    ensures d.enableResume ==> LoadResume(r.1, d.downloadId) == Some(ResumeInfo(d, now))
    ensures d.enableResume ==> LoadResume(r.1, d.downloadId).value.downloaded == d.downloadedBytes
    ensures !d.enableResume ==> r.1 == store
    ensures forall other :: other != d.downloadId ==> LoadResume(r.1, other) == LoadResume(store, other)
  {
    (d.(cancelled := true), if d.enableResume then SaveResume(store, d.downloadId, ResumeInfo(d, now)) else store)
  }

  /** `MultiThreadedDownloader.can_resume`: asks the resume store about the
      `.partial` file next to the target. */
  function CanResumeDownload(d: Downloader, store: ResumeStore, fs: FileSystem): (r: (bool, nat))
    ensures !d.enableResume ==> r == (false, 0)
    ensures r.0 ==> d.savePath + ".partial" in fs && r.1 == |fs[d.savePath + ".partial"]|
  {
    if !d.enableResume then (false, 0)
    else CanResume(store, d.downloadId, fs, d.savePath + ".partial", d.fileSize)
  }

  // ---------------------------------------------------------------------------
  // download()

  /** The network as a download sees it, and when (if ever) the user cancels:
      `cancelAt == Some(k)` means the flag is up before chunk `k` is taken. */
  datatype Transport = Transport(fetch: ChunkRange -> FetchOutcome, cancelAt: Option<nat>, now: real)

  datatype Outcome = Outcome(success: bool, message: string, fs: FileSystem, store: ResumeStore)

  datatype DownloadResult = DownloadResult(success: bool, message: string, downloader: Downloader, fs: FileSystem, store: ResumeStore)

  /** The sha256 digest matches the expected checksum, when one was given. */
  predicate ChecksumOk(h: Hashes, data: seq<byte>, expected: Option<string>)
  {
    Provided(expected) ==> SameDigest(h.sha256(data), expected.value)
  }

  /** After sorting, every part still names one of the target's part files. */
  lemma SortedPathsArePartPaths(savePath: string, parts: seq<TempPart>)
    requires PartsNamed(savePath, parts)
    ensures var paths := Paths(SortById(parts));
      forall k :: 0 <= k < |paths| ==> IsPartPath(savePath, paths[k]) && paths[k] != savePath
    ensures savePath !in Paths(SortById(parts))
  {
    var sorted := SortById(parts);
    forall k | 0 <= k < |sorted| ensures IsPartPath(savePath, sorted[k].path) && sorted[k].path != savePath {
      assert sorted[k] in multiset(parts);
      PartPathIndex(savePath, sorted[k].id);
    }
  }

  /** Writing the target and deleting part files leaves every other path
      alone. */
  lemma WriteAndCleanAgree(savePath: string, fs: FileSystem, data: seq<byte>, paths: seq<string>)
    requires forall k :: 0 <= k < |paths| ==> IsPartPath(savePath, paths[k]) && paths[k] != savePath
    ensures savePath in fs[savePath := data] - (set p | p in paths)
    ensures (fs[savePath := data] - (set p | p in paths))[savePath] == data
    ensures AgreeOutside(savePath, fs, fs[savePath := data] - (set p | p in paths))
  {
  }

  /** The tail of `download` once the workers have joined without error or
      cancellation: merge the part files (given in id order), then clean up.
      The merge already checked the same digest, so the final re-check never
      fails. */
  function MergeStage(h: Hashes, d: Downloader, fs: FileSystem, store: ResumeStore, paths: seq<string>): (r: Outcome)
    requires forall k :: 0 <= k < |paths| ==> IsPartPath(d.savePath, paths[k]) && paths[k] != d.savePath
    ensures r.success <==> MergeOk(h, fs, paths, d.fileSize, d.expectedChecksum)
    ensures r.success ==> d.savePath in r.fs && r.fs[d.savePath] == Concat(Contents(fs, paths))
    ensures r.success ==> r.store == if d.enableResume then DeleteResume(store, d.downloadId) else store
    ensures !r.success ==> r.store == store
    ensures r.message != "Final checksum verification failed"
    ensures AgreeOutside(d.savePath, fs, r.fs)
  {
    assert d.savePath !in paths;
    var m := MergeAndVerify(h, fs, paths, d.savePath, d.fileSize, d.expectedChecksum);
    match m.0
    case MergeFailed(why) =>
      FailureMessageNotFinal(why);
      Outcome(false, FailureMessage(why), m.1, store)
    case Merged =>
      AgreeOutsideTrans(d.savePath, fs, m.1, CleanUp(h, d, m.1, store, paths).fs);
      CleanUp(h, d, m.1, store, paths)
  }

  lemma FailureMessageNotFinal(why: MergeFailure)
    ensures FailureMessage(why) != "Final checksum verification failed"
  {
    assert FailureMessage(why)[0] != 'F';
  }

  /** After a successful merge: delete the part files (failures ignored),
      drop the resume record, and re-check the target's sha256 digest, which
      the merge has already checked. */
  function CleanUp(h: Hashes, d: Downloader, fs: FileSystem, store: ResumeStore, paths: seq<string>): (r: Outcome)
    requires forall k :: 0 <= k < |paths| ==> IsPartPath(d.savePath, paths[k]) && paths[k] != d.savePath
    requires d.savePath in fs && ChecksumOk(h, fs[d.savePath], d.expectedChecksum)
    ensures r.success && r.message == "Download complete and verified"
    ensures d.savePath in r.fs && r.fs[d.savePath] == fs[d.savePath]
    ensures forall k :: 0 <= k < |paths| ==> paths[k] !in r.fs
    ensures r.store == if d.enableResume then DeleteResume(store, d.downloadId) else store
    ensures AgreeOutside(d.savePath, fs, r.fs)
  {
    var cleaned := fs - (set p | p in paths);
    WriteAndCleanAgree(d.savePath, fs, fs[d.savePath], paths);
    assert fs[d.savePath := fs[d.savePath]] == fs;
    var store' := if d.enableResume then DeleteResume(store, d.downloadId) else store;
    var finalOk := !Provided(d.expectedChecksum) || VerifyFile(h, cleaned, d.savePath, d.expectedChecksum.value, "sha256").0;
    Outcome(finalOk, if finalOk then "Download complete and verified" else "Final checksum verification failed", cleaned, store')
  }

  /** Where the pool stops taking chunks: at once if the downloader was
      already cancelled, at the cancel point if there is one. */
  function StopPoint(d: Downloader, t: Transport, n: nat): nat
  {
    if d.cancelled then 0 else if t.cancelAt.Some? then t.cancelAt.value else n
  }

  lemma AgreeOutsideTrans(savePath: string, a: FileSystem, b: FileSystem, c: FileSystem)
    requires AgreeOutside(savePath, a, b) && AgreeOutside(savePath, b, c)
    ensures AgreeOutside(savePath, a, c)
  {
  }

  /** The cancel request, if the user made one while the pool ran. */
  function CancelIfAsked(d: Downloader, store: ResumeStore, t: Transport): (r: (Downloader, ResumeStore))
    ensures r.0 == d.(cancelled := d.cancelled || t.cancelAt.Some?)
    ensures t.cancelAt.Some? && d.enableResume ==> LoadResume(r.1, d.downloadId) == Some(ResumeInfo(d, t.now))
    ensures t.cancelAt.None? ==> r.1 == store
  {
    if t.cancelAt.Some? then Cancel(d, store, t.now) else (d, store)
  }

  /** What `download` reports once the pool has stopped: the first logged
      error, else the cancellation, else the merge result. */
  function Finish(h: Hashes, t: Transport, d: Downloader, pool: Pool, store: ResumeStore): (r: DownloadResult)
    requires PartsNamed(d.savePath, pool.parts)
    ensures r.downloader.errors == pool.errors && r.downloader.downloadedBytes == pool.downloaded
    ensures r.success ==> t.cancelAt.None? && !d.cancelled && pool.errors == []
    ensures r.success ==> d.savePath in r.fs && |r.fs[d.savePath]| == d.fileSize && ChecksumOk(h, r.fs[d.savePath], d.expectedChecksum)
    ensures r.success && d.enableResume ==> LoadResume(r.store, d.downloadId) == None
    ensures |pool.errors| > 0 ==> !r.success && r.message == "Download failed: " + pool.errors[0]
    ensures t.cancelAt.Some? && d.enableResume ==>
              LoadResume(r.store, d.downloadId) == Some(ResumeInfo(r.downloader.(cancelled := d.cancelled), t.now))
    ensures r.message != "Final checksum verification failed"
    ensures AgreeOutside(d.savePath, pool.fs, r.fs)
    ensures |pool.errors| > 0 || t.cancelAt.Some? || d.cancelled ==> r.fs == pool.fs
    ensures pool.errors == [] && (t.cancelAt.Some? || d.cancelled) ==> !r.success && r.message == "Download cancelled"
  {
    var ran := d.(downloadedBytes := pool.downloaded, errors := pool.errors);
    var cancelled := CancelIfAsked(ran, store, t);
    var after := cancelled.0;
    if |pool.errors| > 0 then
      assert ("Download failed: " + pool.errors[0])[0] == 'D';
      DownloadResult(false, "Download failed: " + pool.errors[0], after, pool.fs, cancelled.1)
    else if after.cancelled then
      DownloadResult(false, "Download cancelled", after, pool.fs, cancelled.1)
    else
      SortedPathsArePartPaths(d.savePath, pool.parts);
      var o := MergeStage(h, after, pool.fs, cancelled.1, Paths(SortById(pool.parts)));
      DownloadResult(o.success, o.message, after, o.fs, o.store)
  }

  /** `download`: plan the ranges, run the pool, then report. Errors and the
      byte count accumulate on the object across calls. */
  function Download(h: Hashes, config: ConfigMap, t: Transport, d: Downloader, fs: FileSystem, store: ResumeStore): (r: DownloadResult)
    requires ThreadChunkSize(config) >= 1 || d.fileSize <= 0
    ensures r.success ==> t.cancelAt.None? && !d.cancelled && d.errors == [] && r.downloader.errors == []
    ensures r.success ==> d.savePath in r.fs && |r.fs[d.savePath]| == d.fileSize && ChecksumOk(h, r.fs[d.savePath], d.expectedChecksum)
    ensures r.success && d.enableResume ==> LoadResume(r.store, d.downloadId) == None
    ensures |r.downloader.errors| > 0 ==> !r.success && r.message == "Download failed: " + r.downloader.errors[0]
    ensures d.errors <= r.downloader.errors
    ensures t.cancelAt.Some? && d.enableResume ==>
              LoadResume(r.store, d.downloadId) == Some(ResumeInfo(r.downloader.(cancelled := d.cancelled), t.now))
    ensures r.message != "Final checksum verification failed"
    ensures AgreeOutside(d.savePath, fs, r.fs)
    ensures |r.downloader.errors| > 0 || t.cancelAt.Some? || d.cancelled ==> KeepsTarget(d.savePath, fs, r.fs)
    ensures r.downloader.errors == [] && (t.cancelAt.Some? || d.cancelled) ==> !r.success && r.message == "Download cancelled"
  {
    var plan := if ThreadChunkSize(config) >= 1 then Plan(d.fileSize, ThreadChunkSize(config)) else [];
    var start := Pool(WorkerCount(d.numThreads, |plan|), [], d.errors, d.downloadedBytes, fs);
    var pool := Work(t.fetch, d.savePath, plan, 0, StopPoint(d, t, |plan|), start);
    var r := Finish(h, t, d, pool, store);
    AgreeOutsideTrans(d.savePath, fs, pool.fs, r.fs);
    r
  }

  /** The part files of a complete run, read back in merge order, are the
      fetched ranges in plan order. */
  lemma PlannedPartsReadBack(fs: FileSystem, savePath: string, slices: seq<seq<byte>>)
    requires forall k :: 0 <= k < |slices| ==> PartPath(savePath, k) in fs && fs[PartPath(savePath, k)] == slices[k]
    ensures var paths := Paths(SortById(PlannedParts(savePath, 0, |slices|)));
      AllPresent(fs, paths) && Contents(fs, paths) == slices
  {
    var parts := PlannedParts(savePath, 0, |slices|);
    SortKeepsOrdered(parts);
    var paths := Paths(parts);
    assert forall k :: 0 <= k < |slices| ==> paths[k] == PartPath(savePath, k);
    assert AllPresent(fs, paths);
    assert Contents(fs, paths) == slices;
  }

  /** A planned slice has its range's size, so reading it whole keeps all of it. */
  lemma SliceReceivedWhole(content: seq<byte>, size: nat, k: nat)
    requires size >= 1 && k < NumChunks(|content|, size)
    ensures var slice := PlanSlices(content, size, NumChunks(|content|, size))[k];
      Received(slice, Plan(|content|, size)[k].size) == slice
  {
    ChunkFacts(|content|, size, k);
  }

  /** A run in which every range is answered in full produces one part file
      per range holding exactly that range. */
  lemma CompleteRun(fetch: ChunkRange -> FetchOutcome, savePath: string, content: seq<byte>, size: nat, stopAt: nat, start: Pool)
    requires size >= 1 && start.alive >= 1 && start.parts == []
    requires stopAt >= NumChunks(|content|, size)
    requires var n := NumChunks(|content|, size);
      forall k :: 0 <= k < n ==> fetch(Plan(|content|, size)[k]) == Fetched(PlanSlices(content, size, n)[k])
    ensures var n := NumChunks(|content|, size);
      var pool := Work(fetch, savePath, Plan(|content|, size), 0, stopAt, start);
      && pool.parts == PlannedParts(savePath, 0, n)
      && forall k :: 0 <= k < n ==>
           PartPath(savePath, k) in pool.fs && pool.fs[PartPath(savePath, k)] == PlanSlices(content, size, n)[k]
  {
    var plan := Plan(|content|, size);
    var n := |plan|;
    var slices := PlanSlices(content, size, n);
    forall k | 0 <= k < n
      ensures plan[k].id == k && fetch(plan[k]).Fetched? && Received(fetch(plan[k]).body, plan[k].size) == slices[k]
    {
      ChunkFacts(|content|, size, k);
      SliceReceivedWhole(content, size, k);
    }
    assert AllFetched(fetch, plan, 0);
    assert PartsNamed(savePath, start.parts);
    WorkCompletesParts(fetch, savePath, plan, 0, stopAt, start);
    WorkWritesParts(fetch, savePath, plan, 0, stopAt, start);
    assert start.parts + PlannedParts(savePath, 0, n) == PlannedParts(savePath, 0, n);
  }

  /** A download in which the server answers every range with exactly the
      file's bytes for it, at least one worker runs, nobody cancels and the
      checksum (if any) is the file's, succeeds and leaves the file at the
      target. */
  lemma DownloadDeliversContent(h: Hashes, config: ConfigMap, t: Transport, d: Downloader, fs: FileSystem,
                                store: ResumeStore, content: seq<byte>)
    requires ThreadChunkSize(config) >= 1 && |content| == d.fileSize
    requires var n := NumChunks(|content|, ThreadChunkSize(config));
      forall k :: 0 <= k < n ==>
        t.fetch(Plan(d.fileSize, ThreadChunkSize(config))[k]) == Fetched(PlanSlices(content, ThreadChunkSize(config), n)[k])
    requires d.numThreads >= 1 && t.cancelAt.None? && !d.cancelled && d.errors == []
    requires ChecksumOk(h, content, d.expectedChecksum)
    ensures var r := Download(h, config, t, d, fs, store);
      r.success && r.fs[d.savePath] == content
  {
    var size := ThreadChunkSize(config);
    var plan := Plan(d.fileSize, size);
    var n := |plan|;
    var start := Pool(WorkerCount(d.numThreads, n), [], d.errors, d.downloadedBytes, fs);
    var pool := Work(t.fetch, d.savePath, plan, 0, StopPoint(d, t, n), start);
    if n > 0 {
      CompleteRun(t.fetch, d.savePath, content, size, n, start);
    } else {
      assert pool == start;
    }
    assert pool.errors == [] && pool.parts == PlannedParts(d.savePath, 0, n);
    PlannedPoolMerges(h, d.savePath, pool.fs, content, size, d.expectedChecksum);
    assert Download(h, config, t, d, fs, store) == Finish(h, t, d, pool, store);
    FinishMerges(h, t, d, pool, store);
  }

  /** With no error and no cancellation, the report is the merge's: when the
      parts merge, the download succeeds with their concatenation. */
  lemma FinishMerges(h: Hashes, t: Transport, d: Downloader, pool: Pool, store: ResumeStore)
    requires PartsNamed(d.savePath, pool.parts)
    requires pool.errors == [] && t.cancelAt.None? && !d.cancelled
    requires MergeOk(h, pool.fs, Paths(SortById(pool.parts)), d.fileSize, d.expectedChecksum)
    ensures var r := Finish(h, t, d, pool, store);
      r.success && d.savePath in r.fs && r.fs[d.savePath] == Concat(Contents(pool.fs, Paths(SortById(pool.parts))))
  {
    SortedPathsArePartPaths(d.savePath, pool.parts);
  }

  /** Part files holding the planned slices merge, in id order, into the
      file's bytes, which pass the size and checksum checks. */
  lemma PlannedPoolMerges(h: Hashes, savePath: string, fs: FileSystem, content: seq<byte>, size: nat, expected: Option<string>)
    requires size >= 1 && ChecksumOk(h, content, expected)
    requires var n := NumChunks(|content|, size);
      forall k :: 0 <= k < n ==> PartPath(savePath, k) in fs && fs[PartPath(savePath, k)] == PlanSlices(content, size, n)[k]
    ensures var paths := Paths(SortById(PlannedParts(savePath, 0, NumChunks(|content|, size))));
      MergeOk(h, fs, paths, |content|, expected) && Concat(Contents(fs, paths)) == content
  {
    var n := NumChunks(|content|, size);
    PlannedPartsReadBack(fs, savePath, PlanSlices(content, size, n));
    PlanCoversContent(content, size);
  }

  /** With no worker thread (a non-positive thread count) a non-empty file
      is never fetched, and the merge reports the size mismatch. */
  lemma NoWorkersSizeMismatch(h: Hashes, config: ConfigMap, t: Transport, d: Downloader, fs: FileSystem, store: ResumeStore)
    requires ThreadChunkSize(config) >= 1
    requires d.numThreads <= 0 && d.fileSize > 0 && t.cancelAt.None? && !d.cancelled && d.errors == []
    ensures var r := Download(h, config, t, d, fs, store);
      !r.success && r.message == FailureMessage(SizeMismatch(d.fileSize, 0))
  {
    var size := ThreadChunkSize(config);
    var plan := Plan(d.fileSize, size);
    var start := Pool(WorkerCount(d.numThreads, |plan|), [], d.errors, d.downloadedBytes, fs);
    assert Work(t.fetch, d.savePath, plan, 0, StopPoint(d, t, |plan|), start) == start;
    assert Paths(SortById([])) == [];
    assert Concat(Contents(fs, [])) == [];
  }

  /** Resuming is never offered after a download, whatever happened to it:
      the engine writes `.partN` files, never the `.partial` file the resume
      check measures. */
  lemma DownloadLeavesNothingToResume(h: Hashes, config: ConfigMap, t: Transport, d: Downloader, fs: FileSystem, store: ResumeStore)
    requires ThreadChunkSize(config) >= 1 || d.fileSize <= 0
    requires d.savePath + ".partial" !in fs
    ensures var r := Download(h, config, t, d, fs, store);
      CanResumeDownload(r.downloader, r.store, r.fs) == (false, 0)
  {
    var r := Download(h, config, t, d, fs, store);
    PartialMarkerIsNotAPart(d.savePath);
    assert d.savePath + ".partial" !in r.fs;
  }

  // ---------------------------------------------------------------------------
  // Speed monitor

  /** A `SpeedMonitor`: the window size and the retained samples in MiB/s. */
  datatype SpeedMonitor = SpeedMonitor(windowSize: int, samples: seq<real>)

  /** One sample in MiB per second; a non-positive elapsed time counts as 0. */
  function SampleSpeed(bytes: real, elapsed: real): real
  {
    if elapsed > 0.0 then bytes / elapsed / 1024.0 / 1024.0 else 0.0
  }

  /** Append a sample, then drop the oldest one if the window overflows. */
  function Push(m: SpeedMonitor, speed: real): (r: SpeedMonitor)
    ensures r.windowSize == m.windowSize
    ensures |r.samples| == if |m.samples| + 1 > m.windowSize then |m.samples| else |m.samples| + 1
    ensures |r.samples| > 0 ==> r.samples[|r.samples| - 1] == speed
  {
    var s := m.samples + [speed];
    SpeedMonitor(m.windowSize, if |s| > m.windowSize then s[1..] else s)
  }

  /** `add_sample`. */
  function AddSample(m: SpeedMonitor, bytes: real, elapsed: real): (r: SpeedMonitor)
    ensures r.windowSize == m.windowSize
    ensures m.windowSize >= 1 ==> CurrentSpeed(r) == SampleSpeed(bytes, elapsed)
    ensures 0 <= |m.samples| < m.windowSize ==> r.samples == m.samples + [SampleSpeed(bytes, elapsed)]
    ensures 0 < |m.samples| == m.windowSize ==> r.samples == m.samples[1..] + [SampleSpeed(bytes, elapsed)]
    ensures m.windowSize >= 1 && elapsed <= 0.0 ==> CurrentSpeed(r) == 0.0
  {
    Push(m, SampleSpeed(bytes, elapsed))
  }

  function PushAll(m: SpeedMonitor, speeds: seq<real>): SpeedMonitor
    decreases |speeds|
  {
    if |speeds| == 0 then m else PushAll(Push(m, speeds[0]), speeds[1..])
  }

  /** The last `w` entries of a history (all of it when shorter, none when
      `w` is not positive). */
  function Recent(history: seq<real>, w: int): (r: seq<real>)
    ensures |r| <= |history| && r == history[|history| - |r|..]
    ensures w >= 0 ==> |r| == if |history| <= w then |history| else w
  {
    if w <= 0 then [] else if |history| <= w then history else history[|history| - w..]
  }

  lemma PushRecent(w: int, prev: seq<real>, x: real)
    ensures Push(SpeedMonitor(w, Recent(prev, w)), x).samples == Recent(prev + [x], w)
  {
    if w > 0 && |prev| > w {
      assert (prev + [x])[|prev| + 1 - w..] == prev[|prev| - w..][1..] + [x];
    }
  }

  lemma PushAllStep(w: int, prev: seq<real>, speeds: seq<real>)
    requires |speeds| > 0
    ensures PushAll(SpeedMonitor(w, Recent(prev, w)), speeds)
      == PushAll(SpeedMonitor(w, Recent(prev + [speeds[0]], w)), speeds[1..])
  {
    PushRecent(w, prev, speeds[0]);
    assert Push(SpeedMonitor(w, Recent(prev, w)), speeds[0]) == SpeedMonitor(w, Recent(prev + [speeds[0]], w));
  }

  lemma ShiftFirst(prev: seq<real>, speeds: seq<real>)
    requires |speeds| > 0
    ensures (prev + [speeds[0]]) + speeds[1..] == prev + speeds
  {
    assert speeds == [speeds[0]] + speeds[1..];
  }

  /** Starting from any window that holds the recent past, the monitor keeps
      exactly the most recent `windowSize` samples of everything seen. */
  lemma {:induction false} PushAllRecent(w: int, prev: seq<real>, speeds: seq<real>)
    ensures PushAll(SpeedMonitor(w, Recent(prev, w)), speeds).samples == Recent(prev + speeds, w)
    decreases |speeds|
  {
    if |speeds| == 0 {
      assert prev + speeds == prev;
    } else {
      PushAllStep(w, prev, speeds);
      PushAllRecent(w, prev + [speeds[0]], speeds[1..]);
      ShiftFirst(prev, speeds);
    }
  }

  /** A fresh monitor fed a history keeps its most recent `windowSize`
      samples. */
  lemma WindowKeepsRecent(w: int, speeds: seq<real>)
    ensures PushAll(SpeedMonitor(w, []), speeds).samples == Recent(speeds, w)
  {
    assert Recent([], w) == [];
    PushAllRecent(w, [], speeds);
    assert [] + speeds == speeds;
  }

  function Sum(s: seq<real>): real
  {
    if |s| == 0 then 0.0 else s[0] + Sum(s[1..])
  }

  /** `get_average_speed`: the mean of the retained samples, 0 when none. */
  function AverageSpeed(m: SpeedMonitor): (r: real)
    ensures |m.samples| == 0 ==> r == 0.0
    ensures |m.samples| > 0 ==> r * (|m.samples| as real) == Sum(m.samples)
    ensures |m.samples| == 1 ==> r == m.samples[0]
  {
    if |m.samples| == 0 then 0.0 else Sum(m.samples) / (|m.samples| as real)
  }

  /** `get_current_speed`: the most recent sample, 0 when none. */
  function CurrentSpeed(m: SpeedMonitor): (r: real)
    ensures |m.samples| > 0 ==> r in m.samples
    ensures |m.samples| == 0 ==> r == 0.0
  {
    if |m.samples| == 0 then 0.0 else m.samples[|m.samples| - 1]
  }

  /** With a window of at least one sample, the current speed is the sample
      just added. */
  lemma CurrentIsLastAdded(m: SpeedMonitor, speed: real)
    requires m.windowSize >= 1
    ensures CurrentSpeed(Push(m, speed)) == speed
  {
  }

  lemma {:induction false} SumBounds(s: seq<real>, lo: real, hi: real)
    requires forall i :: 0 <= i < |s| ==> lo <= s[i] <= hi
    ensures (|s| as real) * lo <= Sum(s) <= (|s| as real) * hi
    decreases |s|
  {
    if |s| > 0 {
      SumBounds(s[1..], lo, hi);
      assert (|s| as real) * lo == lo + ((|s| - 1) as real) * lo;
      assert (|s| as real) * hi == hi + ((|s| - 1) as real) * hi;
    }
  }

  /** The average lies between the smallest and largest bound of the
      samples it averages. */
  lemma AverageWithin(m: SpeedMonitor, lo: real, hi: real)
    requires |m.samples| > 0
    requires forall i :: 0 <= i < |m.samples| ==> lo <= m.samples[i] <= hi
    ensures lo <= AverageSpeed(m) <= hi
  {
    var n := |m.samples| as real;
    SumBounds(m.samples, lo, hi);
    assert n * lo <= Sum(m.samples) <= n * hi;
    assert Sum(m.samples) / n >= lo by {
      assert Sum(m.samples) / n * n == Sum(m.samples);
    }
    assert Sum(m.samples) / n <= hi by {
      assert Sum(m.samples) / n * n == Sum(m.samples);
    }
  }

  // ---------------------------------------------------------------------------
  // Choosing the transfer strategy

  /** `should_use_multithread`: enabled by default, for files of at least the
      configured minimum (10 MiB by default). */
  predicate ShouldUseMultithread(config: ConfigMap, fileSize: int)
    ensures "enable_multithreaded_download" in config && !Truthy(config["enable_multithreaded_download"])
      ==> !ShouldUseMultithread(config, fileSize)
    ensures ShouldUseMultithread(config, fileSize) ==> fileSize >= GetNumber(config, "min_file_size_for_multithread", 10 * MiB)
  {
    GetFlag(config, "enable_multithreaded_download", true)
      && fileSize >= GetNumber(config, "min_file_size_for_multithread", 10 * MiB)
  }

  /** With the shipped configuration, exactly files of 10 MiB and more are
      split. */
  lemma MultithreadByDefault(fileSize: int)
    ensures ShouldUseMultithread(InitialConfig(), fileSize) <==> fileSize >= 10 * MiB
  {
    assert "enable_multithreaded_download" !in InitialConfig();
    assert "min_file_size_for_multithread" !in InitialConfig();
  }

  /** Switching the option off disables splitting for every size; with it
      on, splitting starts exactly at the configured minimum. */
  lemma MultithreadGate(config: ConfigMap, fileSize: int)
    ensures "enable_multithreaded_download" in config && !Truthy(config["enable_multithreaded_download"])
      ==> !ShouldUseMultithread(config, fileSize)
    ensures GetFlag(config, "enable_multithreaded_download", true)
      ==> (ShouldUseMultithread(config, fileSize)
           <==> fileSize >= GetNumber(config, "min_file_size_for_multithread", 10 * MiB))
  {
  }

  /** If a file is split, so is every larger one. */
  lemma MultithreadMonotone(config: ConfigMap, a: int, b: int)
    requires a <= b && ShouldUseMultithread(config, a)
    ensures ShouldUseMultithread(config, b)
  {
  }

  /** `calculate_optimal_threads`: two threads below 50 MiB, four below
      500 MiB, the configured maximum otherwise, never above that maximum.
      A zero range size makes the unused `file_size // chunk_size` raise. */
  function OptimalThreads(config: ConfigMap, fileSize: int): (r: Option<int>)
    ensures r.None? <==> ThreadChunkSize(config) == 0
    ensures r.Some? ==> r.value <= GetNumber(config, "max_download_threads", 4)
    ensures r.Some? && GetNumber(config, "max_download_threads", 4) >= 1 ==> r.value >= 1
    ensures r.Some? && fileSize < 50 * MiB ==> r.value <= 2
    ensures r.Some? && fileSize < 500 * MiB ==> r.value <= 4
    ensures r.Some? && fileSize < 50 * MiB ==> r.value == Min(2, GetNumber(config, "max_download_threads", 4))
    ensures r.Some? && 50 * MiB <= fileSize < 500 * MiB ==> r.value == Min(4, GetNumber(config, "max_download_threads", 4))
    ensures r.Some? && 500 * MiB <= fileSize ==> r.value == GetNumber(config, "max_download_threads", 4)
  {
    var maxThreads := GetNumber(config, "max_download_threads", 4);
    if ThreadChunkSize(config) == 0 then None
    else if fileSize < 50 * MiB then Some(Min(2, maxThreads))
    else if fileSize < 500 * MiB then Some(Min(4, maxThreads))
    else Some(maxThreads)
  }

  /** A larger file never gets fewer threads. */
  lemma OptimalThreadsMonotone(config: ConfigMap, a: int, b: int)
    requires a <= b && ThreadChunkSize(config) != 0
    ensures OptimalThreads(config, a).value <= OptimalThreads(config, b).value
  {
  }

  /** With the shipped configuration: 2, 4 and then 4 threads. */
  lemma OptimalThreadsByDefault(fileSize: int)
    ensures OptimalThreads(InitialConfig(), fileSize) == Some(if fileSize < 50 * MiB then 2 else 4)
  {
    assert "max_download_threads" !in InitialConfig();
    assert "thread_chunk_size" !in InitialConfig();
  }
}

=== FILE: verification.dfy ===
/** Integrity checks and resume bookkeeping (file_verification.py).

    Digest functions are parameters: the model fixes which bytes are hashed and
    how the resulting hex strings are compared, not the hash itself. */
module Verification {
  import opened Text

  /** The three digest functions the module can select, each from bytes to a
      hex string. */
  datatype Hashes = Hashes(sha256: seq<byte> -> string, md5: seq<byte> -> string, sha1: seq<byte> -> string)

  /** Hex digests are compared after lower-casing both sides. */
  predicate SameDigest(a: string, b: string) { Lower(a) == Lower(b) }

  // ---------------------------------------------------------------------------
  // Whole-file and partial checksums

  datatype ChecksumError = UnsupportedAlgorithm(name: string) | ReadFailed(path: string)

  datatype Checked = Digest(hex: string) | Failed(error: ChecksumError)

  predicate Supported(algorithm: string)
  {
    algorithm == "sha256" || algorithm == "md5" || algorithm == "sha1"
  }

  /** The digest function `calculate_checksum` selects by name. */
  function Select(h: Hashes, algorithm: string): seq<byte> -> string
    requires Supported(algorithm)
  {
    if algorithm == "sha256" then h.sha256 else if algorithm == "md5" then h.md5 else h.sha1
  }

  /** `calculate_checksum`: an unknown algorithm is refused before the file is
      opened; a missing file is a read failure; otherwise the digest of the
      whole file. */
  function Checksum(h: Hashes, fs: FileSystem, path: string, algorithm: string): (r: Checked)
    ensures r == Failed(UnsupportedAlgorithm(algorithm)) <==> !Supported(algorithm)
    ensures Supported(algorithm) && path !in fs ==> r == Failed(ReadFailed(path))
    ensures Supported(algorithm) && path in fs ==> r == Digest(Select(h, algorithm)(fs[path]))
  {
    if !Supported(algorithm) then Failed(UnsupportedAlgorithm(algorithm))
    else if path !in fs then Failed(ReadFailed(path))
    else Digest(Select(h, algorithm)(fs[path]))
  }

  /** `verify_file`: the boolean is true exactly when a digest was computed and
      it equals the expected one ignoring case; the second component carries
      the computed digest or the error. */
  function VerifyFile(h: Hashes, fs: FileSystem, path: string, expected: string, algorithm: string): (r: (bool, Checked))
    ensures r.0 <==> Checksum(h, fs, path, algorithm).Digest? && SameDigest(Checksum(h, fs, path, algorithm).hex, expected)
    ensures !Supported(algorithm) || path !in fs ==> !r.0 && r.1.Failed?
    ensures Supported(algorithm) && path in fs ==> r.1 == Digest(Select(h, algorithm)(fs[path]))
  {
    var c := Checksum(h, fs, path, algorithm);
    match c
    case Digest(actual) => (SameDigest(actual, expected), c)
    case Failed(e) => (false, c)
  }

  /** The bytes a read of `[start, end)` returns: the end is exclusive and the
      read stops early at end of file. */
  function RangeBytes(content: seq<byte>, start: nat, end: int): (r: seq<byte>)
    ensures start + |r| <= |content| || |r| == 0
    ensures |r| <= if end > start then end - start else 0
  {
    var lo := if start < |content| then start else |content|;
    var hi := if end <= start then lo else if end < |content| then end else |content|;
    content[lo..hi]
  }

  /** The read loop of `calculate_partial_checksum`: 8 KiB reads from `start`
      until `end - start` bytes have been read or the file ends. */
  method ReadByteRange(content: seq<byte>, start: nat, end: int) returns (data: seq<byte>)
    ensures start < |content| && end > start ==> data == content[start..if end < |content| then end else |content|]
    ensures start >= |content| || end <= start ==> data == []
  {
    var pos := if start < |content| then start else |content|;
    var remaining := end - start;
    data := [];
    while remaining > 0
      invariant start < |content| ==> pos >= start
      invariant start >= |content| ==> pos == |content|
      invariant pos <= |content|
      invariant start < |content| ==> data == content[start..pos]
      invariant start >= |content| ==> data == []
      invariant start < |content| ==> pos - start + remaining == end - start
      invariant remaining < end - start ==> start < |content|
      invariant remaining >= 0 || remaining == end - start
      decreases remaining
    {
      var readSize := if remaining < 8192 then remaining else 8192;
      var stop := if pos + readSize < |content| then pos + readSize else |content|;
      var chunk := content[pos..stop];
      if |chunk| == 0 {
        break;
      }
      data := data + chunk;
      pos := stop;
      remaining := remaining - |chunk|;
    }
  }

  /** `calculate_partial_checksum`: like the whole-file checksum but over
      `[start, end)`, and an unknown algorithm silently selects sha1. A
      negative start makes the seek fail. */
  function PartialChecksum(h: Hashes, fs: FileSystem, path: string, start: int, end: int, algorithm: string): (r: Checked)
    ensures path !in fs || start < 0 <==> r == Failed(ReadFailed(path))
    ensures path in fs && start >= 0 && Supported(algorithm) ==> r == Digest(Select(h, algorithm)(RangeBytes(fs[path], start, end)))
    ensures path in fs && start >= 0 && !Supported(algorithm) ==> r == Digest(h.sha1(RangeBytes(fs[path], start, end)))
  {
    if path !in fs || start < 0 then Failed(ReadFailed(path))
    else if Supported(algorithm) then Digest(Select(h, algorithm)(RangeBytes(fs[path], start, end)))
    else Digest(h.sha1(RangeBytes(fs[path], start, end)))
  }

  /** The two checksum entry points disagree on an unknown algorithm: the
      whole-file one refuses it, the partial one falls back to sha1. */
  lemma UnknownAlgorithmHandling(h: Hashes, fs: FileSystem, path: string, start: nat, end: int, algorithm: string)
    requires !Supported(algorithm) && path in fs
    ensures Checksum(h, fs, path, algorithm) == Failed(UnsupportedAlgorithm(algorithm))
    ensures PartialChecksum(h, fs, path, start, end, algorithm) == Digest(h.sha1(RangeBytes(fs[path], start, end)))
  {
  }

  // ---------------------------------------------------------------------------
  // Resume records

  datatype ResumeRecord = ResumeRecord(
    url: string, savePath: string, totalSize: int, downloaded: int, checksum: Option<string>, timestamp: real)

  /** A record file on disk: parsed, or present but unreadable as JSON. */
  datatype StoredRecord = Stored(record: ResumeRecord) | Corrupt

  /** The resume directory: one file per download id. */
  type ResumeStore = map<string, StoredRecord>

  /** `load_resume_info`: None when there is no file or it cannot be parsed. */
  function LoadResume(store: ResumeStore, id: string): (r: Option<ResumeRecord>)
    ensures r.Some? <==> id in store && store[id].Stored?
    ensures r.Some? ==> store[id] == Stored(r.value)
  {
    if id in store && store[id].Stored? then Some(store[id].record) else None
  }

  /** `save_resume_info`: afterwards the id loads as the saved record and no
      other id's answer changes. */
  function SaveResume(store: ResumeStore, id: string, info: ResumeRecord): (r: ResumeStore)
    ensures LoadResume(r, id) == Some(info)
    ensures forall other :: other != id ==> LoadResume(r, other) == LoadResume(store, other)
    ensures r.Keys == store.Keys + {id}
  {
    store[id := Stored(info)]
  }

  /** `delete_resume_info`: afterwards the id loads as None and no other id's
      answer changes. */
  function DeleteResume(store: ResumeStore, id: string): (r: ResumeStore)
    ensures LoadResume(r, id) == None
    ensures forall other :: other != id ==> LoadResume(r, other) == LoadResume(store, other)
    ensures r.Keys == store.Keys - {id}
  {
    store - {id}
  }

  /** `get_partial_file_size`: 0 for a missing file. */
  function PartialFileSize(fs: FileSystem, path: string): nat
  {
    if path in fs then |fs[path]| else 0
  }

  /** `can_resume`: resumable exactly when a record exists whose total size is
      the current one and whose downloaded count equals the partial file's
      size, and that size is strictly between 0 and the total. Otherwise
      `(false, 0)`. */
  function CanResume(store: ResumeStore, id: string, fs: FileSystem, partialPath: string, totalSize: int): (r: (bool, nat))
    ensures r.0 <==> (exists rec :: LoadResume(store, id) == Some(rec)
                        && rec.totalSize == totalSize
                        && rec.downloaded == PartialFileSize(fs, partialPath)
                        && 0 < PartialFileSize(fs, partialPath) < totalSize)
    ensures r.0 ==> r.1 == PartialFileSize(fs, partialPath) && 0 < r.1
    ensures !r.0 ==> r.1 == 0
  {
    match LoadResume(store, id)
    case None => (false, 0)
    case Some(info) =>
      var partial := PartialFileSize(fs, partialPath);
      if info.totalSize == totalSize && info.downloaded == partial && partial > 0 && partial < totalSize
      then (true, partial) else (false, 0)
  }

  /** Without a partial file nothing is ever resumable, whatever the store
      holds. */
  lemma NoPartialFileNoResume(store: ResumeStore, id: string, fs: FileSystem, partialPath: string, totalSize: int)
    requires partialPath !in fs
    ensures CanResume(store, id, fs, partialPath, totalSize) == (false, 0)
  {
  }

  // ---------------------------------------------------------------------------
  // Chunk verification and merge

  datatype ChunkCheck = ChunkCheck(valid: bool, actualSize: nat, digest: Option<string>)

  /** `verify_chunk`, checked in order: missing file, then size, then the
      optional md5. A digest is returned only to report an md5 mismatch. */
  function VerifyChunk(h: Hashes, fs: FileSystem, chunkFile: string, expectedSize: int, expectedChecksum: Option<string>): (r: ChunkCheck)
    ensures chunkFile !in fs ==> r == ChunkCheck(false, 0, None)
    ensures chunkFile in fs ==> r.actualSize == |fs[chunkFile]|
    ensures r.valid <==> chunkFile in fs && |fs[chunkFile]| == expectedSize
                         && (Provided(expectedChecksum) ==> SameDigest(h.md5(fs[chunkFile]), expectedChecksum.value))
    ensures r.digest.Some? <==> chunkFile in fs && |fs[chunkFile]| == expectedSize && !r.valid
    ensures r.digest.Some? ==> r.digest.value == h.md5(fs[chunkFile])
  {
    if chunkFile !in fs then ChunkCheck(false, 0, None)
    else
      var actualSize := |fs[chunkFile]|;
      if actualSize != expectedSize then ChunkCheck(false, actualSize, None)
      else if Provided(expectedChecksum) && !SameDigest(h.md5(fs[chunkFile]), expectedChecksum.value)
      then ChunkCheck(false, actualSize, Some(h.md5(fs[chunkFile])))
      else ChunkCheck(true, actualSize, None)
  }

  /** Byte sequences joined end to end. */
  function Concat(parts: seq<seq<byte>>): (r: seq<byte>)
  {
    if |parts| == 0 then [] else parts[0] + Concat(parts[1..])
  }

  lemma {:induction false} ConcatAppend(a: seq<seq<byte>>, b: seq<seq<byte>>)
    ensures Concat(a + b) == Concat(a) + Concat(b)
    decreases |a|
  {
    if |a| > 0 {
      assert (a + b)[1..] == a[1..] + b;
      ConcatAppend(a[1..], b);
    } else {
      assert a + b == b;
    }
  }

  predicate AllPresent(fs: FileSystem, paths: seq<string>)
  {
    forall i :: 0 <= i < |paths| ==> paths[i] in fs
  }

  function Contents(fs: FileSystem, paths: seq<string>): (r: seq<seq<byte>>)
    requires AllPresent(fs, paths)
    ensures |r| == |paths| && forall i :: 0 <= i < |paths| ==> r[i] == fs[paths[i]]
  {
    seq(|paths|, i requires 0 <= i < |paths| => fs[paths[i]])
  }

  /** What the merge loop leaves behind: the bytes written to the output and
      the index of the first missing chunk file, if any. */
  datatype MergeScan = MergeScan(written: seq<byte>, missing: Option<nat>)

  /** The copy loop of `merge_and_verify_chunks`: chunk files are appended in
      the given order and the loop stops at the first missing one, leaving the
      output holding the chunks before it. */
  function MergeFiles(fs: FileSystem, paths: seq<string>): (r: MergeScan)
    ensures r.missing.None? ==> AllPresent(fs, paths) && r.written == Concat(Contents(fs, paths))
    ensures r.missing.Some? ==> var i := r.missing.value;
              && i < |paths| && paths[i] !in fs && AllPresent(fs, paths[..i])
              && r.written == Concat(Contents(fs, paths[..i]))
    decreases |paths|
  {
    if |paths| == 0 then MergeScan([], None)
    else if paths[0] !in fs then MergeScan([], Some(0))
    else
      var rest := MergeFiles(fs, paths[1..]);
      match rest.missing
      case None =>
        PresentCons(fs, paths);
        MergeScan(fs[paths[0]] + rest.written, None)
      case Some(i) =>
        var done := paths[..i + 1];
        assert done[0] == paths[0] && done[1..] == paths[1..][..i];
        PresentCons(fs, done);
        MergeScan(fs[paths[0]] + rest.written, Some(i + 1))
  }

  /** A present head in front of present paths: the contents gain the head's
      bytes in front. */
  lemma PresentCons(fs: FileSystem, paths: seq<string>)
    requires |paths| > 0 && paths[0] in fs && AllPresent(fs, paths[1..])
    ensures AllPresent(fs, paths)
    ensures Concat(Contents(fs, paths)) == fs[paths[0]] + Concat(Contents(fs, paths[1..]))
  {
    forall k | 0 < k < |paths|
      ensures paths[k] in fs
    {
      assert paths[k] == paths[1..][k - 1];
    }
    assert Contents(fs, paths) == [fs[paths[0]]] + Contents(fs, paths[1..]);
  }

  datatype MergeFailure =
    | ChunkMissing(path: string)
    | SizeMismatch(expected: int, got: nat)
    | ChecksumMismatch

  datatype MergeOutcome = Merged | MergeFailed(why: MergeFailure)

  /** The error message `merge_and_verify_chunks` returns for each failure. */
  function FailureMessage(f: MergeFailure): string
  {
    match f
    case ChunkMissing(path) => "Chunk file missing: " + path
    case SizeMismatch(expected, got) =>
      "Size mismatch: expected " + IntToString(expected) + ", got " + NatToString(got)
    case ChecksumMismatch => "Checksum mismatch: file may be corrupted"
  }

  /** A size mismatch and a checksum mismatch are never reported with the
      same message, and neither reads like a missing chunk. */
  lemma FailureMessagesDistinct(f: MergeFailure, g: MergeFailure)
    requires f.ChunkMissing? != g.ChunkMissing? || f.SizeMismatch? != g.SizeMismatch?
    ensures FailureMessage(f) != FailureMessage(g)
  {
    var a := FailureMessage(f);
    var b := FailureMessage(g);
    assert a[2] != b[2];
  }

  /** The merge succeeds: every chunk file is there, and their concatenation
      has the expected length and (when one is supplied) the expected sha256
      digest. */
  predicate MergeOk(h: Hashes, fs: FileSystem, chunkPaths: seq<string>, expectedTotal: int, expectedChecksum: Option<string>)
  {
    && AllPresent(fs, chunkPaths)
    && |Concat(Contents(fs, chunkPaths))| == expectedTotal
    && (Provided(expectedChecksum) ==> SameDigest(h.sha256(Concat(Contents(fs, chunkPaths))), expectedChecksum.value))
  }

  /** `merge_and_verify_chunks`: the output is (re)created and receives the
      in-order concatenation; it fails on the first missing chunk, then on a
      length different from the expected total, then (when a checksum is
      supplied) on a sha256 mismatch. */
  function MergeAndVerify(h: Hashes, fs: FileSystem, chunkPaths: seq<string>, output: string,
                          expectedTotal: int, expectedChecksum: Option<string>): (r: (MergeOutcome, FileSystem))
    requires output !in chunkPaths
    ensures output in r.1 && r.1 == fs[output := r.1[output]]
    ensures r.0 == Merged <==> MergeOk(h, fs, chunkPaths, expectedTotal, expectedChecksum)
    ensures AllPresent(fs, chunkPaths) ==> r.1[output] == Concat(Contents(fs, chunkPaths))
    ensures r.0 == MergeFailed(ChecksumMismatch) ==> AllPresent(fs, chunkPaths) && |r.1[output]| == expectedTotal
    ensures (r.0.MergeFailed? && r.0.why.SizeMismatch?) ==> AllPresent(fs, chunkPaths) && r.0.why.got != expectedTotal
    ensures (r.0.MergeFailed? && r.0.why.ChunkMissing?) <==> !AllPresent(fs, chunkPaths)
  {
    var scan := MergeFiles(fs, chunkPaths);
    var fs' := fs[output := scan.written];
    match scan.missing
    case Some(i) => (MergeFailed(ChunkMissing(chunkPaths[i])), fs')
    case None =>
      if |scan.written| != expectedTotal then (MergeFailed(SizeMismatch(expectedTotal, |scan.written|)), fs')
      else if Provided(expectedChecksum) && !SameDigest(h.sha256(scan.written), expectedChecksum.value)
      then (MergeFailed(ChecksumMismatch), fs')
      else (Merged, fs')
  }

  // ---------------------------------------------------------------------------
  // Whole-download verification

  datatype DownloadCheck = FileMissing | WrongSize(expected: int, actual: nat) | ChecksumFailed | Verified

  /** `verify_download`: existence, then size, then the optional checksum. */
  function VerifyDownload(h: Hashes, fs: FileSystem, path: string, expectedSize: int,
                          expectedChecksum: Option<string>, algorithm: string): (r: DownloadCheck)
    ensures r == FileMissing <==> path !in fs
    ensures r.WrongSize? <==> path in fs && |fs[path]| != expectedSize
    ensures r.WrongSize? ==> r == WrongSize(expectedSize, |fs[path]|)
    ensures r == Verified <==> (path in fs && |fs[path]| == expectedSize
                                && (Provided(expectedChecksum) ==> VerifyFile(h, fs, path, expectedChecksum.value, algorithm).0))
  {
    if path !in fs then FileMissing
    else if |fs[path]| != expectedSize then WrongSize(expectedSize, |fs[path]|)
    else if Provided(expectedChecksum) && !VerifyFile(h, fs, path, expectedChecksum.value, algorithm).0 then ChecksumFailed
    else Verified
  }
}
